=== FILE: README.md ===
# ai_invest — a Dafny model of the news pipeline and the report scheduler

ai_invest is a personal market-news assistant. A scraper polls RSS feeds,
filters titles by include/exclude keywords, and stores each accepted article
as a small text file named by the hash of its title. It expires old files. A
news page reads the store back, sorts it and filters it. A collector loop
does three things:
- it gathers market indicators every ten minutes and macro indicators every
  hour;
- it asks a configurable language model for daily, weekly and monthly
  reports;
- it files each report under a tier directory, keeps a `latest.txt` copy and
  purges old archives. Prior reports are read back as "historical context".

This project models that core as pure Dafny functions over immutable data:
- a directory is a map from file names to entries (content, modification
  time, regular file or not);
- the reports root is a map from tier directories to directories;
- settings and API responses are a JSON datatype.

The branches of the Python code are branches of the model, including the
error paths. A Python exception that the code catches becomes `None`, or an
explicit "stop here" outcome, at the point where the code would leave the
block. There are two exceptions:
- the scraper pass stores entries with the corrected save, not the save as
  written (see "## Findings");
- writes to the time-series database are taken not to raise.

Files are read in text mode with universal newlines, so `\r\n` and a lone
`\r` read back as `\n` (`ReportStore.ReadText`). The news reader's
`splitlines` treats both as one line end either way.

Everything the code takes from outside is a parameter of the model:
- hashing (`md5`), date parsing and `float()`;
- `str()` of a non-string value;
- the clock;
- the HTTP exchange;
- the report generator;
- the fetched indicator values.

Modules:
- `Options`, `Strings`, `Files`, `Json` (strings.dfy, json.dfy): shared
  vocabulary. Python's `strip`, `lower`, `split`, `splitlines`, `replace`,
  `in`, truthiness, `dict.get` and the `a or b or c` chain.
- `Filter` (filter.dfy): the keyword filters in their three copies. These
  are `is_filtered` and `check_filters` of the page and `check_logic` of the
  scraper. The lemmas say how the copies agree and where they differ.
- `PendingStore` (pending.dfy): `save_file` and the four-line record layout,
  and `load_pending_files`.
- `Scraper` (scraper.dfy): `cleanup_old_files` and one pass of
  `start_scraping`.
- `ReportStore` (reports.dfy): `save_report_to_file` with its tiered purge,
  and `load_historical_contexts`.
- `Settings` (settings.dfy): `load_data` and its repair of missing keys.
- `Numbers` (numbers.dfy): `safe_float`.
- `Quotes` (quotes.dfy): the record-selection logic of `fetch_api_data`.
- `AiClient` (aiclient.dfy): the routing, key choice, request shape and
  answer extraction of `get_ai_summary`.
- `Clock` (clock.dfy): `strptime`/`strftime` with `%H:%M`, and adding
  minutes to a time of day.
- `Scheduler` (scheduler.dfy): `generate_auto_report` and one pass of the
  collector's main loop.

Behaviours of the code that the model keeps as written:
- **Deduplication is by title alone.** The stored file name is the hash of
  the title, with no date component. `PendingStore.SameTitleKeepsFirst`
  states the consequence.
- **An include string without terms rejects every title in one copy of the
  filter.** `check_filters` treats a non-empty include string that yields no
  term (`","`, `" "`) as "require one of no terms". The other filters treat
  it as "no include filter". See `Filter.BlankIncludeRejects` and
  `Filter.CheckFiltersAgrees`.
- **An unpadded report time never fires the daily report.** The daily
  trigger compares the configured text itself with the zero-padded clock.
  A report time written without padding, such as `8:00`, parses, so the
  weekly and monthly times derived from it (08:10, 08:20) still fire, but
  the daily report never does. See `Scheduler.UnpaddedBaseNeverDaily`.
- **Weekly and monthly slots need the daily archive.** They list the daily
  archive directory. When that directory is missing, the listing raises and
  the whole pass is abandoned before the indicator collection. An unreadable
  report time abandons the pass in the same way.
- **Only the attempted tier's marker moves, and only on success.** A tier's
  "done for this period" marker moves only when its report was actually
  saved. A report text starting with the cross mark `❌` (the language-model
  client's alert) is refused, not saved.
- **Automatic reports are on unless the file turns them off.** The defaults
  carry `true`, and the loader adds the key, set to `true`, to any loaded
  object that lacks it. The loop's own fallback of `False` is therefore never
  reached. See `Scheduler.LoadedConfigAutoGenOn`.

## Model

| member | source | states |
|---|---|---|
| Filter.IsFiltered | ai_invest/app.py:7-28 | a title is kept exactly when no global or feed exclude term occurs in the lower-cased, stripped title, and each non-empty include list has a term that occurs in it |
| Filter.ExcludeWins | ai_invest/app.py:12-16 | an exclude term found in the title rejects it whatever the include lists hold |
| Filter.BlankFiltersAcceptAll | ai_invest/app.py:13-28 | filter strings made only of commas and whitespace accept every title |
| Filter.KeepTerms | ai_invest/scraper.py:98-99 | every keyword kept from a comma-separated string is non-empty, lower case and without surrounding whitespace |
| Filter.TermsConcat | ai_invest/app.py:13-14 | joining the global and feed exclude strings with a comma yields the concatenation of their keyword lists |
| Filter.TermsEmptyIff | ai_invest/app.py:14 | a filter string yields no keyword exactly when it consists of commas and whitespace only |
| Filter.AnyIn | ai_invest/scraper.py:44 | the left-to-right `any` over non-empty terms is true exactly when some non-empty term occurs in the text |
| Filter.HitsIgnoreStrip | ai_invest/app.py:10 | stripping the title cannot create or destroy a match of a keyword, since keywords have no whitespace at their ends |
| Filter.CheckFilters | ai_invest/app.py:145-153 | a title with an exclude keyword is rejected; a kept title either has no include string or contains an include keyword |
| Filter.CheckFiltersAgrees | ai_invest/app.py:145-153 | when the include string is empty or yields a keyword, the page's feed filter gives the same verdict as the page's main filter |
| Filter.BlankIncludeRejects | ai_invest/app.py:150-152 | a non-empty include string without any keyword rejects every title |
| Filter.CheckLogic | ai_invest/scraper.py:40-50 | the scraper keeps a text exactly when no exclude term hits the lower-cased text and the include list is empty or one of its terms hits |
| Filter.EmptyTermsRejectAll | ai_invest/scraper.py:47-49 | an include list made only of empty strings rejects every text |
| Filter.ScraperAgreesWithPage | ai_invest/scraper.py:98-117 | the scraper's two checks of a title under the global and feed lists agree with the page's main filter on the same strings |
| PendingStore.SaveFile | ai_invest/scraper.py:15-34 | the store gains exactly the title's hash file, no existing file changes, and a new file holds the four labelled lines with the fallback date for an undated entry |
| PendingStore.ParseTxt | ai_invest/app.py:208-216 | a text record is read exactly when the file has at least three lines; `PendingStore.LayoutRoundTrip` shows the fields a save wrote come back |
| PendingStore.SameTitleKeepsFirst | ai_invest/scraper.py:18-21 | a second entry with the same title changes nothing: the first stored version stays |
| PendingStore.SaveFileAsWritten | ai_invest/scraper.py:24-26 | the save as written succeeds exactly when the file exists already or the entry carries a non-empty date, and then agrees with the corrected save |
| PendingStore.UndatedEntryLost | ai_invest/scraper.py:24-26 | an undated entry with a new title is lost by the save as written but stored by the corrected save |
| PendingStore.LayoutRoundTrip | ai_invest/app.py:209-216 | fields without line breaks and without their own label read back from a stored record unchanged |
| PendingStore.ShortRecordSkipped | ai_invest/app.py:210 | content with fewer than three lines yields no record |
| PendingStore.ReadRecord | ai_invest/app.py:189-216 | only a regular file yields an item; a `.json` file yields one exactly when it decodes, with the untitled default, its date text, and the file time when that text does not parse; a text file yields one exactly when `ParseTxt` reads it, carrying its fields, the stored-data source, and the current time when the date does not parse |
| PendingStore.ItemOf | ai_invest/app.py:178-216 | an item comes only from a listed `.json` or `.txt` name that is a regular file of the directory, read as `ReadRecord` reads it |
| PendingStore.Survivors | ai_invest/app.py:218-238 | the items kept are exactly the candidates that pass the window and the feed filter, each as many times as it occurs among the candidates |
| PendingStore.Collect | ai_invest/app.py:178-238 | every item comes from a listed file and passes the window and filter, and each passing item is listed once per listed file that yields it |
| PendingStore.Insert | ai_invest/app.py:248 | inserting into a newest-first list keeps it newest-first and adds exactly the new item |
| PendingStore.SortDesc | ai_invest/app.py:248 | the sorted list is newest first and a permutation of the input |
| PendingStore.LoadPendingFiles | ai_invest/app.py:167-249 | the page's list is newest first, is a permutation of the surviving items, lies in the chosen window and passes the feed filter |
| PendingStore.TodayKeepsToday | ai_invest/app.py:223-225 | with the "today" window every item was published on the current calendar day |
| PendingStore.SavedRecordListed | ai_invest/app.py:209-238 | a record saved by the scraper and dated within the week appears on the week page with its fields intact |
| Scraper.Sweep | ai_invest/scraper.py:59-73 | a file disappears exactly when it is a regular `.txt` file strictly older than the retention period and its removal does not fail; nothing else changes |
| Scraper.SweepIdempotent | ai_invest/scraper.py:62-73 | a second sweep at the same moment removes nothing more |
| Scraper.SweepKeepsBoundaryAndOthers | ai_invest/scraper.py:66-68 | a file exactly as old as the retention period, a non-`.txt` name and a directory all survive |
| Scraper.RemoveWhere | ai_invest/scraper.py:62-73 | the listing walk removes exactly the doomed names and counts the removals |
| Scraper.CleanupOldFiles | ai_invest/scraper.py:52-73 | the expiry pass leaves exactly the swept store and reports how many files went |
| Scraper.Ingest | ai_invest/scraper.py:112-120 | existing files never change; every new file is named after an admitted entry and holds that entry's title, link, date and summary layout; with a named feed and titled entries every admitted entry is stored |
| Scraper.IngestCovers | ai_invest/scraper.py:112-119 | after a walk over a feed's entries, every entry the walk reaches already has its file |
| Scraper.IngestFeed | ai_invest/scraper.py:107-120 | a feed that could not be read changes nothing; otherwise existing files stay and every new file comes from one of its first fifty entries that passes both filters, holding that entry's layout |
| Scraper.IngestAll | ai_invest/scraper.py:106-120 | existing files stay, and every new file comes from some configured feed as `IngestFeed` describes |
| Scraper.ScrapeCycle | ai_invest/scraper.py:95-120 | a file survives unchanged unless the expiry removes it, only expired files disappear, and every file the pass adds comes from a configured feed; `Scraper.NoFeedsOnlySweeps` covers an empty feed list |
| Scraper.IngestAllGrows | ai_invest/scraper.py:106-120 | going through all feeds only adds files and never rewrites one |
| Scraper.IngestAllIdempotent | ai_invest/scraper.py:106-120 | reading the same feeds again stores nothing new |
| Scraper.NoFeedsOnlySweeps | ai_invest/scraper.py:95-103 | with no feeds configured a cycle only expires files |
| Scraper.CycleNeverRewrites | ai_invest/scraper.py:95-119 | a file that the sweep keeps is still there after a cycle with unchanged content |
| Scraper.BeyondLimitIgnored | ai_invest/scraper.py:112 | entries after the fiftieth of a feed never produce a file |
| ReportStore.SubdirFor | ai_invest/common.py:76-81 | daily, weekly, monthly and yearly sections, in any letter case, get their tier directory; every other section goes to `05_etc` |
| ReportStore.SubdirIgnoresCase | ai_invest/common.py:81 | section names equal up to ASCII case are filed in the same directory |
| ReportStore.ArchiveNameNotLatest | ai_invest/common.py:86-87 | an archive file name built from the fifteen-character stamp is never `latest.txt` |
| ReportStore.Purge | ai_invest/common.py:100-108 | a file is purged exactly when it is a regular file other than `latest.txt` older than its tier's limit (9, 35 or 370 days); nothing else changes |
| ReportStore.UnpurgedTiers | ai_invest/common.py:100-101 | yearly and unknown-section reports are never purged |
| ReportStore.SaveReport | ai_invest/common.py:73-110 | only the section's tier directory changes, the save completes exactly when both the archive and `latest.txt` can be opened for writing, and a completed save returns the archive path |
| ReportStore.SaveReportContents | ai_invest/common.py:90-108 | after a completed save the archive and `latest.txt` hold the report; other files stay unchanged unless the purge rule removes them |
| ReportStore.FailedSaveKeepsLatest | ai_invest/common.py:90-96 | a failed save leaves `latest.txt` of the tier as it was |
| ReportStore.Take | ai_invest/common.py:133 | the quoted excerpt is a prefix of the report of length `min(len, 1000)` |
| ReportStore.ReadText | ai_invest/common.py:129-130 | the text-mode read leaves no carriage return, is never longer than the stored text, and leaves text without carriage returns unchanged |
| ReportStore.ReadTextPlain | ai_invest/common.py:129-130 | text without carriage returns reads back unchanged, and reading is idempotent |
| ReportStore.CrLfLineEnd | ai_invest/common.py:129-130 | a `\r\n` line end reads back as one `\n` |
| ReportStore.CrLineEnd | ai_invest/common.py:129-130 | a lone `\r` line end reads back as one `\n` |
| ReportStore.Sections | ai_invest/common.py:124-139 | the tier sections are produced exactly when none of them raises |
| ReportStore.Section | ai_invest/common.py:124-135 | a tier raises exactly when a directory stands where its `latest.txt` should be, a missing file gives the missing placeholder, and every section opens with its heading |
| ReportStore.SectionFailsIffBlocked | ai_invest/common.py:128-130 | a tier's section raises exactly when a directory stands where its `latest.txt` should be |
| ReportStore.LoadHistoricalContexts | ai_invest/common.py:112-141 | the digest exists exactly when no tier is blocked, and it starts with the fixed header |
| ReportStore.DigestLayout | ai_invest/common.py:115-141 | the digest is the header followed by the yearly, monthly, weekly and daily sections in that order |
| ReportStore.LongLatestQuoted | ai_invest/common.py:129-133 | a `latest.txt` that reads back in text mode with more than ten non-blank characters is quoted under its heading as read back, cut at 1000 characters |
| ReportStore.ShortLatestPlaceholder | ai_invest/common.py:129-135 | a `latest.txt` that reads back as at most ten characters after stripping gives the "still empty" placeholder |
| ReportStore.PlaceholdersDiffer | ai_invest/common.py:134-139 | the "still empty" and "not yet created" placeholders are distinguishable |
| ReportStore.EmptyRootDigest | ai_invest/common.py:136-139 | with no reports at all every tier gets the "not yet created" placeholder |
| ReportStore.SavedDailyEndsDigest | ai_invest/common.py:119-133 | right after a daily report is saved, the digest ends with that report quoted under DAILY_LOG as read back, which is the report itself when it has no carriage return |
| Settings.FillSubs | ai_invest/common.py:195-198 | filling a model group keeps every user value; an object ends with exactly its own keys and the default sub-keys, each added sub-key holding its default value |
| Settings.Lookup | ai_invest/common.py:192-198 | the first pair for a key, as the loops visit the defaults, exists exactly when some pair names the key |
| Settings.FillSubsIdempotent | ai_invest/common.py:195-198 | filling a group twice is the same as filling it once |
| Settings.Merge | ai_invest/common.py:192-198 | a successful merge of an object keeps every user value, leaves every value outside the model entries exactly as it was, and its keys are exactly the document's keys and the default keys |
| Settings.MergeHoldsAll | ai_invest/common.py:192-198 | after a successful merge every default key is present, and every model group holds every default sub-key |
| Settings.MergeOfComplete | ai_invest/common.py:192-198 | a document that already holds every default is returned unchanged |
| Settings.MergeIdempotent | ai_invest/common.py:192-199 | merging the defaults into a merged document changes nothing |
| Settings.ScalarDocumentFails | ai_invest/common.py:193 | a number, boolean or null document makes the merge raise |
| Settings.NonObjectFails | ai_invest/common.py:193-197 | any document that is not an object makes the merge raise once a model group is reached |
| Settings.ObjectMergeSucceeds | ai_invest/common.py:192-199 | an object whose model entries, where present, are objects merges without raising |
| Settings.MergeFillsObject | ai_invest/common.py:192-199 | the merged object has every default key, and a model entry that is an object has every default sub-key |
| Settings.LoadData | ai_invest/common.py:143-201 | a missing file gives the defaults and writes them when it can; an unreadable file, a document that is not an object, or a merge that raises gives the defaults; a loaded object whose model entries are objects keeps every value outside the model entries exactly, has exactly its own and the default keys, a missing key holding its default value and a model object gaining exactly its missing sub-keys with their defaults, and it loads again to the same settings |
| Settings.MergeFramesKey | ai_invest/common.py:192-199 | a key that is not one of the defaults keeps its loaded value |
| Settings.MissingGetsDefault | ai_invest/common.py:192-194 | a default key missing from the loaded object gets exactly its default value |
| Settings.MergeFillsGroup | ai_invest/common.py:195-198 | a user's model object ends with exactly its own keys and the default sub-keys, its values kept and each added sub-key holding its default |
| Settings.MergedHealed | ai_invest/common.py:192-199 | a merged object keeps every value outside the model entries exactly, has exactly the user's and the default keys, holds the default wherever a key or a model sub-key was missing, and merges again to itself |
| Settings.DefaultsAutoGenOn | ai_invest/common.py:151 | the default settings turn automatic reports on |
| Settings.DefaultKeysDistinct | ai_invest/common.py:145-174 | the default settings name each key once |
| Settings.NonObjectGivesDefaults | ai_invest/common.py:188-201 | a settings file that is not a JSON object yields the defaults |
| Settings.LoadedObjectHealed | ai_invest/common.py:188-199 | a loaded object with object-valued model entries keeps every value outside the model entries exactly, gains every default key with its default value, fills the model objects, and loads again to the same settings |
| Numbers.Clean | ai_invest/common.py:57 | the cleaned text holds only digits, dots and dashes and is no longer than the input |
| Numbers.CleanSubseq | ai_invest/common.py:57 | the cleaned text is obtained from the input by deleting characters |
| Numbers.CleanCounts | ai_invest/common.py:57 | each digit, dot and dash keeps its number of occurrences; every other character vanishes |
| Numbers.CleanIdempotent | ai_invest/common.py:57 | cleaning twice is cleaning once |
| Numbers.SafeFloat | ai_invest/common.py:54-59 | null, empty and a lone dash read as zero; any other value reads as the parse of its cleaned text when that text is non-empty and parses, and as zero otherwise |
| Numbers.NoKeptCharsIsZero | ai_invest/common.py:57-58 | text without a digit, dot or dash reads as zero whatever the parser does |
| Numbers.DecorationIgnored | ai_invest/common.py:57-58 | two texts with the same cleaned form read the same |
| Json.OrChain | ai_invest/stock_collector.py:41 | the `or` chain yields the first truthy value, or the last value when none is truthy |
| Quotes.SourceList | ai_invest/stock_collector.py:17-24 | the record source is `datas` when it is non-empty, else `result`, else the list itself or an empty list, also when `datas` is present but empty; it raises for a `datas` without a length, a scalar response, and a list or text holding `datas` or `result` |
| Quotes.ScanStop | ai_invest/stock_collector.py:27-34 | the scan stops at the first record that is not an object without a usable price |
| Quotes.PickEntry | ai_invest/stock_collector.py:27-34 | no record is picked exactly when every record is an object without a usable price; the scan raises exactly when the first record it does not pass over is not an object, and otherwise picks that record, which has a usable price |
| Quotes.PickedIsFirst | ai_invest/stock_collector.py:27-34 | every record before the picked one is passed over |
| Quotes.UsableHeadPicked | ai_invest/stock_collector.py:30-34 | a usable first record is picked whatever the later records are |
| Quotes.OrChainPrefix | ai_invest/stock_collector.py:30-41 | a truthy value among the first operands of an `or` chain is the value of the whole chain |
| Quotes.PickedPriceUsable | ai_invest/stock_collector.py:30-44 | a record the scan picks has a usable price: the price chain stops at the pick chain's value |
| Quotes.FromItem | ai_invest/stock_collector.py:39-49 | a reading comes exactly from a non-empty record with a usable price, and it is that record's reading |
| Quotes.FromSource | ai_invest/stock_collector.py:27-49 | a list source gives the picked record's reading, or nothing when no record is picked; any other source is read as the record itself |
| Quotes.FetchApiData | ai_invest/stock_collector.py:9-53 | no response or a raising source lookup gives nothing; a list source gives the picked record's reading and nothing without a pick; an object source gives its reading exactly when it is non-empty with a usable price; any other source gives nothing |
| Quotes.NoUsableRecordNoQuote | ai_invest/stock_collector.py:27-44 | records none of which carries a usable price give no quote |
| Quotes.DashPriceNoQuote | ai_invest/stock_collector.py:39-44 | a record whose price fields all hold the dash gives no quote |
| Quotes.FirstUsableRecordWins | ai_invest/stock_collector.py:27-34 | the first usable record wins over a later one, and a non-object record before it makes the fetch fail |
| AiClient.RStrip | ai_invest/app.py:36 | the result is a prefix of the input with no trailing slash, and everything removed is slashes |
| AiClient.ModelFor | ai_invest/app.py:35-37 | the role's settings are read exactly when the entry is an object with a text URL; the URL, name and key are the entry's, and the key is empty exactly when it is falsy or prints as empty |
| AiClient.GoogleRouteFromSettings | ai_invest/app.py:35-45 | the request goes to Google's endpoint exactly when the role's configured URL, without trailing slashes, contains Google's host |
| AiClient.ApiKey | ai_invest/app.py:48-53 | Google's endpoint gets the Gemini key; any other server gets the model's own key, else the OpenAI key |
| AiClient.BuildRequest | ai_invest/app.py:45-72 | the native format is used exactly for Google's host, the URL per format, a JSON content type always, and a Bearer header exactly for a non-Google server with a non-empty key |
| AiClient.Extract | ai_invest/app.py:90-95 | an answer is found only in an object; an object with `candidates` is read in the Google layout, any other in the chat layout; `AiClient.NativeBodyAnswered` and `AiClient.ChatBodyAnswered` give the answers |
| AiClient.TrailingSlashIgnored | ai_invest/app.py:36 | a trailing slash on the configured URL makes no difference to the request |
| AiClient.KeylessLocalHasNoAuth | ai_invest/app.py:71-72 | a local server without any key gets no Authorization header |
| AiClient.GetAiSummary | ai_invest/app.py:30-101 | the call is made exactly when the settings are readable; a timeout gives the timeout alert, a failure gives the error alert with its message, an answer gives what extraction found, and an answer without that content gives the error alert for the extraction failure |
| AiClient.NativeBodyAnswered | ai_invest/app.py:91-92 | a Google-style response yields its first candidate's first part text |
| AiClient.ChatBodyAnswered | ai_invest/app.py:94-95 | a chat-style response yields its first choice's message content |
| AiClient.EmptyChoicesAlert | ai_invest/app.py:95-101 | an empty choice list is reported as an error alert |
| Clock.ParseClock | ai_invest/stock_collector.py:211 | an accepted text has three to five characters, a colon after the hour, and digits at both ends |
| Clock.FormatClock | ai_invest/stock_collector.py:214-217 | a written time has five characters, a colon in the middle and digits elsewhere |
| Clock.ParseFormat | ai_invest/stock_collector.py:211-217 | writing a time of day and reading it back gives the same time |
| Clock.FormatParse | ai_invest/stock_collector.py:210-225 | accepted text writes back unchanged exactly when it has five characters |
| Clock.FormatInjective | ai_invest/stock_collector.py:214-217 | different times of day are written differently |
| Clock.ShortTextNeverWritten | ai_invest/stock_collector.py:217-225 | accepted text shorter than five characters never equals a written time |
| Clock.Shift | ai_invest/stock_collector.py:214-215 | adding minutes to a time of day wraps at midnight |
| Clock.ShiftMoves | ai_invest/stock_collector.py:214-215 | an offset shorter than a day always changes the time |
| Clock.LenientEight | ai_invest/stock_collector.py:210-211 | `8:00` is read as 08:00, which is written as `08:00` |
| Clock.RefusedTexts | ai_invest/stock_collector.py:211 | `24:00`, `08:60` and `08:000` are refused |
| Scheduler.GenerateAutoReport | ai_invest/stock_collector.py:164-186 | an attempt succeeds exactly when the settings file exists, a report was generated, it is not an alert and the save completed; without a report nothing changes; with one the reports tree is what `save_report` leaves, so other tiers are untouched and on success `latest.txt` holds the report |
| Scheduler.ClientAlertNeverSaved | ai_invest/stock_collector.py:177-178 | every alert of the language-model client is refused and leaves the reports as they were |
| Scheduler.DailyCount | ai_invest/stock_collector.py:233-236 | the daily archive can be counted exactly when its directory exists |
| Scheduler.ReportStep | ai_invest/stock_collector.py:223-257 | the pass is abandoned exactly when a weekly or monthly slot meets a missing daily archive; each tier is attempted exactly under its time, day, archive-size and marker conditions; an attempted tier's marker becomes its current period key exactly when the report was saved, and stays otherwise; other markers stay; the reports are those the attempt left, or unchanged without one |
| Scheduler.LastAccepted | ai_invest/stock_collector.py:262-269 | the position of the last result for a symbol that the collection accepts, and none exactly when no result for it is accepted |
| Scheduler.Absorb | ai_invest/stock_collector.py:262-269 | the symbols after collection are the old ones plus those with an accepted result; a symbol with an accepted result holds the value of its last accepted result, and any other keeps its reading |
| Scheduler.AbsorbKeeps | ai_invest/stock_collector.py:262-269 | a symbol without an accepted result keeps its reading |
| Scheduler.AbsorbTakesLast | ai_invest/stock_collector.py:262-269 | an accepted result that no later accepted result for the same symbol follows is the symbol's reading |
| Scheduler.Merge | ai_invest/stock_collector.py:271-274 | an update adds or replaces exactly the returned symbols, its keys are the old ones and the returned ones, and a missing or empty result changes nothing |
| Scheduler.Collect | ai_invest/stock_collector.py:262-274 | the symbols afterwards are the old ones and those with an accepted quote or table reading or a trend or fund entry; fund entries win; a symbol no source reports keeps its reading |
| Scheduler.BaseText | ai_invest/stock_collector.py:210 | the report time text has no surrounding whitespace; `Scheduler.UnpaddedBaseNeverDaily` shows an unpadded time is accepted but never matches |
| Scheduler.AutoGen | ai_invest/stock_collector.py:218 | automatic reports are off when the key is missing, null or false and on when it is true; `Scheduler.LoadedConfigAutoGenOn` shows the loader adds it, on |
| Scheduler.NonPositiveQuoteKeepsReading | ai_invest/stock_collector.py:264-265 | a quote without a positive price never replaces a symbol's reading |
| Scheduler.Tick | ai_invest/stock_collector.py:206-296 | a pass is abandoned exactly when the report time is unreadable or the report part raises; a completed pass carries the report part's markers, reports and attempted tier; the readings are the old ones passed through the collection when ten minutes have elapsed and then through the macro collection when an hour has; the time stamps advance exactly when their intervals have elapsed |
| Scheduler.PassCompletes | ai_invest/stock_collector.py:206-296 | with a readable report time and the daily archive present a pass always completes, and a due collection alone refreshes the readings by the collection |
| Scheduler.LoadedConfigAutoGenOn | ai_invest/stock_collector.py:208-218 | unless the settings file itself holds the flag, the loaded configuration has automatic reports on |
| Scheduler.AutoGenOffNoReport | ai_invest/stock_collector.py:218-223 | with automatic reports off a pass never touches markers or reports |
| Scheduler.MarkerMovesOnlyOnSave | ai_invest/stock_collector.py:225-257 | a marker moves only to its tier's current period and only when that tier's report was saved |
| Scheduler.OneReportPerPeriod | ai_invest/stock_collector.py:225-255 | after a pass that saved a tier's report, no later pass in the same date, `%Y-%U` week or month of that tier attempts it again |
| Scheduler.WeeklyGuard | ai_invest/stock_collector.py:232-243 | a weekly attempt happens only on a Sunday at the base time plus ten minutes, with at least seven archived daily reports and a new week |
| Scheduler.MonthlyGuard | ai_invest/stock_collector.py:246-257 | a monthly attempt happens only on the first of the month at the base time plus twenty minutes, with at least twenty archived daily reports and a new month |
| Scheduler.UnpaddedBaseNeverDaily | ai_invest/stock_collector.py:210-225 | an accepted report time shorter than five characters never triggers the daily report |
| Scheduler.FailedAttemptKeepsLatest | ai_invest/stock_collector.py:169-186 | a failed attempt leaves every tier's `latest.txt` as it was |

## Left out

- The network and the outside world are parameters, not models: RSS fetching and parsing (feedparser), HTTP requests, the HTML table scrapers, the investor-trend, market-fund and macro fetchers, and the report generator (`generate_market_report`). The model receives their results.
- InfluxDB writes (`save_to_influx`) are left out. The client library's import is not part of this model; line 12 of common.py holds only a fragment of it. The model assumes a write neither changes the readings nor raises.
- The Streamlit page, PDF export, chart rendering and the settings forms of app.py are left out because they are presentation only.
- constants.py (the symbol and URL tables) is left out. The fetched values arrive in configuration order as a parameter.
- The scraper's `__main__` block and its settings bootstrap are left out.
- The sleeps between passes and `update_interval` are left out: the loops are modelled one pass at a time.
- Log output is left out.
- The prompt and payload of `get_ai_summary` are left out: the prompt text, the temperature, and the current time placed in the prompt. The model covers routing, keys, URL, headers and answer extraction. The error message an exception carries is an opaque parameter.
- Times are integer seconds. Time zones are not modelled: Korean time, local time and dropping `tzinfo` are parameters or naive values. `%Y-%m-%d`, `%Y-%U` and `%Y-%m` keys and weekday/day-of-month are fields of the moment given to the loop.
- Floating-point numbers are `real`. Python's `float()` is a parameter.
- The JSON decoding of settings and records is a parameter. Non-string values in a stored `.json` record are not modelled.
- The timestamp passed to `save_report_to_file` is a parameter, and so is the file time. The purge compares with the same `now` that stamps the written files.
- Text-mode writes are taken to store `\n` unchanged, as on a POSIX system.
- A failing `os.makedirs`, a failing purge removal and a failing write inside `save_file` are not modelled. A report tier whose name is taken by a regular file is not modelled either.
- `load_data` writing the defaults is reduced to a success flag.
- Strings are sequences of code points. `lower()` maps ASCII letters only; the texts involved are ASCII or Korean, which has no case.
- Numbers.Clean: keeps the ASCII digits only. Python's `\d` also keeps other Unicode decimal digits.
- Clock.ParseClock: accepts ASCII digits only. Python's `strptime` also accepts other Unicode decimal digits.
- PendingStore.SortDesc: states order and permutation but not stability. Items with equal times may appear in either order as far as the contract says. `PendingStore.Insert` places a new item before the first item that is not newer.
- Filter.CheckFiltersAgrees: covers include strings that are empty or yield a keyword. The remaining case, where the two filters disagree, is `Filter.BlankIncludeRejects`.
- Scheduler.FailedAttemptKeepsLatest: assumes the archive stamp has fifteen characters, which `%Y-%m-%d_%H%M` always produces.

## Findings

| source | as written | input that shows it | evidently intended | confidence | as-written member | corrected member |
|---|---|---|---|---|---|---|
| ai_invest/scraper.py:24-26 | an entry without a `published` date takes its date from `datetime.now()`, but scraper.py never imports `datetime`; the `NameError` is caught by the feed loop's `except`, so the entry is not stored and that feed's remaining entries are skipped | a feed entry with a new title and no `published` field | store the entry with the current time as its date line | not executed | PendingStore.SaveFileAsWritten (shown by PendingStore.UndatedEntryLost) | PendingStore.SaveFile (used by Scraper.Ingest) |

=== FILE: aiclient.dfy ===
/**
  The language-model client's pure parts: choosing the model settings for a
  role, routing between Google's native endpoint and a chat-completions
  endpoint, choosing the key, building URL and headers, and reading the answer
  out of the response. The HTTP exchange itself is a parameter; every failure
  inside it becomes an alert text starting with the cross mark.
 */
module AiClient {
  import opened Options
  import opened Strings
  import opened Json

  const GoogleHost: string := "generativelanguage.googleapis.com"
  const AlertMark: char := '❌'
  const TimeoutAlert: string := "❌ [TIMEOUT] AI 분석 시간이 10분을 초과했습니다."
  const ErrorAlertPrefix: string := "❌ [ERROR] AI 분석 중 예외 발생: "

  /** Removes every trailing `c`, Python's `rstrip(c)`. */
  function RStrip(s: string, c: char): (r: string)
    ensures StartsWith(s, r)
    ensures |r| == 0 || r[|r| - 1] != c
    ensures forall k :: |r| <= k < |s| ==> s[k] == c
  {
    if |s| == 0 || s[|s| - 1] != c then s
    else
      var r := RStrip(s[..|s| - 1], c);
      assert s[..|s| - 1][..|r|] == s[..|r|];
      r
  }

  lemma RStripAppend(s: string, c: char)
    ensures RStrip(s + [c], c) == RStrip(s, c)
  {
    assert (s + [c])[..|s|] == s;
  }

  /** The model settings as the client reads them. */
  datatype ModelCfg = ModelCfg(url: string, name: string, key: string)

  /** The add-on's cloud keys. */
  datatype AddonKeys = AddonKeys(openai: string, gemini: string)

  /**
    Reads the settings of the model for `role` ("filter" picks the filter model,
    anything else the analyst model). None where Python raises: the entry is
    not an object, or its `url` is not text. `render` is `str()`; a falsy key
    reads as no key.
   */
  function ModelFor(settings: map<string, Json>, role: string, render: Json -> string): (r: Option<ModelCfg>)
    ensures r.Some? <==> EntryFor(role) in settings && settings[EntryFor(role)].JObj?
                         && UrlOf(settings[EntryFor(role)].fields).JStr?
    ensures r.Some? ==> var cfg := settings[EntryFor(role)];
                        (r.value.key == "" <==> !Truthy(Get(cfg, "key").value) || Str(Get(cfg, "key").value, render) == "")
    ensures r.Some? ==> var cfg := settings[EntryFor(role)];
                        && r.value.url == UrlOf(cfg.fields).s
                        && r.value.name == Str(Get(cfg, "name").value, render)
                        && (Truthy(Get(cfg, "key").value) ==> r.value.key == Str(Get(cfg, "key").value, render))
  {
    var entry := EntryFor(role);
    if entry !in settings || !settings[entry].JObj? then None
    else
      var cfg := settings[entry];
      var url := UrlOf(cfg.fields);
      if !url.JStr? then None
      else
        var key := Get(cfg, "key").value;
        Some(ModelCfg(url.s, Str(Get(cfg, "name").value, render), if Truthy(key) then Str(key, render) else ""))
  }

  /** The configured URL, empty text when absent. */
  function UrlOf(cfg: map<string, Json>): Json {
    if "url" in cfg then cfg["url"] else JStr("")
  }

  /** The settings entry a role reads. */
  function EntryFor(role: string): string {
    if role == "filter" then "filter_model" else "analyst_model"
  }

  /** The endpoint base: the configured URL without trailing slashes. */
  function BaseUrl(cfg: ModelCfg): string {
    RStrip(cfg.url, '/')
  }

  /** Google's own endpoint is used exactly when the base URL names its host. */
  predicate IsGoogle(cfg: ModelCfg) {
    Contains(BaseUrl(cfg), GoogleHost)
  }

  /** Google gets the Gemini key; any other server gets the model's own key, else the OpenAI key. */
  function ApiKey(cfg: ModelCfg, keys: AddonKeys): (k: string)
    ensures IsGoogle(cfg) ==> k == keys.gemini
    ensures !IsGoogle(cfg) && cfg.key != "" ==> k == cfg.key
    ensures !IsGoogle(cfg) && cfg.key == "" ==> k == keys.openai
  {
    if IsGoogle(cfg) then keys.gemini
    else if cfg.key != "" then cfg.key
    else keys.openai
  }

  datatype Request = Request(url: string, headers: seq<(string, string)>, native: bool)

  const JsonContent: (string, string) := ("Content-Type", "application/json")

  function BuildRequest(cfg: ModelCfg, keys: AddonKeys): (r: Request)
    ensures r.native <==> IsGoogle(cfg)
    ensures |r.headers| >= 1 && r.headers[0] == JsonContent
    ensures !r.native ==> r.url == BaseUrl(cfg) + "/chat/completions"
    ensures r.native ==> r.url == BaseUrl(cfg) + "/v1beta/models/" + cfg.name + ":generateContent?key=" + keys.gemini
    ensures |r.headers| == 2 <==> !IsGoogle(cfg) && ApiKey(cfg, keys) != ""
    ensures |r.headers| == 2 ==> r.headers[1] == ("Authorization", "Bearer " + ApiKey(cfg, keys))
    ensures |r.headers| <= 2
  {
    var base := BaseUrl(cfg);
    var key := ApiKey(cfg, keys);
    if IsGoogle(cfg) then
      Request(base + "/v1beta/models/" + cfg.name + ":generateContent?key=" + key, [JsonContent], true)
    else
      Request(base + "/chat/completions", [JsonContent] + (if key != "" then [("Authorization", "Bearer " + key)] else []), false)
  }

  /**
    The request goes to Google's own endpoint exactly when the configured URL
    of the role's entry, without trailing slashes, names Google's host.
   */
  lemma GoogleRouteFromSettings(settings: map<string, Json>, role: string, render: Json -> string, keys: AddonKeys)
    requires ModelFor(settings, role, render).Some?
    ensures var url := UrlOf(settings[EntryFor(role)].fields).s;
            BuildRequest(ModelFor(settings, role, render).value, keys).native <==> Contains(RStrip(url, '/'), GoogleHost)
  {
  }

  /** A trailing slash in the configured URL makes no difference to the request. */
  lemma TrailingSlashIgnored(cfg: ModelCfg, keys: AddonKeys)
    ensures BuildRequest(cfg.(url := cfg.url + "/"), keys) == BuildRequest(cfg, keys)
  {
    RStripAppend(cfg.url, '/');
  }

  /** A local server without keys gets no Authorization header. */
  lemma KeylessLocalHasNoAuth(cfg: ModelCfg)
    requires !IsGoogle(cfg) && cfg.key == ""
    ensures BuildRequest(cfg, AddonKeys("", "")).headers == [JsonContent]
  {
  }

  /** Python's `v[0]`: the first element of a list or the first character of a string. */
  function First(v: Json): Option<Json> {
    match v
    case JArr(xs) => if |xs| > 0 then Some(xs[0]) else None
    case JStr(s) => if |s| > 0 then Some(JStr([s[0]])) else None
    case _ => None
  }

  function Then(v: Option<Json>, key: string): Option<Json> {
    if v.None? then None else Index(v.value, key)
  }

  function ThenFirst(v: Option<Json>): Option<Json> {
    if v.None? then None else First(v.value)
  }

  /** The answer in a Google response, `candidates[0].content.parts[0].text`. */
  function NativeAnswer(result: Json): Option<Json> {
    Then(ThenFirst(Then(Then(ThenFirst(Index(result, "candidates")), "content"), "parts")), "text")
  }

  /** The answer in a chat-completions response, `choices[0].message.content`. */
  function ChatAnswer(result: Json): Option<Json> {
    Then(Then(ThenFirst(Index(result, "choices")), "message"), "content")
  }

  /** Which layout is read depends on the response, not on the endpoint called. None where Python raises. */
  function Extract(result: Json): (r: Option<Json>)
    ensures r.Some? ==> result.JObj?
    ensures result.JObj? && "candidates" in result.fields ==> r == NativeAnswer(result)
    ensures result.JObj? && "candidates" !in result.fields ==> r == ChatAnswer(result)
  {
    match In("candidates", result)
    case None => None
    case Some(true) => NativeAnswer(result)
    case Some(false) => ChatAnswer(result)
  }

  /** What the HTTP exchange produced: a time-out, another error (with its text), or a decoded body. */
  datatype Exchange = TimedOut | Failed(message: string) | Answered(body: Json)

  /** The client's result: the answer value, or an alert text. */
  datatype Summary = Answer(value: Json) | Alert(message: string)

  /**
    One call. `post` performs the exchange for a request; `extractError` is the
    text of the error raised when the answer is not where it is looked for.
    None when the settings themselves make the call raise before the exchange.
   */
  function GetAiSummary(settings: map<string, Json>, role: string, keys: AddonKeys, render: Json -> string,
                        post: Request -> Exchange, extractError: string): (r: Option<Summary>)
    ensures r.Some? <==> ModelFor(settings, role, render).Some?
    ensures r.Some? && r.value.Alert? ==> |r.value.message| > 0 && r.value.message[0] == AlertMark
    ensures r.Some? && r.value.Answer? ==>
              var ex := post(BuildRequest(ModelFor(settings, role, render).value, keys));
              ex.Answered? && Extract(ex.body) == Some(r.value.value)
    ensures ModelFor(settings, role, render).Some? ==>
              var ex := post(BuildRequest(ModelFor(settings, role, render).value, keys));
              && (ex.TimedOut? ==> r == Some(Alert(TimeoutAlert)))
              && (ex.Failed? ==> r == Some(Alert(ErrorAlertPrefix + ex.message)))
              && (ex.Answered? && Extract(ex.body).Some? ==> r == Some(Answer(Extract(ex.body).value)))
              && (ex.Answered? && Extract(ex.body).None? ==> r == Some(Alert(ErrorAlertPrefix + extractError)))
  {
    match ModelFor(settings, role, render)
    case None => None
    case Some(cfg) =>
      match post(BuildRequest(cfg, keys))
      case TimedOut => Some(Alert(TimeoutAlert))
      case Failed(msg) => Some(Alert(ErrorAlertPrefix + msg))
      case Answered(body) =>
        match Extract(body)
        case None => Some(Alert(ErrorAlertPrefix + extractError))
        case Some(v) => Some(Answer(v))
  }

  /** A Google-style body yields its first candidate's first part's text. */
  lemma NativeBodyAnswered(text: Json)
    ensures Extract(JObj(map["candidates" := JArr([JObj(map["content" := JObj(map["parts" := JArr([JObj(map["text" := text])])])])])]))
            == Some(text)
  {
  }

  /** A chat-style body yields its first choice's message content. */
  lemma ChatBodyAnswered(text: Json)
    ensures Extract(JObj(map["choices" := JArr([JObj(map["message" := JObj(map["content" := text])])])])) == Some(text)
  {
  }

  /** An empty choice list is an extraction error, reported as an alert. */
  lemma EmptyChoicesAlert(settings: map<string, Json>, role: string, keys: AddonKeys, render: Json -> string,
                          post: Request -> Exchange, extractError: string)
    requires ModelFor(settings, role, render).Some?
    requires post(BuildRequest(ModelFor(settings, role, render).value, keys)) == Answered(JObj(map["choices" := JArr([])]))
    ensures GetAiSummary(settings, role, keys, render, post, extractError) == Some(Alert(ErrorAlertPrefix + extractError))
  {
  }
}

=== FILE: clock.dfy ===
/**
  Times of day as minutes since midnight, read the way `strptime(s, "%H:%M")`
  reads them and written the way `strftime("%H:%M")` writes them. Reading is
  lenient (one-digit hours and minutes are accepted), writing always gives
  five characters, so a time of day read from lenient text does not always
  write back to the same text.
 */
module Clock {
  import opened Options

  const MinutesPerDay: nat := 1440

  type Minute = t: nat | t < MinutesPerDay

  predicate IsDigit(c: char) {
    '0' <= c <= '9'
  }

  function DigitValue(c: char): (d: nat)
    requires IsDigit(c)
    ensures d <= 9
  {
    c as int - '0' as int
  }

  function DigitChar(d: nat): (c: char)
    requires d <= 9
    ensures IsDigit(c) && DigitValue(c) == d
  {
    ('0' as int + d) as char
  }

  /**
    Width of the hour field: the hour pattern tries two characters `20`-`23`,
    then `00`-`19`, then a single digit, and the field must be followed by `:`;
    0 when no alternative leads to the colon.
   */
  function HourWidth(s: string): (w: nat)
    ensures w <= 2 && (w > 0 ==> |s| > w && s[w] == ':')
  {
    if |s| >= 3 && ((s[0] == '2' && '0' <= s[1] <= '3') || ((s[0] == '0' || s[0] == '1') && IsDigit(s[1]))) && s[2] == ':' then 2
    else if |s| >= 2 && IsDigit(s[0]) && s[1] == ':' then 1
    else 0
  }

  /** The value of one or two digits. */
  function FieldValue(f: string): nat
    requires 1 <= |f| <= 2 && forall k :: 0 <= k < |f| ==> IsDigit(f[k])
  {
    if |f| == 1 then DigitValue(f[0]) else 10 * DigitValue(f[0]) + DigitValue(f[1])
  }

  /**
    The minute field: two characters `00`-`59`, else one digit; whatever
    follows the field makes the parse fail ("unconverted data remains").
   */
  predicate MinuteOk(f: string) {
    (|f| == 2 && '0' <= f[0] <= '5' && IsDigit(f[1])) || (|f| == 1 && IsDigit(f[0]))
  }

  /** `strptime(s, "%H:%M")` as minutes since midnight; None where it raises. */
  function ParseClock(s: string): (r: Option<Minute>)
    ensures r.Some? ==> 3 <= |s| <= 5 && (s[1] == ':' || s[2] == ':')
    ensures r.Some? ==> IsDigit(s[0]) && IsDigit(s[|s| - 1])
  {
    var w := HourWidth(s);
    if w == 0 then None
    else
      var hour := s[..w];
      var minute := s[w + 1..];
      if !MinuteOk(minute) then None
      else
        var h := FieldValue(hour);
        var m := FieldValue(minute);
        assert h <= 23 && m <= 59;
        Some(h * 60 + m)
  }

  /** `strftime("%H:%M")`: zero-padded hour and minute. */
  function FormatClock(t: Minute): (s: string)
    ensures |s| == 5 && s[2] == ':'
    ensures forall k :: 0 <= k < 5 && k != 2 ==> IsDigit(s[k])
  {
    var h := t / 60;
    var m := t % 60;
    [DigitChar(h / 10), DigitChar(h % 10), ':', DigitChar(m / 10), DigitChar(m % 10)]
  }

  lemma SplitMinute(t: Minute)
    ensures t / 60 <= 23 && t % 60 <= 59 && t == (t / 60) * 60 + t % 60
    ensures (t / 60) / 10 <= 2 && ((t / 60) / 10 == 2 ==> (t / 60) % 10 <= 3)
    ensures (t % 60) / 10 <= 5
  {
  }

  /** Writing a time of day and reading it back gives the same time. */
  lemma ParseFormat(t: Minute)
    ensures ParseClock(FormatClock(t)) == Some(t)
  {
    SplitMinute(t);
    var s := FormatClock(t);
    assert HourWidth(s) == 2;
    assert s[..2] == [s[0], s[1]];
    assert s[3..] == [s[3], s[4]];
  }

  /** Text read as a time is written back unchanged exactly when it has five characters. */
  lemma FormatParse(s: string, t: Minute)
    requires ParseClock(s) == Some(t)
    ensures FormatClock(t) == s <==> |s| == 5
  {
    if |s| == 5 {
      var h := FieldValue(s[..2]);
      var m := FieldValue(s[3..]);
      assert t == h * 60 + m && m <= 59;
      assert t / 60 == h && t % 60 == m;
      var f := FormatClock(t);
      assert f[0] == s[0] && f[1] == s[1] && f[3] == s[3] && f[4] == s[4];
    }
  }

  /** Different times of day are written differently. */
  lemma FormatInjective(t: Minute, u: Minute)
    requires FormatClock(t) == FormatClock(u)
    ensures t == u
  {
    ParseFormat(t);
    ParseFormat(u);
  }

  /** A time read from text shorter than five characters never equals any written time. */
  lemma ShortTextNeverWritten(s: string, u: Minute)
    requires ParseClock(s).Some? && |s| < 5
    ensures FormatClock(u) != s
  {
  }

  /** Adding `k` minutes to a time of day, wrapping at midnight. */
  function Shift(t: Minute, k: nat): (r: Minute)
    ensures (r - t - k) % MinutesPerDay == 0
  {
    (t + k) % MinutesPerDay
  }

  /** An offset shorter than a day always moves the time. */
  lemma ShiftMoves(t: Minute, k: nat)
    requires 0 < k < MinutesPerDay
    ensures Shift(t, k) != t
  {
  }

  /** The lenient reading of "8:00": 08:00, which writes back differently. */
  lemma LenientEight()
    ensures ParseClock("8:00") == Some(480)
    ensures FormatClock(480) == "08:00"
  {
    assert HourWidth("8:00") == 1;
    assert "8:00"[..1] == "8" && "8:00"[2..] == "00";
  }

  /** Text with an hour beyond 23 or trailing characters is refused. */
  lemma RefusedTexts()
    ensures ParseClock("24:00") == None
    ensures ParseClock("08:60") == None
    ensures ParseClock("08:000") == None
  {
    assert HourWidth("24:00") == 0;
    assert HourWidth("08:60") == 2;
    assert "08:60"[3..] == "60";
    assert HourWidth("08:000") == 2;
    assert "08:000"[3..] == "000";
  }
}

=== FILE: filter.dfy ===
/**
  The keyword title filter. A filter string such as `"fed, rate,,"` is cut at
  commas into terms (trimmed, lower-cased, empty fragments dropped); a title is
  kept when no exclude term occurs in it and, for each include list that is not
  empty, at least one of its terms does. Matching is plain substring matching.
 */
module Filter {
  import opened Strings

  // ------------------------------------------------------------------ terms

  /** A keyword as the filters hold it: non-empty, lower case, no whitespace at either end. */
  predicate IsTerm(t: string) {
    t != [] && IsLower(t) && !IsSpace(t[0]) && !IsSpace(t[|t| - 1])
  }

  lemma CleanedIsTerm(p: string)
    requires Strip(p) != ""
    ensures IsTerm(Lower(Strip(p)))
  {
    var a, b := StripBounds(p);
    var t := Strip(p);
    LowerKeepsSpace(t[0]);
    LowerKeepsSpace(t[|t| - 1]);
    LowerIdempotent(t);
  }

  /** One fragment as a list of at most one term: trimmed and lower-cased, or dropped when blank. */
  function Cleaned(p: string): (r: seq<string>)
    ensures |r| <= 1
  {
    if Strip(p) == "" then [] else [Lower(Strip(p))]
  }

  /** A fragment is dropped exactly when it is all whitespace, and what is kept is a term. */
  lemma CleanedFacts(p: string)
    ensures Cleaned(p) == [] <==> AllSpace(p)
    ensures forall i :: 0 <= i < |Cleaned(p)| ==> IsTerm(Cleaned(p)[i])
  {
    StripEmptyIff(p);
    if Strip(p) != "" {
      CleanedIsTerm(p);
    }
  }

  /** `[t.strip().lower() for t in parts if t.strip()]`. */
  function Keep(parts: seq<string>): (terms: seq<string>)
    ensures |terms| <= |parts|
  {
    if |parts| == 0 then [] else Cleaned(parts[0]) + Keep(parts[1..])
  }

  /** Every kept fragment is a proper term. */
  lemma {:induction false} KeepTerms(parts: seq<string>)
    ensures forall i :: 0 <= i < |Keep(parts)| ==> IsTerm(Keep(parts)[i])
    decreases |parts|
  {
    if |parts| > 0 {
      KeepTerms(parts[1..]);
      CleanedFacts(parts[0]);
      var c, r := Cleaned(parts[0]), Keep(parts[1..]);
      assert Keep(parts) == c + r;
      forall i | 0 <= i < |c + r| ensures IsTerm((c + r)[i]) {
        if i < |c| {
          assert (c + r)[i] == c[i];
        } else {
          assert (c + r)[i] == r[i - |c|];
        }
      }
    }
  }

  /** The term list of a comma-separated filter string. */
  function Terms(s: string): seq<string> {
    Keep(Split(s, ','))
  }

  lemma {:induction false} KeepAppend(a: seq<string>, b: seq<string>)
    ensures Keep(a + b) == Keep(a) + Keep(b)
    decreases |a|
  {
    if |a| > 0 {
      KeepAppend(a[1..], b);
      assert (a + b)[0] == a[0];
      assert (a + b)[1..] == a[1..] + b;
      var c := Cleaned(a[0]);
      assert Keep(a + b) == c + (Keep(a[1..]) + Keep(b));
      assert c + (Keep(a[1..]) + Keep(b)) == (c + Keep(a[1..])) + Keep(b);
    } else {
      assert a + b == b;
    }
  }

  /** Joining two filter strings with a comma concatenates their term lists. */
  lemma TermsConcat(a: string, b: string)
    ensures Terms(a + "," + b) == Terms(a) + Terms(b)
  {
    SplitConcat(a, b, ',');
    KeepAppend(Split(a, ','), Split(b, ','));
  }

  /** Only commas and whitespace: the string a user leaves blank or writes as `","`. */
  predicate Blank(s: string) {
    forall k :: 0 <= k < |s| ==> s[k] == ',' || IsSpace(s[k])
  }

  lemma KeepConsEmpty(p: string, q: seq<string>)
    ensures Keep([p] + q) == [] <==> AllSpace(p) && Keep(q) == []
  {
    CleanedFacts(p);
    assert ([p] + q)[1..] == q;
  }

  lemma TermsOfEmpty()
    ensures Terms("") == []
  {
    assert Split("", ',') == [""];
    CleanedFacts("");
  }

  /** A filter string yields no terms exactly when it is blank. */
  lemma {:induction false} TermsEmptyIff(s: string)
    ensures Terms(s) == [] <==> Blank(s)
    decreases |s|
  {
    if |s| == 0 {
    } else {
      TermsEmptyIff(s[1..]);
      var rest := Split(s[1..], ',');
      assert Blank(s) <==> (s[0] == ',' || IsSpace(s[0])) && Blank(s[1..]) by {
        assert forall k :: 1 <= k < |s| ==> s[k] == s[1..][k - 1];
      }
      if s[0] == ',' {
        KeepConsEmpty("", rest);
      } else {
        var head := [s[0]] + rest[0];
        assert Split(s, ',') == [head] + rest[1..];
        KeepConsEmpty(head, rest[1..]);
        assert rest == [rest[0]] + rest[1..];
        KeepConsEmpty(rest[0], rest[1..]);
        assert AllSpace(head) <==> IsSpace(s[0]) && AllSpace(rest[0]) by {
          assert forall k :: 1 <= k < |head| ==> head[k] == rest[0][k - 1];
        }
      }
    }
  }

  // --------------------------------------------------------------- matching

  /** A term counts against `text` when it is non-empty and occurs in it. */
  predicate Matches(t: string, text: string) {
    t != "" && Contains(text, t)
  }

  /** Some term of `terms` counts against `text`. */
  predicate Hits(terms: seq<string>, text: string) {
    exists i :: 0 <= i < |terms| && Matches(terms[i], text)
  }

  /** Python's `any(t in text for t in terms if t)`, scanned left to right. */
  function AnyIn(terms: seq<string>, text: string): (r: bool)
    ensures r <==> Hits(terms, text)
  {
    if |terms| == 0 then false
    else if Matches(terms[0], text) then true
    else
      var r := AnyIn(terms[1..], text);
      assert forall i :: 1 <= i < |terms| ==> terms[i] == terms[1..][i - 1];
      r
  }

  lemma HitsAppend(a: seq<string>, b: seq<string>, text: string)
    ensures Hits(a + b, text) <==> Hits(a, text) || Hits(b, text)
  {
    if Hits(a + b, text) {
      var i :| 0 <= i < |a + b| && Matches((a + b)[i], text);
      if i >= |a| {
        assert (a + b)[i] == b[i - |a|];
        assert Matches(b[i - |a|], text);
      } else {
        assert (a + b)[i] == a[i];
        assert Matches(a[i], text);
      }
    }
    if Hits(a, text) {
      var i :| 0 <= i < |a| && Matches(a[i], text);
      assert (a + b)[i] == a[i];
      assert Matches((a + b)[i], text);
    }
    if Hits(b, text) {
      var i :| 0 <= i < |b| && Matches(b[i], text);
      assert (a + b)[|a| + i] == b[i];
      assert Matches((a + b)[|a| + i], text);
    }
  }

  /** The form of a title that the app-side filters match against: lower-cased, then stripped. */
  function Normalize(title: string): string {
    Strip(Lower(title))
  }

  // ------------------------------------------------------------ app filters

  /**
    The filter applied to feed entries on the news page. Exclude terms of both
    lists win over everything; each non-empty include list must be hit on its own.
    The summary plays no part.
   */
  function IsFiltered(title: string, summary: string, gInc: string, gExc: string, lInc: string, lExc: string): (keep: bool)
    ensures keep <==>
      && !Hits(Terms(gExc), Normalize(title))
      && !Hits(Terms(lExc), Normalize(title))
      && (Terms(gInc) == [] || Hits(Terms(gInc), Normalize(title)))
      && (Terms(lInc) == [] || Hits(Terms(lInc), Normalize(title)))
  {
    var text := Normalize(title);
    TermsConcat(gExc, lExc);
    HitsAppend(Terms(gExc), Terms(lExc), text);
    var excTags := Terms(gExc + "," + lExc);
    if AnyIn(excTags, text) then false
    else
      var gIncTags := Terms(gInc);
      if gIncTags != [] && !AnyIn(gIncTags, text) then false
      else
        var lIncTags := Terms(lInc);
        if lIncTags != [] && !AnyIn(lIncTags, text) then false
        else true
  }

  /** An exclude term in the title rejects it, whatever the include lists say. */
  lemma ExcludeWins(title: string, summary: string, gInc: string, gExc: string, lInc: string, lExc: string, t: string)
    requires t in Terms(gExc) || t in Terms(lExc)
    requires Contains(Normalize(title), t)
    ensures !IsFiltered(title, summary, gInc, gExc, lInc, lExc)
  {
    KeepTerms(Split(gExc, ','));
    KeepTerms(Split(lExc, ','));
    if t in Terms(gExc) {
      var i :| 0 <= i < |Terms(gExc)| && Terms(gExc)[i] == t;
      assert Matches(Terms(gExc)[i], Normalize(title));
    } else {
      var i :| 0 <= i < |Terms(lExc)| && Terms(lExc)[i] == t;
      assert Matches(Terms(lExc)[i], Normalize(title));
    }
  }

  /** Blank filter strings (`""`, `","`, `" ,, "`) neither reject nor require anything. */
  lemma BlankFiltersAcceptAll(title: string, summary: string, gInc: string, gExc: string, lInc: string, lExc: string)
    requires Blank(gInc) && Blank(gExc) && Blank(lInc) && Blank(lExc)
    ensures IsFiltered(title, summary, gInc, gExc, lInc, lExc)
  {
    TermsEmptyIff(gInc);
    TermsEmptyIff(gExc);
    TermsEmptyIff(lInc);
    TermsEmptyIff(lExc);
  }

  /**
    The single-pair filter used when listing stored articles of one feed. A
    non-empty `incStr` is checked even when it holds no term, so a blank but
    non-empty include string (`" "`, `","`) rejects every title.
   */
  function CheckFilters(title: string, incStr: string, excStr: string): (keep: bool)
    ensures Hits(Terms(excStr), Normalize(title)) ==> !keep
    ensures keep ==> incStr == "" || Hits(Terms(incStr), Normalize(title))
  {
    var text := Normalize(title);
    if excStr != "" && AnyIn(Terms(excStr), text) then false
    else if incStr != "" && !AnyIn(Terms(incStr), text) then false
    else true
  }

  /**
    Where the include string is empty or holds a term, the single-pair filter is
    the page filter with that pair as the global lists and empty local lists.
   */
  lemma CheckFiltersAgrees(title: string, summary: string, incStr: string, excStr: string)
    requires incStr == "" || Terms(incStr) != []
    ensures CheckFilters(title, incStr, excStr) == IsFiltered(title, summary, incStr, excStr, "", "")
  {
    TermsOfEmpty();
  }

  /** A non-empty include string without any term rejects every title. */
  lemma BlankIncludeRejects(title: string, incStr: string, excStr: string)
    requires incStr != "" && Blank(incStr)
    ensures !CheckFilters(title, incStr, excStr)
  {
    TermsEmptyIff(incStr);
  }

  // ------------------------------------------------------- scraper filter

  /**
    The scraper's check of one include/exclude pair of term lists. The text is
    lower-cased but the terms are used as given; empty terms never match, so a
    non-empty include list of empty terms rejects everything.
   */
  function CheckLogic(text: string, incList: seq<string>, excList: seq<string>): (keep: bool)
    ensures keep <==> !Hits(excList, Lower(text)) && (incList == [] || Hits(incList, Lower(text)))
  {
    var t := Lower(text);
    if AnyIn(excList, t) then false
    else if incList != [] && !AnyIn(incList, t) then false
    else true
  }

  lemma EmptyTermsRejectAll(text: string, incList: seq<string>, excList: seq<string>)
    requires incList != [] && forall i :: 0 <= i < |incList| ==> incList[i] == ""
    ensures !CheckLogic(text, incList, excList)
  {
  }

  /** A term has no whitespace at its ends, so stripping the text cannot create or destroy a match. */
  lemma TermIgnoresStrip(s: string, t: string)
    requires IsTerm(t)
    ensures Contains(Strip(s), t) <==> Contains(s, t)
  {
    var a, b := StripBounds(s);
    if Contains(Strip(s), t) {
      SliceContains(s, a, b, t);
    }
    if Contains(s, t) {
      var i := ContainsWitness(s, t);
      assert s[i] == t[0] && s[i + |t| - 1] == t[|t| - 1] by {
        assert s[i..i + |t|] == t;
      }
      assert a <= i;
      assert i + |t| <= b;
      ContainsSlice(s, a, b, t, i);
    }
  }

  lemma HitsIgnoreStrip(terms: seq<string>, s: string)
    requires forall i :: 0 <= i < |terms| ==> IsTerm(terms[i])
    ensures Hits(terms, Strip(s)) <==> Hits(terms, s)
  {
    forall i | 0 <= i < |terms| ensures Matches(terms[i], Strip(s)) <==> Matches(terms[i], s) {
      TermIgnoresStrip(s, terms[i]);
    }
  }

  /**
    The scraper's two checks (global lists, then the feed's lists) accept exactly
    the titles the page filter accepts for the same four filter strings.
   */
  lemma ScraperAgreesWithPage(title: string, summary: string, gInc: string, gExc: string, lInc: string, lExc: string)
    ensures (CheckLogic(title, Terms(gInc), Terms(gExc)) && CheckLogic(title, Terms(lInc), Terms(lExc)))
            == IsFiltered(title, summary, gInc, gExc, lInc, lExc)
  {
    var s := Lower(title);
    KeepTerms(Split(gInc, ','));
    KeepTerms(Split(gExc, ','));
    KeepTerms(Split(lInc, ','));
    KeepTerms(Split(lExc, ','));
    HitsIgnoreStrip(Terms(gInc), s);
    HitsIgnoreStrip(Terms(gExc), s);
    HitsIgnoreStrip(Terms(lInc), s);
    HitsIgnoreStrip(Terms(lExc), s);
  }
}

=== FILE: json.dfy ===
/**
  Decoded JSON documents and the few Python operations the core applies to them:
  truthiness, `key in value`, `value[key]`, `len(value)`, `dict.get`, the `a or b`
  chain and `str(value)`. Where Python raises, the result is `None`.
 */
module Json {
  import opened Options
  import opened Strings

  datatype Json =
    | JNull
    | JBool(b: bool)
    | JNum(n: real)
    | JStr(s: string)
    | JArr(items: seq<Json>)
    | JObj(fields: map<string, Json>)

  /** Python's `bool(v)`. */
  predicate Truthy(v: Json) {
    match v
    case JNull => false
    case JBool(b) => b
    case JNum(n) => n != 0.0
    case JStr(s) => s != ""
    case JArr(xs) => xs != []
    case JObj(m) => m != map[]
  }

  /** Python's `key in v`: key of a dict, element of a list, substring of a string; other types raise. */
  function In(key: string, v: Json): Option<bool> {
    match v
    case JObj(m) => Some(key in m)
    case JArr(xs) => Some(JStr(key) in xs)
    case JStr(s) => Some(Contains(s, key))
    case _ => None
  }

  /** Python's `v[key]` with a string key: only a dict holding the key answers. */
  function Index(v: Json, key: string): Option<Json> {
    if v.JObj? && key in v.fields then Some(v.fields[key]) else None
  }

  /** Python's `len(v)`: defined for strings, lists and dicts. */
  function Len(v: Json): Option<nat> {
    match v
    case JStr(s) => Some(|s|)
    case JArr(xs) => Some(|xs|)
    case JObj(m) => Some(|m|)
    case _ => None
  }

  /** Python's `v.get(key)`: `None` (here `JNull`) for a missing key; only dicts have `get`. */
  function Get(v: Json, key: string): Option<Json> {
    if v.JObj? then Some(if key in v.fields then v.fields[key] else JNull) else None
  }

  /** Python's `vs[0] or vs[1] or ...`: the first truthy operand, else the last one. */
  function OrChain(vs: seq<Json>): (r: Json)
    requires |vs| >= 1
    ensures r in vs
    ensures Truthy(r) <==> exists i :: 0 <= i < |vs| && Truthy(vs[i])
    ensures (forall i :: 0 <= i < |vs| ==> !Truthy(vs[i])) ==> r == vs[|vs| - 1]
    ensures Truthy(r) ==> exists j :: 0 <= j < |vs| && r == vs[j] && forall k :: 0 <= k < j ==> !Truthy(vs[k])
  {
    if |vs| == 1 || Truthy(vs[0]) then vs[0]
    else
      var r := OrChain(vs[1..]);
      assert forall i :: 1 <= i < |vs| ==> vs[i] == vs[1..][i - 1];
      r
  }

  /** The field values `v.get(k)` for each key of `keys`, from a dict. */
  function GetAll(m: map<string, Json>, keys: seq<string>): (vs: seq<Json>)
    ensures |vs| == |keys|
    ensures forall i :: 0 <= i < |keys| ==> vs[i] == (if keys[i] in m then m[keys[i]] else JNull)
  {
    seq(|keys|, i requires 0 <= i < |keys| => if keys[i] in m then m[keys[i]] else JNull)
  }

  /** Python's `str(v)`: a string is itself; other values are rendered by `render`. */
  function Str(v: Json, render: Json -> string): string {
    if v.JStr? then v.s else render(v)
  }
}

=== FILE: numbers.dfy ===
/**
  The lenient number reader used for scraped and API-provided figures: blanks
  and a lone dash read as zero; otherwise every character but digits, `.` and
  `-` is dropped and the rest is handed to the float parser, whose failure also
  reads as zero.
 */
module Numbers {
  import opened Options
  import opened Strings
  import opened Json

  /** The characters the cleaning keeps. */
  predicate Kept(c: char) {
    ('0' <= c <= '9') || c == '.' || c == '-'
  }

  /** Deletes every character that is not kept. */
  function Clean(s: string): (r: string)
    ensures forall k :: 0 <= k < |r| ==> Kept(r[k])
    ensures |r| <= |s|
  {
    if |s| == 0 then [] else (if Kept(s[0]) then [s[0]] else []) + Clean(s[1..])
  }

  /** `a` can be obtained from `b` by deleting characters. */
  predicate Subseq(a: string, b: string)
    decreases |b|
  {
    if |a| == 0 then true
    else if |b| == 0 then false
    else (a[0] == b[0] && Subseq(a[1..], b[1..])) || Subseq(a, b[1..])
  }

  lemma {:induction false} CleanSubseq(s: string)
    ensures Subseq(Clean(s), s)
  {
    if |s| > 0 {
      CleanSubseq(s[1..]);
      var a := Clean(s);
      if Kept(s[0]) {
        assert a == [s[0]] + Clean(s[1..]);
        assert a[0] == s[0] && a[1..] == Clean(s[1..]);
      } else {
        assert a == Clean(s[1..]);
      }
    }
  }

  /** Kept characters survive with their multiplicity; others vanish. */
  lemma {:induction false} CleanCounts(s: string, c: char)
    ensures multiset(Clean(s))[c] == if Kept(c) then multiset(s)[c] else 0
  {
    if |s| > 0 {
      CleanCounts(s[1..], c);
      assert s == [s[0]] + s[1..];
      assert multiset(s) == multiset{s[0]} + multiset(s[1..]);
    }
  }

  /** Text made only of kept characters is already clean. */
  lemma {:induction false} CleanOfClean(s: string)
    requires forall k :: 0 <= k < |s| ==> Kept(s[k])
    ensures Clean(s) == s
  {
    if |s| > 0 {
      CleanOfClean(s[1..]);
      assert s == [s[0]] + s[1..];
    }
  }

  lemma CleanIdempotent(s: string)
    ensures Clean(Clean(s)) == Clean(s)
  {
    CleanOfClean(Clean(s));
  }

  /**
    The reader. `render` is Python's `str()` for non-strings and `parse` its
    `float()` on the cleaned text, None where it raises.
   */
  function SafeFloat(v: Json, render: Json -> string, parse: string -> Option<real>): (r: real)
    ensures v == JNull || v == JStr("") || v == JStr("-") ==> r == 0.0
    ensures r != 0.0 ==> var c := Clean(Str(v, render)); c != "" && parse(c) == Some(r)
    ensures !(v == JNull || v == JStr("") || v == JStr("-")) && Clean(Str(v, render)) != "" && parse(Clean(Str(v, render))).Some?
            ==> r == parse(Clean(Str(v, render))).value
    ensures !(v == JNull || v == JStr("") || v == JStr("-")) && (Clean(Str(v, render)) == "" || parse(Clean(Str(v, render))).None?)
            ==> r == 0.0
  {
    if v == JNull || v == JStr("") || v == JStr("-") then 0.0
    else
      var c := Clean(Str(v, render));
      if c == "" then 0.0
      else match parse(c)
        case None => 0.0
        case Some(x) => x
  }

  /** Text without a single digit, dot or dash reads as zero, whatever the parser. */
  lemma NoKeptCharsIsZero(s: string, render: Json -> string, parse: string -> Option<real>)
    requires forall k :: 0 <= k < |s| ==> !Kept(s[k])
    ensures SafeFloat(JStr(s), render, parse) == 0.0
  {
    CleanOfNone(s);
  }

  lemma {:induction false} CleanOfNone(s: string)
    requires forall k :: 0 <= k < |s| ==> !Kept(s[k])
    ensures Clean(s) == ""
  {
    if |s| > 0 {
      CleanOfNone(s[1..]);
    }
  }

  /** Decoration around a number does not change what is read: `"1,234원"` reads as `"1234"` does. */
  lemma DecorationIgnored(s: string, t: string, render: Json -> string, parse: string -> Option<real>)
    requires Clean(s) == Clean(t)
    requires s !in {"", "-"} && t !in {"", "-"}
    ensures SafeFloat(JStr(s), render, parse) == SafeFloat(JStr(t), render, parse)
  {
  }
}

=== FILE: pending.dfy ===
/**
  The pending-article store: one `.txt` file per accepted feed entry, named by a
  hash of the title, holding four labelled lines (title, link, date, summary),
  and the loader that reads the store back for the news page.
 */
module PendingStore {
  import opened Options
  import opened Strings
  import opened Files
  import Filter

  const TitleLabel: string := "제목: "
  const LinkLabel: string := "링크: "
  const DateLabel: string := "날짜: "
  const SummaryLabel: string := "요약: "
  /** Summary written when the feed entry has none. */
  const NoSummary: string := "내용 없음"
  /** Source shown for records read back from the store. */
  const StoredSource: string := "저장된 데이터"
  /** Title shown for a JSON record without one. */
  const Untitled: string := "제목 없음"

  /** A parsed feed entry; `published` and `summary` are absent when the feed omits them. */
  datatype FeedEntry = FeedEntry(title: string, link: string, published: Option<string>, summary: Option<string>)

  // ------------------------------------------------------------------ saving

  /** The store's file name for a title: its hex digest plus `.txt`. The date plays no part. */
  function FileNameOf(md5: string -> string, title: string): string {
    md5(title) + ".txt"
  }

  /** The date line: the entry's `published` text, or `fallback` when it is missing or empty. */
  function PubDate(e: FeedEntry, fallback: string): string {
    if e.published.Some? && e.published.value != "" then e.published.value else fallback
  }

  function SummaryOf(e: FeedEntry): string {
    if e.summary.Some? then e.summary.value else NoSummary
  }

  /** The four-line record layout; the summary line has no trailing newline. */
  function Layout(title: string, link: string, date: string, summary: string): string {
    TitleLabel + title + "\n" + LinkLabel + link + "\n" + DateLabel + date + "\n" + SummaryLabel + summary
  }

  /** What a save writes for an entry: the stored layout of its title, link, date and summary. */
  function EntryFile(e: FeedEntry, fallback: string, now: int): Entry {
    Written(Layout(e.title, e.link, PubDate(e, fallback), SummaryOf(e)), now)
  }

  /**
    Stores one entry unless a file of the same name already exists. `md5` is the
    digest function, `fallback` the date text used when the entry has none and
    `now` the time the file is written.
   */
  function SaveFile(dir: Dir, e: FeedEntry, md5: string -> string, fallback: string, now: int): (r: Dir)
    ensures r.Keys == dir.Keys + {FileNameOf(md5, e.title)}
    ensures forall n :: n in dir ==> r[n] == dir[n]
    ensures FileNameOf(md5, e.title) !in dir ==>
              r[FileNameOf(md5, e.title)] == EntryFile(e, fallback, now)
  {
    var name := FileNameOf(md5, e.title);
    if name in dir then dir
    else dir[name := EntryFile(e, fallback, now)]
  }

  /**
    Saving a second entry with the same title, from any feed, on any day, leaves
    the store as the first save left it.
   */
  lemma SameTitleKeepsFirst(dir: Dir, e1: FeedEntry, e2: FeedEntry, md5: string -> string,
                            fallback1: string, fallback2: string, now1: int, now2: int)
    requires e1.title == e2.title
    ensures SaveFile(SaveFile(dir, e1, md5, fallback1, now1), e2, md5, fallback2, now2)
            == SaveFile(dir, e1, md5, fallback1, now1)
  {
  }

  /**
    The save as the scraper's code stands: the fallback date is built with a name
    the module never imports, so an entry without a date raises (None) instead of
    being stored. An existing file still short-circuits before the date is read.
   */
  function SaveFileAsWritten(dir: Dir, e: FeedEntry, md5: string -> string, now: int): (r: Option<Dir>)
    ensures r.Some? <==> FileNameOf(md5, e.title) in dir || (e.published.Some? && e.published.value != "")
    ensures r.Some? ==> r.value == SaveFile(dir, e, md5, "", now)
  {
    var name := FileNameOf(md5, e.title);
    if name in dir then Some(dir)
    else if e.published.None? || e.published.value == "" then None
    else Some(dir[name := Written(Layout(e.title, e.link, e.published.value, SummaryOf(e)), now)])
  }

  /** An undated entry with a new title is never stored by the code as written; the corrected save stores it. */
  lemma UndatedEntryLost(md5: string -> string, now: int, fallback: string)
    ensures SaveFileAsWritten(map[], FeedEntry("t", "l", None, None), md5, now) == None
    ensures FileNameOf(md5, "t") in SaveFile(map[], FeedEntry("t", "l", None, None), md5, fallback, now)
  {
  }

  // ----------------------------------------------------------------- reading

  /** The four fields recovered from a stored `.txt` record. */
  datatype TxtRecord = TxtRecord(title: string, link: string, date: string, summary: string)

  /**
    Reads a `.txt` record by line position: fewer than three lines is no record;
    otherwise each label is deleted wherever it occurs in its line, and all lines
    after the third form the summary.
   */
  function ParseTxt(content: string): (r: Option<TxtRecord>)
    ensures r.Some? <==> |SplitLines(content)| >= 3
  {
    var lines := SplitLines(content);
    if |lines| < 3 then None
    else Some(TxtRecord(
      RemoveAll(lines[0], TitleLabel),
      RemoveAll(lines[1], LinkLabel),
      RemoveAll(lines[2], DateLabel),
      RemoveAll(Join(lines[3..], '\n'), SummaryLabel)))
  }

  /** Fields without line breaks and without their own label text survive a save and a read. */
  lemma LayoutRoundTrip(title: string, link: string, date: string, summary: string)
    requires NoLineBreak(title) && NoLineBreak(link) && NoLineBreak(date) && NoLineBreak(summary)
    requires !Contains(title, TitleLabel) && !Contains(link, LinkLabel)
    requires !Contains(date, DateLabel) && !Contains(summary, SummaryLabel)
    ensures ParseTxt(Layout(title, link, date, summary)) == Some(TxtRecord(title, link, date, summary))
  {
    var l0, l1, l2, l3 := TitleLabel + title, LinkLabel + link, DateLabel + date, SummaryLabel + summary;
    LabelsHaveNoBreak();
    NoBreakConcat(TitleLabel, title);
    NoBreakConcat(LinkLabel, link);
    NoBreakConcat(DateLabel, date);
    NoBreakConcat(SummaryLabel, summary);
    LayoutNested(TitleLabel, title, LinkLabel, link, DateLabel, date, SummaryLabel, summary, "\n");
    SplitLinesCons(l0, l1 + "\n" + (l2 + "\n" + l3));
    SplitLinesCons(l1, l2 + "\n" + l3);
    SplitLinesCons(l2, l3);
    SplitLinesSingle(l3);
    var lines := SplitLines(Layout(title, link, date, summary));
    assert lines == [l0, l1, l2, l3];
    assert lines[3..] == [l3];
    RemovePrefix(TitleLabel, title);
    RemovePrefix(LinkLabel, link);
    RemovePrefix(DateLabel, date);
    RemovePrefix(SummaryLabel, summary);
  }

  lemma LabelsHaveNoBreak()
    ensures NoLineBreak(TitleLabel) && NoLineBreak(LinkLabel) && NoLineBreak(DateLabel) && NoLineBreak(SummaryLabel)
  {
  }

  lemma NoBreakConcat(a: string, b: string)
    requires NoLineBreak(a) && NoLineBreak(b)
    ensures NoLineBreak(a + b)
  {
    assert forall k :: 0 <= k < |a + b| ==> (a + b)[k] == (if k < |a| then a[k] else b[k - |a|]);
  }

  /** The layout regrouped line by line; symbolic, so that no literal text enters the proof. */
  lemma LayoutNested(a0: string, b0: string, a1: string, b1: string, a2: string, b2: string, a3: string, b3: string, nl: string)
    ensures a0 + b0 + nl + a1 + b1 + nl + a2 + b2 + nl + a3 + b3 == (a0 + b0) + nl + ((a1 + b1) + nl + ((a2 + b2) + nl + (a3 + b3)))
  {
  }

  /** Content with fewer than three lines is skipped. */
  lemma ShortRecordSkipped(content: string)
    requires |SplitLines(content)| < 3
    ensures ParseTxt(content) == None
  {
  }

  // ----------------------------------------------------------------- loading

  /** A news item as the page lists it; `pubDt` is a naive local time in seconds. */
  datatype NewsItem = NewsItem(title: string, link: string, published: string, summary: string, pubDt: int, source: string)

  /** The string fields of a decoded `.json` record, each absent when the key is missing. */
  datatype JsonRecord = JsonRecord(title: Option<string>, pubDt: Option<string>, link: Option<string>,
                                   summary: Option<string>, source: Option<string>)

  /**
    What the loader takes from its surroundings: the RSS date parser (None when it
    raises), the `%Y-%m-%d %H:%M:%S` parser, the JSON decoder (None when decoding
    fails or the document is not an object), the local clock used when an RSS
    date cannot be parsed, and the conversion of a file time to local time.
   */
  datatype LoadEnv = LoadEnv(
    parseRssDate: string -> Option<int>,
    parseStamp: string -> Option<int>,
    decodeRecord: string -> Option<JsonRecord>,
    clockNow: int,
    mtimeLocal: int -> int)

  /** The include/exclude strings of the feed the page is showing. */
  datatype FeedFilter = FeedFilter(incStr: string, excStr: string)

  const TodayRange: string := "오늘"
  const WeekRange: string := "일주일"

  function DayOf(t: int): int {
    t / SecondsPerDay
  }

  /** The page's time window: same calendar day as `now`, or not before `now` minus seven days. */
  predicate InRange(rangeType: string, pubDt: int, now: int) {
    && (rangeType == TodayRange ==> DayOf(pubDt) == DayOf(now))
    && (rangeType == WeekRange ==> pubDt >= now - 7 * SecondsPerDay)
  }

  function OrElse(v: Option<string>, d: string): string {
    if v.Some? then v.value else d
  }

  /** The item a listed file yields, or None when it is skipped before the window and filter are applied. */
  function ReadRecord(name: string, e: Entry, env: LoadEnv): (r: Option<NewsItem>)
    ensures r.Some? ==> e.isFile
    ensures e.isFile && EndsWith(name, ".json") ==> (r.Some? <==> env.decodeRecord(e.content).Some?)
    ensures r.Some? && EndsWith(name, ".json") ==>
              var rec := env.decodeRecord(e.content).value;
              && r.value.title == (if rec.title.Some? then rec.title.value else Untitled)
              && r.value.published == (if rec.pubDt.Some? then rec.pubDt.value else "")
              && r.value.pubDt == (if env.parseStamp(r.value.published).Some? then env.parseStamp(r.value.published).value else env.mtimeLocal(e.mtime))
    ensures e.isFile && !EndsWith(name, ".json") ==> (r.Some? <==> ParseTxt(e.content).Some?)
    ensures r.Some? && !EndsWith(name, ".json") ==>
              var t := ParseTxt(e.content).value;
              && r.value == NewsItem(t.title, t.link, t.date, t.summary, r.value.pubDt, StoredSource)
              && r.value.pubDt == (if env.parseRssDate(t.date).Some? then env.parseRssDate(t.date).value else env.clockNow)
  {
    if !e.isFile then None
    else if EndsWith(name, ".json") then
      match env.decodeRecord(e.content)
      case None => None
      case Some(rec) =>
        var pubStr := OrElse(rec.pubDt, "");
        var stamp := env.parseStamp(pubStr);
        var pubDt := if stamp.Some? then stamp.value else env.mtimeLocal(e.mtime);
        Some(NewsItem(OrElse(rec.title, Untitled), OrElse(rec.link, ""), pubStr,
                      OrElse(rec.summary, ""), pubDt, OrElse(rec.source, StoredSource)))
    else
      match ParseTxt(e.content)
      case None => None
      case Some(r) =>
        var parsed := env.parseRssDate(r.date);
        var pubDt := if parsed.Some? then parsed.value else env.clockNow;
        Some(NewsItem(r.title, r.link, r.date, r.summary, pubDt, StoredSource))
  }

  predicate Listed(name: string) {
    EndsWith(name, ".json") || EndsWith(name, ".txt")
  }

  /** Whether an item survives the window and the feed filter. */
  predicate Shown(item: NewsItem, rangeType: string, feed: Option<FeedFilter>, now: int) {
    InRange(rangeType, item.pubDt, now)
    && (feed.Some? ==> Filter.CheckFilters(item.title, feed.value.incStr, feed.value.excStr))
  }

  /** The item a listed name contributes, if any. */
  function ItemOf(dir: Dir, name: string, env: LoadEnv): (r: Option<NewsItem>)
    ensures r.Some? ==> Listed(name) && name in dir && dir[name].isFile
    ensures Listed(name) && name in dir ==> r == ReadRecord(name, dir[name], env)
  {
    if Listed(name) && name in dir then ReadRecord(name, dir[name], env) else None
  }

  /** The present candidates that `keep` accepts, in order. */
  function Sift<T(!new)>(cands: seq<Option<T>>, keep: T -> bool): (items: seq<T>)
    ensures forall i :: 0 <= i < |items| ==> keep(items[i])
    ensures forall i :: 0 <= i < |items| ==> Some(items[i]) in cands
    ensures forall j :: 0 <= j < |cands| && cands[j].Some? && keep(cands[j].value) ==> cands[j].value in items
    ensures forall x :: multiset(items)[x] == if keep(x) then multiset(cands)[Some(x)] else 0
  {
    if |cands| == 0 then []
    else
      var rest := Sift(cands[1..], keep);
      var items := if cands[0].Some? && keep(cands[0].value) then [cands[0].value] + rest else rest;
      SiftMembers(cands, keep, rest, items);
      SiftCounts(cands, keep, rest, items);
      items
  }

  /** Membership after one step of `Sift`, from membership after the rest. */
  lemma SiftMembers<T>(cands: seq<Option<T>>, keep: T -> bool, rest: seq<T>, items: seq<T>)
    requires |cands| > 0
    requires items == if cands[0].Some? && keep(cands[0].value) then [cands[0].value] + rest else rest
    requires forall i :: 0 <= i < |rest| ==> keep(rest[i]) && Some(rest[i]) in cands[1..]
    requires forall j :: 0 <= j < |cands[1..]| && cands[1..][j].Some? && keep(cands[1..][j].value) ==> cands[1..][j].value in rest
    ensures forall i :: 0 <= i < |items| ==> keep(items[i]) && Some(items[i]) in cands
    ensures forall j :: 0 <= j < |cands| && cands[j].Some? && keep(cands[j].value) ==> cands[j].value in items
  {
    forall j | 1 <= j < |cands| && cands[j].Some? && keep(cands[j].value) ensures cands[j].value in items {
      assert cands[j] == cands[1..][j - 1];
    }
  }

  /** Counts after one step of `Sift`, from counts after the rest. */
  lemma SiftCounts<T>(cands: seq<Option<T>>, keep: T -> bool, rest: seq<T>, items: seq<T>)
    requires |cands| > 0
    requires items == if cands[0].Some? && keep(cands[0].value) then [cands[0].value] + rest else rest
    requires forall x :: multiset(rest)[x] == if keep(x) then multiset(cands[1..])[Some(x)] else 0
    ensures forall x :: multiset(items)[x] == if keep(x) then multiset(cands)[Some(x)] else 0
  {
    assert cands == [cands[0]] + cands[1..];
    assert multiset(cands) == multiset{cands[0]} + multiset(cands[1..]);
    if cands[0].Some? && keep(cands[0].value) {
      assert multiset(items) == multiset{cands[0].value} + multiset(rest);
    }
  }

  /** The shown items among candidates, in order. */
  function Survivors(cands: seq<Option<NewsItem>>, rangeType: string, feed: Option<FeedFilter>, now: int): (items: seq<NewsItem>)
    ensures forall i :: 0 <= i < |items| ==> Shown(items[i], rangeType, feed, now)
    ensures forall i :: 0 <= i < |items| ==> Some(items[i]) in cands
    ensures forall j :: 0 <= j < |cands| && cands[j].Some? && Shown(cands[j].value, rangeType, feed, now) ==> cands[j].value in items
    ensures forall x :: multiset(items)[x] == if Shown(x, rangeType, feed, now) then multiset(cands)[Some(x)] else 0
  {
    Sift(cands, x => Shown(x, rangeType, feed, now))
  }

  /** The item each listed name contributes, position by position. */
  function Candidates(dir: Dir, listing: seq<string>, env: LoadEnv): (c: seq<Option<NewsItem>>)
    ensures |c| == |listing|
    ensures forall j :: 0 <= j < |listing| ==> c[j] == ItemOf(dir, listing[j], env)
  {
    seq(|listing|, j requires 0 <= j < |listing| => ItemOf(dir, listing[j], env))
  }

  /** The items of the listed files, in listing order. */
  function Collect(dir: Dir, listing: seq<string>, rangeType: string, feed: Option<FeedFilter>, now: int, env: LoadEnv): (items: seq<NewsItem>)
    ensures forall i :: 0 <= i < |items| ==> Shown(items[i], rangeType, feed, now)
    ensures forall i :: 0 <= i < |items| ==> exists j :: 0 <= j < |listing| && ItemOf(dir, listing[j], env) == Some(items[i])
    ensures forall j :: 0 <= j < |listing| && ItemOf(dir, listing[j], env).Some? && Shown(ItemOf(dir, listing[j], env).value, rangeType, feed, now)
              ==> ItemOf(dir, listing[j], env).value in items
    ensures forall x :: multiset(items)[x] == if Shown(x, rangeType, feed, now) then multiset(Candidates(dir, listing, env))[Some(x)] else 0
  {
    var cands := Candidates(dir, listing, env);
    var items := Survivors(cands, rangeType, feed, now);
    forall i | 0 <= i < |items| ensures exists j :: 0 <= j < |listing| && ItemOf(dir, listing[j], env) == Some(items[i]) {
      var j :| 0 <= j < |cands| && cands[j] == Some(items[i]);
      assert ItemOf(dir, listing[j], env) == Some(items[i]);
    }
    items
  }

  // ----------------------------------------------------------------- sorting

  /** Newest first. */
  predicate SortedDesc(s: seq<NewsItem>) {
    forall i, j :: 0 <= i < j < |s| ==> s[i].pubDt >= s[j].pubDt
  }

  /** Inserts `x` before the first item that is not newer, so equal times keep their order. */
  function Insert(x: NewsItem, s: seq<NewsItem>): (r: seq<NewsItem>)
    requires SortedDesc(s)
    ensures |r| == |s| + 1 && (r[0] == x || (|s| > 0 && r[0] == s[0]))
    ensures SortedDesc(r)
    ensures multiset(r) == multiset(s) + multiset{x}
  {
    if |s| == 0 || s[0].pubDt <= x.pubDt then [x] + s
    else
      var t := Insert(x, s[1..]);
      assert s == [s[0]] + s[1..];
      assert t[0].pubDt <= s[0].pubDt;
      assert forall k :: 0 <= k < |t| ==> t[k].pubDt <= t[0].pubDt;
      [s[0]] + t
  }

  /** Python's stable `sort(key=pub_dt, reverse=True)`. */
  function SortDesc(s: seq<NewsItem>): (r: seq<NewsItem>)
    ensures SortedDesc(r)
    ensures multiset(r) == multiset(s)
  {
    if |s| == 0 then []
    else
      assert s == [s[0]] + s[1..];
      Insert(s[0], SortDesc(s[1..]))
  }

  /**
    The page's article loader. Only `.json` and `.txt` names count; unreadable or
    short records are skipped; the window and the feed filter decide the rest; the
    result is ordered newest first.
   */
  function LoadPendingFiles(dir: Dir, listing: seq<string>, rangeType: string, feed: Option<FeedFilter>,
                            now: int, env: LoadEnv): (items: seq<NewsItem>)
    ensures SortedDesc(items)
    ensures multiset(items) == multiset(Collect(dir, listing, rangeType, feed, now, env))
    ensures forall i :: 0 <= i < |items| ==> InRange(rangeType, items[i].pubDt, now)
    ensures feed.Some? ==> forall i :: 0 <= i < |items| ==> Filter.CheckFilters(items[i].title, feed.value.incStr, feed.value.excStr)
  {
    var c := Collect(dir, listing, rangeType, feed, now, env);
    var r := SortDesc(c);
    assert forall i :: 0 <= i < |r| ==> r[i] in multiset(c);
    r
  }

  /** With the "today" window every listed item was published on the calendar day of `now`. */
  lemma TodayKeepsToday(dir: Dir, listing: seq<string>, feed: Option<FeedFilter>, now: int, env: LoadEnv)
    ensures var items := LoadPendingFiles(dir, listing, TodayRange, feed, now, env);
            forall i :: 0 <= i < |items| ==> DayOf(items[i].pubDt) == DayOf(now)
  {
  }

  /**
    A stored `.txt` record whose fields round-trip and whose date is within the
    week window is listed by the one-week loader without a feed filter.
   */
  lemma SavedRecordListed(dir: Dir, listing: seq<string>, j: int, now: int, env: LoadEnv,
                          title: string, link: string, date: string, summary: string, mtime: int)
    requires 0 <= j < |listing| && EndsWith(listing[j], ".txt")
    requires listing[j] in dir && dir[listing[j]] == Written(Layout(title, link, date, summary), mtime)
    requires NoLineBreak(title) && NoLineBreak(link) && NoLineBreak(date) && NoLineBreak(summary)
    requires !Contains(title, TitleLabel) && !Contains(link, LinkLabel)
    requires !Contains(date, DateLabel) && !Contains(summary, SummaryLabel)
    requires env.parseRssDate(date).Some? && env.parseRssDate(date).value >= now - 7 * SecondsPerDay
    ensures NewsItem(title, link, date, summary, env.parseRssDate(date).value, StoredSource)
            in LoadPendingFiles(dir, listing, WeekRange, None, now, env)
  {
    LayoutRoundTrip(title, link, date, summary);
    TxtIsNotJson(listing[j]);
    var item := NewsItem(title, link, date, summary, env.parseRssDate(date).value, StoredSource);
    assert ItemOf(dir, listing[j], env) == Some(item);
    var c := Collect(dir, listing, WeekRange, None, now, env);
    assert item in multiset(c);
  }

  /** A `.txt` name is not a `.json` name. */
  lemma TxtIsNotJson(n: string)
    requires EndsWith(n, ".txt")
    ensures !EndsWith(n, ".json")
  {
    assert n[|n| - 4..] == ".txt";
    if |n| >= 5 {
      assert n[|n| - 5..][1..] == n[|n| - 4..];
    }
  }
}

=== FILE: quotes.dfy ===
/**
  Field selection for a market-data API response: which list of records to
  look at, which record carries a usable price, and how price, volume and
  traded value are read from it. Every Python error on an unexpected shape
  makes the whole fetch yield nothing.
 */
module Quotes {
  import opened Options
  import opened Strings
  import opened Json
  import opened Numbers

  /** A reading: price, accumulated volume and accumulated traded value. */
  datatype Quote = Quote(price: real, volume: real, value: real)

  /** Candidate price fields, in priority order, used to pick a record. */
  const PickKeys: seq<string> := ["closePrice", "nowPrice", "tradePrice", "currentValue"]
  /** Price fields read from the picked record: the pick keys and a raw fallback. */
  const PriceKeys: seq<string> := ["closePrice", "nowPrice", "tradePrice", "currentValue", "closePriceRaw"]
  const VolumeKeys: seq<string> := ["accumulatedTradingVolume", "volume", "accumulatedTradingVolumeRaw"]
  const ValueKeys: seq<string> := ["accumulatedTradingValue", "tradingValue", "accumulatedTradingValueRaw"]

  /**
    The source of records: `datas` when it is non-empty, else `result`, else
    the response itself when it is a list, else an empty list. None when a
    membership test, a lookup or `len` raises.
   */
  function SourceList(data: Json): (r: Option<Json>)
    ensures data.JObj? && "datas" in data.fields && Len(data.fields["datas"]).Some? && Len(data.fields["datas"]).value > 0
            ==> r == Some(data.fields["datas"])
    ensures data.JObj? && ("datas" !in data.fields || Len(data.fields["datas"]) == Some(0)) && "result" in data.fields
            ==> r == Some(data.fields["result"])
    ensures data.JObj? && ("datas" !in data.fields || Len(data.fields["datas"]) == Some(0)) && "result" !in data.fields
            ==> r == Some(JArr([]))
    ensures data.JObj? && "datas" in data.fields && Len(data.fields["datas"]).None? ==> r == None
    ensures data.JArr? && JStr("datas") !in data.items && JStr("result") !in data.items ==> r == Some(data)
    ensures data.JArr? && (JStr("datas") in data.items || JStr("result") in data.items) ==> r == None
    ensures data.JStr? && !Contains(data.s, "datas") && !Contains(data.s, "result") ==> r == Some(JArr([]))
    ensures data.JStr? && (Contains(data.s, "datas") || Contains(data.s, "result")) ==> r == None
    ensures data.JNull? || data.JBool? || data.JNum? ==> r == None
  {
    match In("datas", data)
    case None => None
    case Some(hasDatas) =>
      var datasFirst :=
        if !hasDatas then Some(false)
        else match Index(data, "datas")
          case None => None
          case Some(ds) => match Len(ds)
            case None => None
            case Some(n) => Some(n > 0);
      match datasFirst
      case None => None
      case Some(true) => Index(data, "datas")
      case Some(false) =>
        match In("result", data)
        case None => None
        case Some(true) => Index(data, "result")
        case Some(false) => if data.JArr? then Some(data) else Some(JArr([]))
  }

  /** `v` is present and is not the dash the API uses for "no value". */
  predicate Usable(v: Json, render: Json -> string) {
    Truthy(v) && Strip(Str(v, render)) != "-"
  }

  /** The first truthy value among `keys` of a record, Python's `get(a) or get(b) or ...`. */
  function FirstOf(m: map<string, Json>, keys: seq<string>): Json
    requires |keys| >= 1
  {
    OrChain(GetAll(m, keys))
  }

  /** The outcome of scanning the records: the picked record, none, or a raise. */
  datatype Pick = Picked(entry: Json) | NoneUsable | Raised

  /** A record the scan passes over: an object without a usable pick-key value. */
  predicate Skipped(e: Json, render: Json -> string) {
    e.JObj? && !Usable(FirstOf(e.fields, PickKeys), render)
  }

  /** Where the scan stops: the first record it does not pass over, or the end. */
  function ScanStop(entries: seq<Json>, render: Json -> string): (i: nat)
    ensures i <= |entries|
    ensures forall j :: 0 <= j < i ==> Skipped(entries[j], render)
    ensures i < |entries| ==> !Skipped(entries[i], render)
  {
    if |entries| == 0 || !Skipped(entries[0], render) then 0
    else
      var i := ScanStop(entries[1..], render);
      assert forall j :: 1 <= j < |entries| ==> entries[j] == entries[1..][j - 1];
      i + 1
  }

  /**
    Scans records in order for the first whose pick-key value is usable; a
    record that is not an object raises (it has no `get`).
   */
  function PickEntry(entries: seq<Json>, render: Json -> string): (r: Pick)
    ensures r.NoneUsable? <==> forall i :: 0 <= i < |entries| ==> Skipped(entries[i], render)
    ensures r.Picked? ==> r.entry.JObj? && Usable(FirstOf(r.entry.fields, PickKeys), render)
    ensures r.Picked? ==> ScanStop(entries, render) < |entries| && r.entry == entries[ScanStop(entries, render)]
    ensures r.Raised? <==> ScanStop(entries, render) < |entries| && !entries[ScanStop(entries, render)].JObj?
  {
    var i := ScanStop(entries, render);
    if i == |entries| then NoneUsable
    else if entries[i].JObj? then Picked(entries[i])
    else Raised
  }

  /** The picked record is the first usable one: every record before it is passed over. */
  lemma PickedIsFirst(entries: seq<Json>, render: Json -> string)
    requires PickEntry(entries, render).Picked?
    ensures var i := ScanStop(entries, render);
            i < |entries| && entries[i] == PickEntry(entries, render).entry
            && forall j :: 0 <= j < i ==> Skipped(entries[j], render)
  {
  }

  /** A usable first record is picked whatever follows it: the scan stops before any later record. */
  lemma UsableHeadPicked(entries: seq<Json>, render: Json -> string)
    requires |entries| > 0 && entries[0].JObj? && Usable(FirstOf(entries[0].fields, PickKeys), render)
    ensures PickEntry(entries, render) == Picked(entries[0])
  {
  }

  /** A truthy value found among the first `n` operands ends the whole `or` chain there. */
  lemma {:induction false} OrChainPrefix(vs: seq<Json>, n: int)
    requires 1 <= n <= |vs| && Truthy(OrChain(vs[..n]))
    ensures OrChain(vs) == OrChain(vs[..n])
    decreases n
  {
    var p := vs[..n];
    assert p[0] == vs[0];
    if !Truthy(vs[0]) {
      assert n >= 2;
      assert p[1..] == vs[1..][..n - 1];
      OrChainPrefix(vs[1..], n - 1);
    }
  }

  /**
    A record the scan picks also has a usable price: the price fields start
    with the pick fields, so the price lookup stops at the same value.
   */
  lemma PickedPriceUsable(m: map<string, Json>, render: Json -> string)
    requires Usable(FirstOf(m, PickKeys), render)
    ensures FirstOf(m, PriceKeys) == FirstOf(m, PickKeys)
    ensures Usable(FirstOf(m, PriceKeys), render) && m != map[]
  {
    var vs := GetAll(m, PriceKeys);
    assert vs[..4] == GetAll(m, PickKeys);
    OrChainPrefix(vs, 4);
    var ws := GetAll(m, PickKeys);
    var i :| 0 <= i < |ws| && Truthy(ws[i]);
    assert PickKeys[i] in m;
  }

  /** The figures read from a picked record; volume and value default to zero. */
  function Reading(m: map<string, Json>, render: Json -> string, parse: string -> Option<real>): Quote {
    Quote(
      SafeFloat(FirstOf(m, PriceKeys), render, parse),
      SafeFloat(OrChain(GetAll(m, VolumeKeys) + [JNum(0.0)]), render, parse),
      SafeFloat(OrChain(GetAll(m, ValueKeys) + [JNum(0.0)]), render, parse))
  }

  /** The last step of the fetch: a non-empty record with a usable price gives a reading. */
  function FromItem(item: Json, render: Json -> string, parse: string -> Option<real>): (r: Option<Quote>)
    ensures r.Some? <==> item.JObj? && item.fields != map[] && Usable(FirstOf(item.fields, PriceKeys), render)
    ensures r.Some? ==> r.value == Reading(item.fields, render, parse)
  {
    if !Truthy(item) then None
    else if !item.JObj? then None
    else if !Usable(FirstOf(item.fields, PriceKeys), render) then None
    else Some(Reading(item.fields, render, parse))
  }

  /** The fetch once the record source is known: a list is scanned, anything else is the record. */
  function FromSource(src: Json, render: Json -> string, parse: string -> Option<real>): (r: Option<Quote>)
    ensures src.JArr? && PickEntry(src.items, render).Picked? ==>
              r == Some(Reading(PickEntry(src.items, render).entry.fields, render, parse))
    ensures src.JArr? && !PickEntry(src.items, render).Picked? ==> r == None
    ensures !src.JArr? ==> r == FromItem(src, render, parse)
  {
    if src.JArr? then
      match PickEntry(src.items, render)
      case Raised => None
      case NoneUsable => FromItem(JNull, render, parse)
      case Picked(e) => PickedPriceUsable(e.fields, render); FromItem(e, render, parse)
    else FromItem(src, render, parse)
  }

  /**
    The fetch's selection logic, given the decoded response (None when the
    request or decoding raised). `render` is `str()` of a non-string and
    `parse` is `float()` of cleaned text.
   */
  function FetchApiData(resp: Option<Json>, render: Json -> string, parse: string -> Option<real>): (r: Option<Quote>)
    ensures r.Some? ==> exists m :: Usable(FirstOf(m, PriceKeys), render) && r.value == Reading(m, render, parse)
    ensures resp.None? || SourceList(resp.value).None? ==> r == None
    ensures resp.Some? && SourceList(resp.value).Some? ==>
              var src := SourceList(resp.value).value;
              && (src.JArr? && PickEntry(src.items, render).Picked? ==>
                    r == Some(Reading(PickEntry(src.items, render).entry.fields, render, parse)))
              && (src.JArr? && !PickEntry(src.items, render).Picked? ==> r == None)
              && (src.JObj? && src.fields != map[] && Usable(FirstOf(src.fields, PriceKeys), render) ==>
                    r == Some(Reading(src.fields, render, parse)))
              && (src.JObj? && !(src.fields != map[] && Usable(FirstOf(src.fields, PriceKeys), render)) ==> r == None)
              && (!src.JArr? && !src.JObj? ==> r == None)
  {
    if resp.None? then None
    else
      match SourceList(resp.value)
      case None => None
      case Some(src) =>
        var r := FromSource(src, render, parse);
        assert r.Some? && src.JArr? ==> Usable(FirstOf(PickEntry(src.items, render).entry.fields, PriceKeys), render);
        r
  }

  /** A record list in which no record carries a usable pick-key value gives nothing. */
  lemma NoUsableRecordNoQuote(data: Json, render: Json -> string, parse: string -> Option<real>)
    requires data.JObj? && "datas" in data.fields && data.fields["datas"].JArr? && |data.fields["datas"].items| > 0
    requires forall i :: 0 <= i < |data.fields["datas"].items| ==> Skipped(data.fields["datas"].items[i], render)
    ensures FetchApiData(Some(data), render, parse) == None
  {
    var ds := data.fields["datas"];
    assert SourceList(data) == Some(ds);
    assert PickEntry(ds.items, render) == NoneUsable;
  }

  /** A dash in every price field, the API's placeholder, gives nothing. */
  lemma DashPriceNoQuote(m: map<string, Json>, render: Json -> string, parse: string -> Option<real>)
    requires forall k :: k in PriceKeys ==> k in m && m[k] == JStr("-")
    ensures FetchApiData(Some(JObj(map["result" := JObj(m)])), render, parse) == None
  {
    var data := JObj(map["result" := JObj(m)]);
    assert SourceList(data) == Some(JObj(m));
    var vs := GetAll(m, PriceKeys);
    assert forall i :: 0 <= i < |vs| ==> vs[i] == JStr("-");
    assert Strip("-") == "-";
  }

  /**
    The first usable record wins even when a later one also has a price, and a
    record that is not an object before it makes the fetch fail.
   */
  lemma FirstUsableRecordWins(a: map<string, Json>, b: map<string, Json>, render: Json -> string, parse: string -> Option<real>)
    requires Usable(FirstOf(a, PickKeys), render) && Usable(FirstOf(a, PriceKeys), render)
    ensures var data := JObj(map["result" := JArr([JObj(a), JObj(b)])]);
            FetchApiData(Some(data), render, parse) == Some(Reading(a, render, parse))
    ensures FetchApiData(Some(JObj(map["result" := JArr([JNum(1.0), JObj(a)])])), render, parse) == None
  {
    var data := JObj(map["result" := JArr([JObj(a), JObj(b)])]);
    assert SourceList(data) == Some(JArr([JObj(a), JObj(b)]));
    assert !Skipped(JObj(a), render);
    assert ScanStop([JObj(a), JObj(b)], render) == 0;
    assert PickEntry([JObj(a), JObj(b)], render) == Picked(JObj(a));
    assert Truthy(JObj(a)) by {
      assert a != map[] by {
        var vs := GetAll(a, PickKeys);
        var i :| 0 <= i < |vs| && Truthy(vs[i]);
        assert PickKeys[i] in a;
      }
    }
    var bad := JObj(map["result" := JArr([JNum(1.0), JObj(a)])]);
    assert SourceList(bad) == Some(JArr([JNum(1.0), JObj(a)]));
    assert ScanStop([JNum(1.0), JObj(a)], render) == 0;
    assert PickEntry([JNum(1.0), JObj(a)], render) == Raised;
  }
}

=== FILE: reports.dfy ===
/**
  The report store: one sub-directory per report tier under the reports root,
  each holding timestamped reports plus a `latest.txt` copy of the newest one,
  purged by a tier-specific age limit; and the history digest assembled from
  the four tiers' `latest.txt` files.
 */
module ReportStore {
  import opened Options
  import opened Strings
  import opened Files

  /** The reports root: sub-directory name to directory contents. */
  type Tree = map<string, Dir>

  const ReportRoot: string := "/share/ai_analyst/reports"
  const LatestName: string := "latest.txt"
  const DailyDir: string := "01_daily"
  const WeeklyDir: string := "02_weekly"
  const MonthlyDir: string := "03_monthly"
  const YearlyDir: string := "04_yearly"
  const EtcDir: string := "05_etc"

  // ----------------------------------------------------------------- saving

  /** The tier directory for a section name, compared lower-cased; unknown sections go to `05_etc`. */
  function SubdirFor(section: string): (d: string)
    ensures d == DailyDir <==> Lower(section) == "daily"
    ensures d == WeeklyDir <==> Lower(section) == "weekly"
    ensures d == MonthlyDir <==> Lower(section) == "monthly"
    ensures d == YearlyDir <==> Lower(section) == "yearly"
    ensures d == EtcDir <==> Lower(section) !in {"daily", "weekly", "monthly", "yearly"}
  {
    var s := Lower(section);
    if s == "daily" then DailyDir
    else if s == "weekly" then WeeklyDir
    else if s == "monthly" then MonthlyDir
    else if s == "yearly" then YearlyDir
    else EtcDir
  }

  /** Section names that differ only in ASCII case share a directory. */
  lemma SubdirIgnoresCase(a: string, b: string)
    requires Lower(a) == Lower(b)
    ensures SubdirFor(a) == SubdirFor(b)
  {
  }

  /** Retention in days for the tiers that are purged; yearly and other reports are kept forever. */
  function PurgeDays(subdir: string): Option<int> {
    if subdir == DailyDir then Some(9)
    else if subdir == WeeklyDir then Some(35)
    else if subdir == MonthlyDir then Some(370)
    else None
  }

  /** The archive name: the `%Y-%m-%d_%H%M` stamp, the section with spaces turned into underscores, `.txt`. */
  function ReportFileName(stamp: string, section: string): string {
    stamp + "_" + ReplaceChar(section, ' ', '_') + ".txt"
  }

  /** With the stamp's fixed width of fifteen characters the archive name is never `latest.txt`. */
  lemma ArchiveNameNotLatest(stamp: string, section: string)
    requires |stamp| == 15
    ensures ReportFileName(stamp, section) != LatestName
  {
    assert |ReportFileName(stamp, section)| >= 20;
  }

  /** Whether the purge of `subdir` removes `name`: a regular file other than `latest.txt` older than the limit. */
  predicate Purged(subdir: string, name: string, e: Entry, now: int) {
    && name != LatestName
    && PurgeDays(subdir).Some?
    && e.isFile
    && e.mtime < now - PurgeDays(subdir).value * SecondsPerDay
  }

  function Purge(subdir: string, dir: Dir, now: int): (r: Dir)
    ensures r.Keys <= dir.Keys
    ensures forall n :: n in r ==> r[n] == dir[n]
    ensures forall n :: n in dir ==> (n !in r <==> Purged(subdir, n, dir[n], now))
  {
    map n | n in dir && !Purged(subdir, n, dir[n], now) :: dir[n]
  }

  /** Opening `name` in `dir` for writing fails only when it is a directory. */
  predicate Writable(dir: Dir, name: string) {
    name !in dir || dir[name].isFile
  }

  /** The reports root after a save, and the archive path when the save completed. */
  datatype SaveOutcome = SaveOutcome(tree: Tree, path: Option<string>)

  function DirOf(tree: Tree, d: string): Dir {
    if d in tree then tree[d] else map[]
  }

  /**
    Stores a report: creates the tier directory, writes the archive file, then
    `latest.txt`, then purges the tier. A write that fails leaves what was
    written before it and no path.
   */
  function SaveReport(tree: Tree, content: string, section: string, stamp: string, now: int): (r: SaveOutcome)
    ensures r.tree.Keys == tree.Keys + {SubdirFor(section)}
    ensures forall k :: k in tree && k != SubdirFor(section) ==> r.tree[k] == tree[k]
    ensures r.path.Some? <==> Writable(DirOf(tree, SubdirFor(section)), ReportFileName(stamp, section))
                              && Writable(DirOf(tree, SubdirFor(section)), LatestName)
    ensures r.path.Some? ==> r.path.value == ReportRoot + "/" + SubdirFor(section) + "/" + ReportFileName(stamp, section)
  {
    var d := SubdirFor(section);
    var fname := ReportFileName(stamp, section);
    var dir0 := DirOf(tree, d);
    if !Writable(dir0, fname) then SaveOutcome(tree[d := dir0], None)
    else
      var dir1 := dir0[fname := Written(content, now)];
      if !Writable(dir1, LatestName) then SaveOutcome(tree[d := dir1], None)
      else
        var dir2 := dir1[LatestName := Written(content, now)];
        SaveOutcome(tree[d := Purge(d, dir2, now)], Some(ReportRoot + "/" + d + "/" + fname))
  }

  /**
    After a completed save the tier holds the report twice (archive and
    `latest.txt`); every other file of the tier is kept unchanged unless the
    purge rule removes it, and nothing else appears.
   */
  lemma SaveReportContents(tree: Tree, content: string, section: string, stamp: string, now: int)
    requires SaveReport(tree, content, section, stamp, now).path.Some?
    ensures var d := SubdirFor(section);
            var fname := ReportFileName(stamp, section);
            var out := SaveReport(tree, content, section, stamp, now).tree[d];
            && out[LatestName] == Written(content, now)
            && out[fname] == Written(content, now)
            && (forall n :: n in out ==> n == fname || n == LatestName || (n in DirOf(tree, d) && out[n] == DirOf(tree, d)[n]))
            && (forall n :: n in DirOf(tree, d) && n != fname && n != LatestName ==>
                  (n in out <==> !Purged(d, n, DirOf(tree, d)[n], now)))
  {
  }

  /** A failed save never touches `latest.txt`. */
  lemma FailedSaveKeepsLatest(tree: Tree, content: string, section: string, stamp: string, now: int)
    requires SaveReport(tree, content, section, stamp, now).path.None?
    requires |stamp| == 15
    ensures var d := SubdirFor(section);
            var out := SaveReport(tree, content, section, stamp, now).tree[d];
            (LatestName in out <==> LatestName in DirOf(tree, d))
            && (LatestName in out ==> out[LatestName] == DirOf(tree, d)[LatestName])
  {
    ArchiveNameNotLatest(stamp, section);
  }

  /** Yearly and unknown-section reports are never purged. */
  lemma UnpurgedTiers(section: string, n: string, e: Entry, now: int)
    requires SubdirFor(section) == YearlyDir || SubdirFor(section) == EtcDir
    ensures !Purged(SubdirFor(section), n, e, now)
  {
  }

  // ---------------------------------------------------------------- history

  const HistoryHeader: string := "### [ 역사적 맥락 참조 데이터 ]\n"
  /** How much of a `latest.txt` the digest quotes. */
  const QuoteLimit: nat := 1000
  /** A `latest.txt` whose stripped text is this long or shorter counts as empty. */
  const MinContent: nat := 10

  /** The tiers in digest order: heading and directory. */
  const Tiers: seq<(string, string)> := [
    ("YEARLY_STRATEGY", YearlyDir),
    ("MONTHLY_THEME", MonthlyDir),
    ("WEEKLY_MOMENTUM", WeeklyDir),
    ("DAILY_LOG", DailyDir)
  ]

  function Take(s: string, n: nat): (t: string)
    ensures |t| <= n
    ensures |t| == |s| || |t| == n
    ensures StartsWith(s, t)
  {
    if |s| <= n then s else s[..n]
  }

  /** Placeholder text for a tier whose `latest.txt` is (nearly) empty. */
  const EmptyNote: string := ": 해당 주기의 분석 데이터가 아직 비어 있습니다.\n"
  /** Placeholder text for a tier that has no `latest.txt` yet, around the tier's heading. */
  const MissingLead: string := ": 시스템 도입 초기 단계로, 아직 "
  const MissingTail: string := " 데이터가 생성되지 않았습니다. 현재 가용한 최신 데이터 중심으로 분석하십시오.\n"

  function EmptyPlaceholder(heading: string): string {
    "\n<" + heading + ">" + EmptyNote
  }

  function MissingPlaceholder(heading: string): string {
    "\n<" + heading + ">" + MissingLead + heading + MissingTail
  }

  function Quoted(heading: string, content: string): string {
    "\n<" + heading + ">\n" + Take(content, QuoteLimit) + "\n"
  }

  /**
    A text-mode read with universal newlines: `\r\n` and a lone `\r` each
    become `\n`.
   */
  function ReadText(s: string): (r: string)
    ensures |r| <= |s|
    ensures forall i :: 0 <= i < |r| ==> r[i] != '\r'
    ensures (forall i :: 0 <= i < |s| ==> s[i] != '\r') ==> r == s
    decreases |s|
  {
    if |s| == 0 then ""
    else if s[0] == '\r' then "\n" + ReadText(if |s| > 1 && s[1] == '\n' then s[2..] else s[1..])
    else
      assert forall i :: 1 <= i < |s| ==> s[i] == s[1..][i - 1];
      [s[0]] + ReadText(s[1..])
  }

  /** Reading back text without a carriage return gives it unchanged; text already read reads the same again. */
  lemma ReadTextPlain(s: string)
    ensures (forall i :: 0 <= i < |s| ==> s[i] != '\r') ==> ReadText(s) == s
    ensures ReadText(ReadText(s)) == ReadText(s)
  {
  }

  /** A line end written as `\r\n` after text without carriage returns reads back as one `\n`. */
  lemma CrLfLineEnd(a: string, t: string)
    requires forall i :: 0 <= i < |a| ==> a[i] != '\r'
    ensures ReadText(a + "\r\n" + t) == a + "\n" + ReadText(t)
  {
    var x := "\r\n" + t;
    CrLfRead(t);
    ReadTextAppend(a, x);
    Assoc(a, "\r\n", t);
    Assoc(a, "\n", ReadText(t));
  }

  /** A lone `\r` after text without carriage returns, and not before a `\n`, reads back as one `\n`. */
  lemma CrLineEnd(a: string, t: string)
    requires forall i :: 0 <= i < |a| ==> a[i] != '\r'
    requires |t| == 0 || t[0] != '\n'
    ensures ReadText(a + "\r" + t) == a + "\n" + ReadText(t)
  {
    var x := "\r" + t;
    CrRead(t);
    ReadTextAppend(a, x);
    Assoc(a, "\r", t);
    Assoc(a, "\n", ReadText(t));
  }

  lemma Assoc(a: string, b: string, c: string)
    ensures a + b + c == a + (b + c)
  {
  }

  lemma CrLfRead(t: string)
    ensures ReadText("\r\n" + t) == "\n" + ReadText(t)
  {
    assert ("\r\n" + t)[2..] == t;
  }

  lemma CrRead(t: string)
    requires |t| == 0 || t[0] != '\n'
    ensures ReadText("\r" + t) == "\n" + ReadText(t)
  {
    assert ("\r" + t)[1..] == t;
  }

  /** Text without a carriage return passes through the read in front of any rest. */
  lemma {:induction false} ReadTextAppend(a: string, t: string)
    requires forall i :: 0 <= i < |a| ==> a[i] != '\r'
    ensures ReadText(a + t) == a + ReadText(t)
    decreases |a|
  {
    if |a| == 0 {
      assert a + t == t;
    } else {
      assert (a + t)[0] == a[0];
      assert (a + t)[1..] == a[1..] + t;
      ReadTextAppend(a[1..], t);
      assert ReadText(a + t) == [a[0]] + ReadText(a[1..] + t);
      assert [a[0]] + (a[1..] + ReadText(t)) == a + ReadText(t);
    }
  }

  /**
    One tier's section: the quoted text as read back, the empty placeholder or
    the missing placeholder. None when the path exists but is a directory,
    which raises.
   */
  function Section(tree: Tree, heading: string, subdir: string): (r: Option<string>)
    ensures r.None? <==> subdir in tree && LatestName in tree[subdir] && !tree[subdir][LatestName].isFile
    ensures subdir !in tree || LatestName !in tree[subdir] ==> r == Some(MissingPlaceholder(heading))
    ensures r.Some? ==> StartsWith(r.value, "\n<" + heading + ">")
  {
    if subdir !in tree || LatestName !in tree[subdir] then Some(MissingPlaceholder(heading))
    else
      var e := tree[subdir][LatestName];
      if !e.isFile then None
      else
        var text := ReadText(e.content);
        if |Strip(text)| > MinContent then Some(Quoted(heading, text))
        else Some(EmptyPlaceholder(heading))
  }

  /** The sections of `tiers` in order, or None at the first that raises. */
  function Sections(tree: Tree, tiers: seq<(string, string)>): (r: Option<string>)
    ensures r.Some? <==> forall i :: 0 <= i < |tiers| ==> Section(tree, tiers[i].0, tiers[i].1).Some?
  {
    if |tiers| == 0 then Some("")
    else
      var head := Section(tree, tiers[0].0, tiers[0].1);
      var rest := Sections(tree, tiers[1..]);
      assert forall i :: 1 <= i < |tiers| ==> tiers[i] == tiers[1..][i - 1];
      if head.None? || rest.None? then None else Some(head.value + rest.value)
  }

  /** A directory where a `latest.txt` should be. */
  predicate Blocked(tree: Tree, subdir: string) {
    subdir in tree && LatestName in tree[subdir] && !tree[subdir][LatestName].isFile
  }

  /** Only a directory in place of a `latest.txt` makes a section raise. */
  lemma SectionFailsIffBlocked(tree: Tree, heading: string, subdir: string)
    ensures Section(tree, heading, subdir).None? <==> Blocked(tree, subdir)
  {
  }

  /** One step of the fold: the first section, then the rest. */
  lemma SectionsStep(tree: Tree, tiers: seq<(string, string)>)
    requires |tiers| > 0 && Sections(tree, tiers).Some?
    ensures Sections(tree, tiers[1..]).Some?
    ensures Sections(tree, tiers).value == Section(tree, tiers[0].0, tiers[0].1).value + Sections(tree, tiers[1..]).value
  {
  }

  /** A fold over four tiers, unrolled. */
  lemma {:induction false} SectionsOfFour(tree: Tree, tiers: seq<(string, string)>)
    requires |tiers| == 4
    requires Sections(tree, tiers).Some?
    ensures Sections(tree, tiers).value == Section(tree, tiers[0].0, tiers[0].1).value
                                          + Section(tree, tiers[1].0, tiers[1].1).value
                                          + Section(tree, tiers[2].0, tiers[2].1).value
                                          + Section(tree, tiers[3].0, tiers[3].1).value
  {
    var t1, t2, t3 := tiers[1..], tiers[2..], tiers[3..];
    assert t1[1..] == t2 && t2[1..] == t3 && t3[1..] == [];
    assert t1[0] == tiers[1] && t2[0] == tiers[2] && t3[0] == tiers[3];
    SectionsStep(tree, tiers);
    SectionsStep(tree, t1);
    SectionsStep(tree, t2);
    SectionsStep(tree, t3);
    var a, b := Section(tree, tiers[0].0, tiers[0].1).value, Section(tree, tiers[1].0, tiers[1].1).value;
    var c, d := Section(tree, tiers[2].0, tiers[2].1).value, Section(tree, tiers[3].0, tiers[3].1).value;
    assert Sections(tree, t3[1..]) == Some("");
    Regroup4(a, b, c, d, Sections(tree, tiers).value);
  }

  lemma Regroup4(a: string, b: string, c: string, d: string, s: string)
    requires s == a + (b + (c + (d + "")))
    ensures s == a + b + c + d
  {
  }

  /**
    The history digest: the header, then one section per tier in the order of
    `Tiers` (yearly, monthly, weekly, daily). It fails exactly when one of the
    four `latest.txt` paths is a directory.
   */
  function LoadHistoricalContexts(tree: Tree): (r: Option<string>)
    ensures r.Some? <==> forall i :: 0 <= i < |Tiers| ==> !Blocked(tree, Tiers[i].1)
    ensures r.Some? ==> StartsWith(r.value, HistoryHeader)
  {
    var body := Sections(tree, Tiers);
    forall i | 0 <= i < |Tiers| ensures Section(tree, Tiers[i].0, Tiers[i].1).None? <==> Blocked(tree, Tiers[i].1) {
      SectionFailsIffBlocked(tree, Tiers[i].0, Tiers[i].1);
    }
    if body.None? then None else Some(HistoryHeader + body.value)
  }

  /** The digest is the header followed by the four tiers' sections in `Tiers` order. */
  lemma DigestLayout(tree: Tree)
    requires LoadHistoricalContexts(tree).Some?
    ensures LoadHistoricalContexts(tree).value == HistoryHeader
                                                 + Section(tree, Tiers[0].0, Tiers[0].1).value
                                                 + Section(tree, Tiers[1].0, Tiers[1].1).value
                                                 + Section(tree, Tiers[2].0, Tiers[2].1).value
                                                 + Section(tree, Tiers[3].0, Tiers[3].1).value
  {
    var body := Sections(tree, Tiers);
    SectionsOfFour(tree, Tiers);
    var a, b := Section(tree, Tiers[0].0, Tiers[0].1).value, Section(tree, Tiers[1].0, Tiers[1].1).value;
    var c, d := Section(tree, Tiers[2].0, Tiers[2].1).value, Section(tree, Tiers[3].0, Tiers[3].1).value;
    assert body.value == a + b + c + d;
    assert LoadHistoricalContexts(tree).value == HistoryHeader + body.value;
    Regroup(HistoryHeader, a, b, c, d);
  }

  /** Concatenation regrouped; kept apart so that no literal text enters the proof. */
  lemma Regroup(h: string, a: string, b: string, c: string, d: string)
    ensures h + (a + b + c + d) == h + a + b + c + d
    ensures h + a + b + c + d == (h + a + b + c) + d
  {
  }

  /** A long enough `latest.txt` is quoted as read back, at most its first thousand characters. */
  lemma LongLatestQuoted(tree: Tree, heading: string, subdir: string)
    requires subdir in tree && LatestName in tree[subdir] && tree[subdir][LatestName].isFile
    requires |Strip(ReadText(tree[subdir][LatestName].content))| > MinContent
    ensures var c := ReadText(tree[subdir][LatestName].content);
            exists q :: Section(tree, heading, subdir) == Some("\n<" + heading + ">\n" + q + "\n")
                        && StartsWith(c, q) && |q| == (if |c| <= QuoteLimit then |c| else QuoteLimit)
  {
    var c := ReadText(tree[subdir][LatestName].content);
    var q := Take(c, QuoteLimit);
    assert Section(tree, heading, subdir) == Some("\n<" + heading + ">\n" + q + "\n");
  }

  /** A `latest.txt` that reads back as ten or fewer non-blank-edged characters gets the empty placeholder. */
  lemma ShortLatestPlaceholder(tree: Tree, heading: string, subdir: string)
    requires subdir in tree && LatestName in tree[subdir] && tree[subdir][LatestName].isFile
    requires |Strip(ReadText(tree[subdir][LatestName].content))| <= MinContent
    ensures Section(tree, heading, subdir) == Some(EmptyPlaceholder(heading))
  {
  }

  /** The two placeholders differ, so a missing file is distinguishable from an empty one. */
  lemma PlaceholdersDiffer(heading: string)
    ensures EmptyPlaceholder(heading) != MissingPlaceholder(heading)
  {
    var pre := "\n<" + heading + ">";
    var k := |pre| + 2;
    assert EmptyPlaceholder(heading) == pre + EmptyNote;
    assert MissingPlaceholder(heading) == pre + (MissingLead + heading + MissingTail);
    assert EmptyPlaceholder(heading)[k] == EmptyNote[2] == '해';
    assert MissingPlaceholder(heading)[k] == MissingLead[2] == '시';
  }

  /** An empty reports root gives the header followed by the four missing placeholders. */
  lemma EmptyRootDigest()
    ensures LoadHistoricalContexts(map[]) == Some(HistoryHeader
                                                 + MissingPlaceholder("YEARLY_STRATEGY")
                                                 + MissingPlaceholder("MONTHLY_THEME")
                                                 + MissingPlaceholder("WEEKLY_MOMENTUM")
                                                 + MissingPlaceholder("DAILY_LOG"))
  {
    var t: Tree := map[];
    DigestLayout(t);
    assert Tiers[0] == ("YEARLY_STRATEGY", YearlyDir) && Tiers[1] == ("MONTHLY_THEME", MonthlyDir);
    assert Tiers[2] == ("WEEKLY_MOMENTUM", WeeklyDir) && Tiers[3] == ("DAILY_LOG", DailyDir);
  }

  /**
    After a completed daily save of a report that reads back with more than ten
    non-blank-edged characters, the digest (when it can be built) ends with
    that report quoted as read back; a report without carriage returns is
    quoted as written.
   */
  lemma SavedDailyEndsDigest(tree: Tree, content: string, section: string, stamp: string, now: int)
    requires Lower(section) == "daily"
    requires SaveReport(tree, content, section, stamp, now).path.Some?
    requires |Strip(ReadText(content))| > MinContent
    requires LoadHistoricalContexts(SaveReport(tree, content, section, stamp, now).tree).Some?
    ensures EndsWith(LoadHistoricalContexts(SaveReport(tree, content, section, stamp, now).tree).value,
                     Quoted("DAILY_LOG", ReadText(content)))
    ensures (forall i :: 0 <= i < |content| ==> content[i] != '\r') ==>
              EndsWith(LoadHistoricalContexts(SaveReport(tree, content, section, stamp, now).tree).value,
                       Quoted("DAILY_LOG", content))
  {
    SaveReportContents(tree, content, section, stamp, now);
    var t := SaveReport(tree, content, section, stamp, now).tree;
    DigestLayout(t);
    assert Tiers[3] == ("DAILY_LOG", DailyDir);
    var q := Section(t, Tiers[3].0, Tiers[3].1).value;
    assert q == Quoted("DAILY_LOG", ReadText(content));
    var pre := HistoryHeader + Section(t, Tiers[0].0, Tiers[0].1).value
               + Section(t, Tiers[1].0, Tiers[1].1).value + Section(t, Tiers[2].0, Tiers[2].1).value;
    EndsWithConcat(pre, q);
  }

  lemma EndsWithConcat(p: string, q: string)
    ensures EndsWith(p + q, q)
  {
    assert (p + q)[|p + q| - |q|..] == q;
  }
}

=== FILE: scheduler.dfy ===
/**
  One pass of the collector's main loop: the tiered automatic reports (daily
  at the configured time, weekly ten minutes later on Sundays, monthly twenty
  minutes later on the first of the month), then the indicator collection
  every ten minutes and the macro collection every hour. A report's marker
  advances only when its report was saved; an error anywhere in the pass
  abandons the rest of it.
 */
module Scheduler {
  import opened Options
  import opened Strings
  import opened Json
  import opened Files
  import opened ReportStore
  import Quotes
  import Clock
  import AiClient
  import Settings

  const DefaultBaseTime: string := "08:00"
  const WeeklyOffset: nat := 10
  const MonthlyOffset: nat := 20
  const Sunday: nat := 6
  const WeeklyMinDaily: nat := 7
  const MonthlyMinDaily: nat := 20
  const CollectInterval: int := 600
  const MacroInterval: int := 3600

  datatype Tier = Daily | Weekly | Monthly

  /** The section name a tier's report is saved under. */
  function TierName(t: Tier): string {
    match t
    case Daily => "daily"
    case Weekly => "weekly"
    case Monthly => "monthly"
  }

  /**
    The wall clock at one pass. `dateKey`, `weekKey` and `monthKey` are the
    `%Y-%m-%d`, `%Y-%U` and `%Y-%m` renderings; `weekday` counts from Monday
    as 0; `ts` is the epoch time used for the collection intervals.
   */
  datatype Moment = Moment(clock: Clock.Minute, weekday: nat, day: nat,
                           dateKey: string, weekKey: string, monthKey: string, ts: int)

  /** The key under which a tier's report counts as done. */
  function PeriodKey(t: Tier, m: Moment): string {
    match t
    case Daily => m.dateKey
    case Weekly => m.weekKey
    case Monthly => m.monthKey
  }

  /** The last period for which each tier's report was saved. */
  datatype Markers = Markers(daily: string, weekly: string, monthly: string)

  function Marker(mk: Markers, t: Tier): string {
    match t
    case Daily => mk.daily
    case Weekly => mk.weekly
    case Monthly => mk.monthly
  }

  function SetMarker(mk: Markers, t: Tier, key: string): (r: Markers)
    ensures Marker(r, t) == key
    ensures forall u :: u != t ==> Marker(r, u) == Marker(mk, u)
  {
    match t
    case Daily => mk.(daily := key)
    case Weekly => mk.(weekly := key)
    case Monthly => mk.(monthly := key)
  }

  /**
    What a report attempt depends on besides the reports tree: whether the
    configuration file exists, the generated text per tier (None when
    generation raised), the archive time stamp and the file time.
   */
  datatype World = World(configPresent: bool, report: Tier -> Option<string>, stamp: string, now: int)

  /** The outcome of one report attempt: whether it succeeded, and the reports tree after it. */
  datatype Attempt = Attempt(ok: bool, tree: Tree)

  /** Text the report generator produces in place of a report when it fails. */
  predicate IsAlert(content: string) {
    |content| > 0 && content[0] == AiClient.AlertMark
  }

  /**
    `generate_auto_report`: nothing without a configuration file; an alert text
    or a failed generation is not saved; otherwise the report is saved, and the
    attempt succeeds exactly when the save completed.
   */
  function GenerateAutoReport(tree: Tree, t: Tier, w: World): (r: Attempt)
    ensures r.ok <==> w.configPresent && w.report(t).Some? && !IsAlert(w.report(t).value)
                      && SaveReport(tree, w.report(t).value, TierName(t), w.stamp, w.now).path.Some?
    ensures !w.configPresent || w.report(t).None? || IsAlert(w.report(t).value) ==> r.tree == tree
    ensures w.configPresent && w.report(t).Some? && !IsAlert(w.report(t).value) ==>
              r.tree == SaveReport(tree, w.report(t).value, TierName(t), w.stamp, w.now).tree
    ensures forall k :: k in tree && k != SubdirFor(TierName(t)) ==> k in r.tree && r.tree[k] == tree[k]
    ensures r.ok ==> var d := SubdirFor(TierName(t));
                     d in r.tree && LatestName in r.tree[d] && r.tree[d][LatestName] == Written(w.report(t).value, w.now)
  {
    if !w.configPresent then Attempt(false, tree)
    else match w.report(t)
      case None => Attempt(false, tree)
      case Some(content) =>
        if IsAlert(content) then Attempt(false, tree)
        else
          var out := SaveReport(tree, content, TierName(t), w.stamp, w.now);
          if out.path.Some? then SaveReportContents(tree, content, TierName(t), w.stamp, w.now); Attempt(true, out.tree)
          else Attempt(false, out.tree)
  }

  /** Every alert the language-model client returns is refused rather than saved as a report. */
  lemma ClientAlertNeverSaved(tree: Tree, t: Tier, w: World, s: AiClient.Summary)
    requires s.Alert? && |s.message| > 0 && s.message[0] == AiClient.AlertMark
    requires w.report(t) == Some(s.message)
    ensures GenerateAutoReport(tree, t, w) == Attempt(false, tree)
  {
  }

  /** The archived daily reports: `.txt` names other than `latest.txt`; None when the directory is missing. */
  function DailyCount(tree: Tree): (n: Option<nat>)
    ensures n.Some? <==> DailyDir in tree
  {
    if DailyDir !in tree then None
    else Some(|set f | f in tree[DailyDir] && EndsWith(f, ".txt") && f != LatestName|)
  }

  /** The report part of a pass: the markers and tree after it, and the tier attempted. */
  datatype ReportPass = ReportPass(markers: Markers, tree: Tree, attempted: Option<Tier>)

  function Try(mk: Markers, tree: Tree, t: Tier, m: Moment, w: World): ReportPass {
    var a := GenerateAutoReport(tree, t, w);
    ReportPass(if a.ok then SetMarker(mk, t, PeriodKey(t, m)) else mk, a.tree, Some(t))
  }

  /** The daily trigger compares the configured text itself with the clock. */
  predicate DailyTime(m: Moment, baseText: string) {
    Clock.FormatClock(m.clock) == baseText
  }

  /** The weekly and monthly triggers compare written times. */
  predicate AtOffset(m: Moment, base: Clock.Minute, k: nat) {
    Clock.FormatClock(m.clock) == Clock.FormatClock(Clock.Shift(base, k))
  }

  predicate WeeklySlot(m: Moment, base: Clock.Minute) {
    AtOffset(m, base, WeeklyOffset) && m.weekday == Sunday
  }

  predicate MonthlySlot(m: Moment, base: Clock.Minute) {
    AtOffset(m, base, MonthlyOffset) && m.day == 1
  }

  /**
    The automatic-report chain: at most one branch, in the order daily,
    weekly, monthly; the weekly and monthly branches list the daily archive,
    which raises (None) when it is missing.
   */
  function ReportStep(mk: Markers, tree: Tree, autoGen: bool, base: Clock.Minute, baseText: string, m: Moment, w: World): (r: Option<ReportPass>)
    ensures r.None? <==> autoGen && !DailyTime(m, baseText) && (WeeklySlot(m, base) || MonthlySlot(m, base)) && DailyDir !in tree
    ensures r.Some? ==> forall t :: Some(t) != r.value.attempted ==> Marker(r.value.markers, t) == Marker(mk, t)
    ensures r.Some? && r.value.attempted.None? ==> r.value.tree == tree
    ensures r.Some? && r.value.attempted == Some(Daily) <==>
              autoGen && DailyTime(m, baseText) && mk.daily != m.dateKey
    ensures r.Some? && r.value.attempted == Some(Weekly) <==>
              autoGen && !DailyTime(m, baseText) && WeeklySlot(m, base) && DailyCount(tree).Some?
              && DailyCount(tree).value >= WeeklyMinDaily && mk.weekly != m.weekKey
    ensures r.Some? && r.value.attempted == Some(Monthly) <==>
              autoGen && !DailyTime(m, baseText) && !WeeklySlot(m, base) && MonthlySlot(m, base) && DailyCount(tree).Some?
              && DailyCount(tree).value >= MonthlyMinDaily && mk.monthly != m.monthKey
    ensures r.Some? && r.value.attempted.Some? ==>
              var t := r.value.attempted.value;
              var a := GenerateAutoReport(tree, t, w);
              r.value.tree == a.tree && Marker(r.value.markers, t) == (if a.ok then PeriodKey(t, m) else Marker(mk, t))
  {
    var idle := ReportPass(mk, tree, None);
    if !autoGen then Some(idle)
    else if DailyTime(m, baseText) then
      if mk.daily != m.dateKey then Some(Try(mk, tree, Daily, m, w)) else Some(idle)
    else if WeeklySlot(m, base) then
      match DailyCount(tree)
      case None => None
      case Some(n) => if n >= WeeklyMinDaily && mk.weekly != m.weekKey then Some(Try(mk, tree, Weekly, m, w)) else Some(idle)
    else if MonthlySlot(m, base) then
      match DailyCount(tree)
      case None => None
      case Some(n) => if n >= MonthlyMinDaily && mk.monthly != m.monthKey then Some(Try(mk, tree, Monthly, m, w)) else Some(idle)
    else Some(idle)
  }

  // ---------------------------------------------------------------- collection

  /** The last known readings, by symbol. */
  type Prices = map<string, Json>

  /** The symbols with at least one result that `accept` admits. */
  function AcceptedKeys<V>(rs: seq<(string, V)>, accept: V -> bool): set<string> {
    set i | 0 <= i < |rs| && accept(rs[i].1) :: rs[i].0
  }

  /** The position of the last result for symbol `s` that `accept` admits, if any. */
  function LastAccepted<V>(rs: seq<(string, V)>, accept: V -> bool, s: string): (r: Option<nat>)
    ensures r.Some? ==> r.value < |rs| && rs[r.value].0 == s && accept(rs[r.value].1)
                        && forall j :: r.value < j < |rs| && rs[j].0 == s ==> !accept(rs[j].1)
    ensures r.None? <==> forall i :: 0 <= i < |rs| && rs[i].0 == s ==> !accept(rs[i].1)
    decreases |rs|
  {
    if |rs| == 0 then None
    else if rs[|rs| - 1].0 == s && accept(rs[|rs| - 1].1) then Some(|rs| - 1)
    else
      var init := rs[..|rs| - 1];
      assert forall i :: 0 <= i < |init| ==> init[i] == rs[i];
      LastAccepted(init, accept, s)
  }

  /**
    Folds results into the readings in order: a result `accept` admits replaces
    the symbol's reading by `value` of it, any other leaves the reading alone.
    So each symbol ends with the value of its last admitted result, or keeps
    its old reading when it has none.
   */
  function Absorb<V>(p: Prices, rs: seq<(string, V)>, accept: V -> bool, value: V -> Json): (r: Prices)
    ensures r.Keys == p.Keys + AcceptedKeys(rs, accept)
    ensures forall s :: s in r ==>
              r[s] == (if LastAccepted(rs, accept, s).Some? then value(rs[LastAccepted(rs, accept, s).value].1) else p[s])
    decreases |rs|
  {
    if |rs| == 0 then p
    else
      var init := rs[..|rs| - 1];
      var last := rs[|rs| - 1];
      var q := Absorb(p, init, accept, value);
      assert forall i :: 0 <= i < |init| ==> init[i] == rs[i];
      if accept(last.1) then q[last.0 := value(last.1)] else q
  }

  /** A symbol without an admitted result keeps its reading. */
  lemma AbsorbKeeps<V>(p: Prices, rs: seq<(string, V)>, accept: V -> bool, value: V -> Json, s: string)
    requires s in p && forall i :: 0 <= i < |rs| && rs[i].0 == s ==> !accept(rs[i].1)
    ensures s in Absorb(p, rs, accept, value) && Absorb(p, rs, accept, value)[s] == p[s]
  {
  }

  /** A symbol with an admitted result ends with the value of its last admitted result. */
  lemma AbsorbTakesLast<V>(p: Prices, rs: seq<(string, V)>, accept: V -> bool, value: V -> Json, i: int)
    requires 0 <= i < |rs| && accept(rs[i].1)
    requires forall j :: i < j < |rs| && rs[j].0 == rs[i].0 ==> !accept(rs[j].1)
    ensures rs[i].0 in Absorb(p, rs, accept, value) && Absorb(p, rs, accept, value)[rs[i].0] == value(rs[i].1)
  {
    var l := LastAccepted(rs, accept, rs[i].0);
    assert l == Some(i);
  }

  /** The reading stored for a quote: its price, volume and traded value. */
  function QuoteJson(q: Quotes.Quote): Json {
    JObj(map["price" := JNum(q.price), "volume" := JNum(q.volume), "value" := JNum(q.value)])
  }

  /** A market quote replaces the reading only when it exists and its price is positive. */
  predicate PositiveQuote(q: Option<Quotes.Quote>) {
    q.Some? && q.value.price > 0.0
  }

  function QuoteValue(q: Option<Quotes.Quote>): Json {
    if q.Some? then QuoteJson(q.value) else JNull
  }

  /** `dict.update` with a dictionary result, when one was returned and it is not empty. */
  function Merge(p: Prices, extra: Option<map<string, Json>>): (r: Prices)
    ensures extra.None? || extra.value == map[] ==> r == p
    ensures extra.Some? ==> forall s :: s in extra.value ==> s in r && r[s] == extra.value[s]
    ensures forall s :: s in p && (extra.None? || s !in extra.value) ==> s in r && r[s] == p[s]
    ensures r.Keys == p.Keys + (if extra.Some? then extra.value.Keys else {})
  {
    if extra.Some? && extra.value != map[] then p + extra.value else p
  }

  /**
    What one indicator collection fetched: market quotes and table readings in
    configuration order (a failed fetch is None or `JNull`), and the investor
    trend and market fund dictionaries.
   */
  datatype Harvest = Harvest(market: seq<(string, Option<Quotes.Quote>)>, tables: seq<(string, Json)>,
                             trends: Option<map<string, Json>>, funds: Option<map<string, Json>>)

  /** A table or macro reading is stored as fetched. */
  function AsFetched(v: Json): Json {
    v
  }

  /**
    The ten-minute collection: market quotes with a positive price, truthy
    table readings, then the trend and fund dictionaries, later sources winning.
   */
  function Collect(p: Prices, h: Harvest): (r: Prices)
    ensures r.Keys == p.Keys + AcceptedKeys(h.market, PositiveQuote) + AcceptedKeys(h.tables, Truthy)
                             + (if h.trends.Some? then h.trends.value.Keys else {})
                             + (if h.funds.Some? then h.funds.value.Keys else {})
    ensures h.funds.Some? ==> forall s :: s in h.funds.value ==> r[s] == h.funds.value[s]
    ensures forall s :: (&& s in p && LastAccepted(h.market, PositiveQuote, s).None? && LastAccepted(h.tables, Truthy, s).None?
                         && (h.trends.None? || s !in h.trends.value) && (h.funds.None? || s !in h.funds.value)) ==> s in r && r[s] == p[s]
  {
    var p1 := Absorb(p, h.market, PositiveQuote, QuoteValue);
    var p2 := Absorb(p1, h.tables, Truthy, AsFetched);
    var p3 := Merge(p2, h.trends);
    var r := Merge(p3, h.funds);
    assert r.Keys == p.Keys + AcceptedKeys(h.market, PositiveQuote) + AcceptedKeys(h.tables, Truthy)
                     + (if h.trends.Some? then h.trends.value.Keys else {}) + (if h.funds.Some? then h.funds.value.Keys else {});
    forall s | s in p && LastAccepted(h.market, PositiveQuote, s).None? && LastAccepted(h.tables, Truthy, s).None?
               && (h.trends.None? || s !in h.trends.value) && (h.funds.None? || s !in h.funds.value)
      ensures s in r && r[s] == p[s]
    {
      assert p1[s] == p[s];
      assert p2[s] == p1[s];
    }
    r
  }

  /** A market quote without a positive price never replaces a symbol's reading. */
  lemma NonPositiveQuoteKeepsReading(p: Prices, rs: seq<(string, Option<Quotes.Quote>)>, s: string)
    requires s in p
    requires forall i :: 0 <= i < |rs| && rs[i].0 == s ==> rs[i].1.None? || rs[i].1.value.price <= 0.0
    ensures Absorb(p, rs, PositiveQuote, QuoteValue)[s] == p[s]
  {
  }

  // ---------------------------------------------------------------- one pass

  datatype SchedState = SchedState(markers: Markers, lastCollect: int, lastMacro: int, prices: Prices)

  /** The configured report time as the loop reads it: `str()` of the value, stripped. */
  function BaseText(cfg: map<string, Json>, render: Json -> string): (r: string)
    ensures |r| > 0 ==> !IsSpace(r[0]) && !IsSpace(r[|r| - 1])
  {
    var text := if "report_gen_time" in cfg then Str(cfg["report_gen_time"], render) else DefaultBaseTime;
    StripEnds(text);
    Strip(text)
  }

  /** `get("report_auto_gen", False)` read as a condition: off when the key is missing. */
  function AutoGen(cfg: map<string, Json>): (on: bool)
    ensures "report_auto_gen" !in cfg ==> !on
    ensures "report_auto_gen" in cfg && cfg["report_auto_gen"] == JBool(true) ==> on
    ensures "report_auto_gen" in cfg && cfg["report_auto_gen"] in {JBool(false), JNull} ==> !on
  {
    "report_auto_gen" in cfg && Truthy(cfg["report_auto_gen"])
  }

  /**
    Automatic reports are on for any configuration the loader hands the loop
    unless the file itself sets the flag: the fallback defaults turn it on and
    the loader adds it, on, to a loaded object that lacks it.
   */
  lemma LoadedConfigAutoGenOn(f: Settings.ConfigFile, writeOk: bool)
    requires !(f.Present? && f.doc.JObj? && "report_auto_gen" in f.doc.fields)
    ensures var c := Settings.LoadData(f, writeOk).config;
            c.JObj? && AutoGen(c.fields) && c.fields["report_auto_gen"] == JBool(true)
  {
    Settings.DefaultsAutoGenOn();
    if f.Present? && f.doc.JObj? && Settings.Merge(f.doc, Settings.DefaultSettings).Some? {
      assert Settings.DefaultSettings[5].0 == "report_auto_gen";
      Settings.DefaultKeysDistinct();
      Settings.MissingGetsDefault(f.doc, Settings.DefaultSettings, 5);
      assert Settings.LoadData(f, writeOk).config == Settings.Merge(f.doc, Settings.DefaultSettings).value;
    }
  }

  /** A completed pass: the new state and reports tree, and the tier attempted. */
  datatype Outcome = Aborted | Passed(state: SchedState, tree: Tree, attempted: Option<Tier>)

  /**
    One pass of the loop with the configuration `cfg` as just loaded. An
    unreadable report time or a missing daily archive abandons the pass before
    anything changes (Aborted: the loop keeps its state).
   */
  function Tick(st: SchedState, tree: Tree, cfg: map<string, Json>, render: Json -> string, m: Moment, w: World,
                h: Harvest, macro: seq<(string, Json)>): (r: Outcome)
    ensures Clock.ParseClock(BaseText(cfg, render)).None? ==> r.Aborted?
    ensures r.Passed? ==> r.state.lastCollect == (if m.ts - st.lastCollect >= CollectInterval then m.ts else st.lastCollect)
    ensures r.Passed? ==> r.state.lastMacro == (if m.ts - st.lastMacro >= MacroInterval then m.ts else st.lastMacro)
    ensures r.Passed? && m.ts - st.lastCollect < CollectInterval && m.ts - st.lastMacro < MacroInterval ==> r.state.prices == st.prices
    ensures r.Passed? ==> forall t :: Some(t) != r.attempted ==> Marker(r.state.markers, t) == Marker(st.markers, t)
    ensures r.Passed? && r.attempted.None? ==> r.tree == tree
    ensures var text := BaseText(cfg, render);
            r.Aborted? <==> Clock.ParseClock(text).None?
                            || ReportStep(st.markers, tree, AutoGen(cfg), Clock.ParseClock(text).value, text, m, w).None?
    ensures r.Passed? ==>
              var text := BaseText(cfg, render);
              var pass := ReportStep(st.markers, tree, AutoGen(cfg), Clock.ParseClock(text).value, text, m, w).value;
              r.state.markers == pass.markers && r.tree == pass.tree && r.attempted == pass.attempted
    ensures r.Passed? ==>
              var p1 := if m.ts - st.lastCollect >= CollectInterval then Collect(st.prices, h) else st.prices;
              r.state.prices == (if m.ts - st.lastMacro >= MacroInterval then Absorb(p1, macro, Truthy, AsFetched) else p1)
  {
    var text := BaseText(cfg, render);
    match Clock.ParseClock(text)
    case None => Aborted
    case Some(base) =>
      match ReportStep(st.markers, tree, AutoGen(cfg), base, text, m, w)
      case None => Aborted
      case Some(pass) =>
        var s1 := if m.ts - st.lastCollect >= CollectInterval
                  then st.(prices := Collect(st.prices, h), lastCollect := m.ts) else st;
        var s2 := if m.ts - st.lastMacro >= MacroInterval
                  then s1.(prices := Absorb(s1.prices, macro, Truthy, AsFetched), lastMacro := m.ts) else s1;
        Passed(s2.(markers := pass.markers), pass.tree, pass.attempted)
  }

  /** With automatic reports off a pass never touches the markers or the reports. */
  lemma AutoGenOffNoReport(st: SchedState, tree: Tree, cfg: map<string, Json>, render: Json -> string, m: Moment, w: World,
                           h: Harvest, macro: seq<(string, Json)>)
    requires !AutoGen(cfg)
    requires Clock.ParseClock(BaseText(cfg, render)).Some?
    ensures var r := Tick(st, tree, cfg, render, m, w, h, macro);
            r.Passed? && r.attempted.None? && r.state.markers == st.markers && r.tree == tree
  {
  }

  /**
    A marker moves only to the current period of its tier, and only when that
    tier's report was saved.
   */
  lemma MarkerMovesOnlyOnSave(st: SchedState, tree: Tree, cfg: map<string, Json>, render: Json -> string, m: Moment, w: World,
                              h: Harvest, macro: seq<(string, Json)>, t: Tier)
    requires Tick(st, tree, cfg, render, m, w, h, macro).Passed?
    ensures var r := Tick(st, tree, cfg, render, m, w, h, macro);
            Marker(r.state.markers, t) != Marker(st.markers, t) ==>
              r.attempted == Some(t) && Marker(r.state.markers, t) == PeriodKey(t, m)
              && GenerateAutoReport(tree, t, w).ok
    ensures var r := Tick(st, tree, cfg, render, m, w, h, macro);
            r.attempted == Some(t) && !GenerateAutoReport(tree, t, w).ok ==> r.state.markers == st.markers
  {
  }

  /**
    After a pass that saved a tier's report, a later pass in the same period
    of that tier (date, `%Y-%U` week or month) does not attempt it again: at
    most one report per tier and period is saved.
   */
  lemma OneReportPerPeriod(st: SchedState, tree: Tree, cfg: map<string, Json>, render: Json -> string, m: Moment, w: World,
                           h: Harvest, macro: seq<(string, Json)>, t: Tier,
                           tree2: Tree, cfg2: map<string, Json>, m2: Moment, w2: World, h2: Harvest, macro2: seq<(string, Json)>)
    requires Tick(st, tree, cfg, render, m, w, h, macro).Passed?
    requires Tick(st, tree, cfg, render, m, w, h, macro).attempted == Some(t)
    requires GenerateAutoReport(tree, t, w).ok
    requires PeriodKey(t, m2) == PeriodKey(t, m)
    ensures var r2 := Tick(Tick(st, tree, cfg, render, m, w, h, macro).state, tree2, cfg2, render, m2, w2, h2, macro2);
            r2.Passed? ==> r2.attempted != Some(t)
  {
    var s := Tick(st, tree, cfg, render, m, w, h, macro).state;
    assert Marker(s.markers, t) == PeriodKey(t, m);
  }

  /**
    With a readable report time and the daily archive in place, a pass always
    completes, and the readings are refreshed by whichever collections are due.
   */
  lemma PassCompletes(st: SchedState, tree: Tree, cfg: map<string, Json>, render: Json -> string, m: Moment, w: World,
                      h: Harvest, macro: seq<(string, Json)>)
    requires Clock.ParseClock(BaseText(cfg, render)).Some? && DailyDir in tree
    ensures var r := Tick(st, tree, cfg, render, m, w, h, macro);
            r.Passed?
            && (m.ts - st.lastCollect >= CollectInterval && m.ts - st.lastMacro < MacroInterval ==>
                  r.state.prices == Collect(st.prices, h) && r.state.lastCollect == m.ts)
  {
  }

  /** A weekly attempt happens only on a Sunday at the weekly time, with seven archived daily reports. */
  lemma WeeklyGuard(st: SchedState, tree: Tree, cfg: map<string, Json>, render: Json -> string, m: Moment, w: World,
                    h: Harvest, macro: seq<(string, Json)>)
    requires Tick(st, tree, cfg, render, m, w, h, macro).Passed?
    requires Tick(st, tree, cfg, render, m, w, h, macro).attempted == Some(Weekly)
    ensures m.weekday == Sunday
    ensures m.clock == Clock.Shift(Clock.ParseClock(BaseText(cfg, render)).value, WeeklyOffset)
    ensures DailyCount(tree).Some? && DailyCount(tree).value >= WeeklyMinDaily
    ensures st.markers.weekly != m.weekKey
  {
    var base := Clock.ParseClock(BaseText(cfg, render)).value;
    Clock.FormatInjective(m.clock, Clock.Shift(base, WeeklyOffset));
  }

  /** A monthly attempt happens only on the first of the month at the monthly time, with twenty archived daily reports. */
  lemma MonthlyGuard(st: SchedState, tree: Tree, cfg: map<string, Json>, render: Json -> string, m: Moment, w: World,
                     h: Harvest, macro: seq<(string, Json)>)
    requires Tick(st, tree, cfg, render, m, w, h, macro).Passed?
    requires Tick(st, tree, cfg, render, m, w, h, macro).attempted == Some(Monthly)
    ensures m.day == 1
    ensures m.clock == Clock.Shift(Clock.ParseClock(BaseText(cfg, render)).value, MonthlyOffset)
    ensures DailyCount(tree).Some? && DailyCount(tree).value >= MonthlyMinDaily
    ensures st.markers.monthly != m.monthKey
  {
    var base := Clock.ParseClock(BaseText(cfg, render)).value;
    Clock.FormatInjective(m.clock, Clock.Shift(base, MonthlyOffset));
  }

  /**
    A report time written without zero padding (such as "8:00") is accepted,
    but the daily report never fires, while the weekly and monthly times are
    still derived from it.
   */
  lemma UnpaddedBaseNeverDaily(st: SchedState, tree: Tree, cfg: map<string, Json>, render: Json -> string, m: Moment, w: World,
                               h: Harvest, macro: seq<(string, Json)>)
    requires Clock.ParseClock(BaseText(cfg, render)).Some? && |BaseText(cfg, render)| < 5
    ensures var r := Tick(st, tree, cfg, render, m, w, h, macro);
            r.Passed? ==> r.attempted != Some(Daily)
  {
    Clock.ShortTextNeverWritten(BaseText(cfg, render), m.clock);
  }

  /** A failed daily attempt leaves `latest.txt` of every tier as it was. */
  lemma FailedAttemptKeepsLatest(tree: Tree, t: Tier, w: World)
    requires !GenerateAutoReport(tree, t, w).ok
    requires |w.stamp| == 15
    ensures var out := GenerateAutoReport(tree, t, w).tree;
            forall d :: d in tree && LatestName in tree[d] ==> d in out && LatestName in out[d] && out[d][LatestName] == tree[d][LatestName]
  {
    if w.configPresent && w.report(t).Some? && !IsAlert(w.report(t).value) {
      FailedSaveKeepsLatest(tree, w.report(t).value, TierName(t), w.stamp, w.now);
    }
  }
}

=== FILE: scraper.dfy ===
/**
  The scraper's cycle: expire old `.txt` files from the pending store, then walk
  every configured feed and store each of its first fifty entries whose title
  passes the global and the feed's own filter.
 */
module Scraper {
  import opened Options
  import opened Strings
  import opened Files
  import opened Filter
  import opened PendingStore

  /** Only the first fifty entries of a feed are looked at. */
  const EntryLimit: nat := 50

  // --------------------------------------------------------------- expiry

  /** A regular `.txt` file older than the retention period. The comparison is strict. */
  predicate Expired(name: string, e: Entry, now: int, retentionDays: int) {
    e.isFile && EndsWith(name, ".txt") && now - e.mtime > retentionDays * SecondsPerDay
  }

  /** The store after expiry; `failing` names the files whose removal raises, which are reported and kept. */
  function Sweep(dir: Dir, now: int, retentionDays: int, failing: set<string>): (r: Dir)
    ensures r.Keys <= dir.Keys
    ensures forall n :: n in r ==> r[n] == dir[n]
    ensures forall n :: n in dir ==> (n !in r <==> Expired(n, dir[n], now, retentionDays) && n !in failing)
  {
    map n | n in dir && !(Expired(n, dir[n], now, retentionDays) && n !in failing) :: dir[n]
  }

  /** Sweeping twice at the same moment removes nothing more. */
  lemma SweepIdempotent(dir: Dir, now: int, retentionDays: int, failing: set<string>)
    ensures Sweep(Sweep(dir, now, retentionDays, failing), now, retentionDays, failing)
            == Sweep(dir, now, retentionDays, failing)
  {
  }

  /** A file exactly as old as the retention period survives, and so does anything that is not a `.txt` file. */
  lemma SweepKeepsBoundaryAndOthers(dir: Dir, n: string, now: int, retentionDays: int, failing: set<string>)
    requires n in dir
    requires dir[n].mtime == now - retentionDays * SecondsPerDay || !EndsWith(n, ".txt") || !dir[n].isFile
    ensures n in Sweep(dir, now, retentionDays, failing)
  {
  }

  /**
    Walks a directory listing and removes every listed name `doomed` picks,
    counting the removals. The listing names every file of the directory; a
    name listed twice is no longer there the second time and is passed over.
   */
  method RemoveWhere(names: set<string>, listing: seq<string>, doomed: string -> bool) returns (left: set<string>, deleted: nat)
    requires forall n :: n in names <==> n in listing
    ensures left <= names
    ensures forall n :: n in names ==> (n !in left <==> doomed(n))
    ensures deleted == |names - left|
  {
    left := names;
    deleted := 0;
    for i := 0 to |listing|
      invariant left <= names
      invariant forall n :: n in names - left ==> doomed(n)
      invariant forall j :: 0 <= j < i && listing[j] in names && doomed(listing[j]) ==> listing[j] !in left
      invariant deleted == |names - left|
    {
      var name := listing[i];
      if name in left && doomed(name) {
        assert names - (left - {name}) == (names - left) + {name};
        left := left - {name};
        deleted := deleted + 1;
      }
    }
    forall n | n in names && doomed(n) ensures n !in left {
      var j :| 0 <= j < |listing| && listing[j] == n;
    }
  }

  /** The expiry pass of the scraper: removes what the sweep removes and counts it. */
  method CleanupOldFiles(dir: Dir, listing: seq<string>, now: int, retentionDays: int, failing: set<string>)
    returns (kept: Dir, deleted: nat)
    requires forall n :: n in dir <==> n in listing
    ensures kept == Sweep(dir, now, retentionDays, failing)
    ensures deleted == |dir.Keys - kept.Keys|
  {
    var left;
    left, deleted := RemoveWhere(dir.Keys, listing, n => n in dir && Removed(dir, n, now, retentionDays, failing));
    kept := map n | n in left :: dir[n];
    assert kept.Keys == left;
    SweepOfKeys(dir, kept, now, retentionDays, failing);
  }

  /** A sub-map that drops exactly the removable names is the sweep. */
  lemma SweepOfKeys(dir: Dir, kept: Dir, now: int, retentionDays: int, failing: set<string>)
    requires kept.Keys <= dir.Keys
    requires forall n :: n in kept ==> kept[n] == dir[n]
    requires forall n :: n in dir ==> (n !in kept <==> Removed(dir, n, now, retentionDays, failing))
    ensures kept == Sweep(dir, now, retentionDays, failing)
  {
  }

  predicate Removed(dir: Dir, n: string, now: int, retentionDays: int, failing: set<string>)
    requires n in dir
  {
    Expired(n, dir[n], now, retentionDays) && n !in failing
  }

  // ------------------------------------------------------------- ingestion

  /**
    A configured feed after fetching. `name` is absent when the feed has no
    `name` key; `entries` is absent when fetching or parsing raised (a missing
    `url` among them); an entry is absent when it has no title, which raises
    while the feed is walked.
   */
  datatype Feed = Feed(name: Option<string>, incStr: string, excStr: string, entries: Option<seq<Option<FeedEntry>>>)

  /** The scraper's view of the settings file. */
  datatype ScraperConfig = ScraperConfig(feeds: seq<Feed>, globalInclude: string, globalExclude: string, retentionDays: int)

  /** A title passes when both the global and the feed's lists accept it. */
  predicate Admitted(title: string, gInc: seq<string>, gExc: seq<string>, lInc: seq<string>, lExc: seq<string>) {
    CheckLogic(title, gInc, gExc) && CheckLogic(title, lInc, lExc)
  }

  /**
    Walks one feed's entries in order, saving the admitted ones. The walk stops
    at an entry that raises: one without a title, or the first admitted one when
    the feed has no name (its name is looked up before the save). Files saved
    before the stop stay.
   */
  function Ingest(dir: Dir, es: seq<Option<FeedEntry>>, named: bool, gInc: seq<string>, gExc: seq<string>,
                  lInc: seq<string>, lExc: seq<string>, md5: string -> string, fallback: string, now: int): (r: Dir)
    decreases |es|
    ensures dir.Keys <= r.Keys
    ensures forall n :: n in dir ==> r[n] == dir[n]
    ensures forall n :: n in r && n !in dir ==>
              exists i :: 0 <= i < |es| && es[i].Some? && Admitted(es[i].value.title, gInc, gExc, lInc, lExc)
                          && n == FileNameOf(md5, es[i].value.title)
                          && r[n] == EntryFile(es[i].value, fallback, now)
    ensures named && (forall i :: 0 <= i < |es| ==> es[i].Some?) ==>
              forall i :: 0 <= i < |es| && Admitted(es[i].value.title, gInc, gExc, lInc, lExc) ==> FileNameOf(md5, es[i].value.title) in r
  {
    if |es| == 0 then dir
    else
      assert forall i :: 1 <= i < |es| ==> es[i] == es[1..][i - 1];
      match es[0]
      case None => dir
      case Some(e) =>
        if !Admitted(e.title, gInc, gExc, lInc, lExc) then Ingest(dir, es[1..], named, gInc, gExc, lInc, lExc, md5, fallback, now)
        else if !named then dir
        else
          var saved := SaveFile(dir, e, md5, fallback, now);
          var r := Ingest(saved, es[1..], named, gInc, gExc, lInc, lExc, md5, fallback, now);
          IngestSavedFrom(dir, saved, r, es, gInc, gExc, lInc, lExc, md5, fallback, now);
          r
  }

  /** Provenance after saving the first entry and walking the rest, from the walk's own provenance. */
  lemma IngestSavedFrom(dir: Dir, saved: Dir, r: Dir, es: seq<Option<FeedEntry>>, gInc: seq<string>, gExc: seq<string>,
                        lInc: seq<string>, lExc: seq<string>, md5: string -> string, fallback: string, now: int)
    requires |es| > 0 && es[0].Some? && Admitted(es[0].value.title, gInc, gExc, lInc, lExc)
    requires saved == SaveFile(dir, es[0].value, md5, fallback, now)
    requires saved.Keys <= r.Keys && forall n :: n in saved ==> r[n] == saved[n]
    requires forall n :: n in r && n !in saved ==>
               exists i :: 0 <= i < |es[1..]| && es[1..][i].Some? && Admitted(es[1..][i].value.title, gInc, gExc, lInc, lExc)
                           && n == FileNameOf(md5, es[1..][i].value.title) && r[n] == EntryFile(es[1..][i].value, fallback, now)
    ensures forall n :: n in r && n !in dir ==>
              exists i :: 0 <= i < |es| && es[i].Some? && Admitted(es[i].value.title, gInc, gExc, lInc, lExc)
                          && n == FileNameOf(md5, es[i].value.title) && r[n] == EntryFile(es[i].value, fallback, now)
  {
    forall n | n in r && n !in dir
      ensures exists i :: 0 <= i < |es| && es[i].Some? && Admitted(es[i].value.title, gInc, gExc, lInc, lExc)
                          && n == FileNameOf(md5, es[i].value.title) && r[n] == EntryFile(es[i].value, fallback, now)
    {
      if n in saved {
        assert n == FileNameOf(md5, es[0].value.title);
      } else {
        var i :| 0 <= i < |es[1..]| && es[1..][i].Some? && Admitted(es[1..][i].value.title, gInc, gExc, lInc, lExc)
                 && n == FileNameOf(md5, es[1..][i].value.title) && r[n] == EntryFile(es[1..][i].value, fallback, now);
        assert es[1..][i] == es[i + 1];
      }
    }
  }

  /**
    File `n` holding `e` is what feed `f` stores for one of its first fifty
    entries that passes both filters.
   */
  predicate FeedFile(f: Feed, n: string, e: Entry, gInc: seq<string>, gExc: seq<string>, md5: string -> string, fallback: string, now: int) {
    f.entries.Some? &&
    exists i :: 0 <= i < |f.entries.value| && i < EntryLimit && f.entries.value[i].Some?
                && Admitted(f.entries.value[i].value.title, gInc, gExc, Terms(f.incStr), Terms(f.excStr))
                && n == FileNameOf(md5, f.entries.value[i].value.title) && e == EntryFile(f.entries.value[i].value, fallback, now)
  }

  /** One feed: nothing when it could not be read; otherwise its first fifty entries under its own lists. */
  function IngestFeed(dir: Dir, f: Feed, gInc: seq<string>, gExc: seq<string>, md5: string -> string, fallback: string, now: int): (r: Dir)
    ensures dir.Keys <= r.Keys && forall n :: n in dir ==> r[n] == dir[n]
    ensures f.entries.None? ==> r == dir
    ensures forall n :: n in r && n !in dir ==> FeedFile(f, n, r[n], gInc, gExc, md5, fallback, now)
  {
    match f.entries
    case None => dir
    case Some(es) =>
      var head := if |es| <= EntryLimit then es else es[..EntryLimit];
      var r := Ingest(dir, head, f.name.Some?, gInc, gExc, Terms(f.incStr), Terms(f.excStr), md5, fallback, now);
      HeadFilesFromFeed(dir, f, head, r, gInc, gExc, md5, fallback, now);
      r
  }

  /** A file the walk over a feed's first fifty entries stores comes from that feed. */
  lemma HeadFilesFromFeed(dir: Dir, f: Feed, head: seq<Option<FeedEntry>>, r: Dir, gInc: seq<string>, gExc: seq<string>,
                          md5: string -> string, fallback: string, now: int)
    requires f.entries.Some? && head == if |f.entries.value| <= EntryLimit then f.entries.value else f.entries.value[..EntryLimit]
    requires forall n :: n in r && n !in dir ==>
               exists i :: 0 <= i < |head| && head[i].Some? && Admitted(head[i].value.title, gInc, gExc, Terms(f.incStr), Terms(f.excStr))
                           && n == FileNameOf(md5, head[i].value.title) && r[n] == EntryFile(head[i].value, fallback, now)
    ensures forall n :: n in r && n !in dir ==> FeedFile(f, n, r[n], gInc, gExc, md5, fallback, now)
  {
    forall n | n in r && n !in dir ensures FeedFile(f, n, r[n], gInc, gExc, md5, fallback, now) {
      var i :| 0 <= i < |head| && head[i].Some? && Admitted(head[i].value.title, gInc, gExc, Terms(f.incStr), Terms(f.excStr))
               && n == FileNameOf(md5, head[i].value.title) && r[n] == EntryFile(head[i].value, fallback, now);
      assert head[i] == f.entries.value[i] && i < EntryLimit;
    }
  }

  /** The feeds in configuration order. */
  function IngestAll(dir: Dir, feeds: seq<Feed>, gInc: seq<string>, gExc: seq<string>, md5: string -> string, fallback: string, now: int): (r: Dir)
    decreases |feeds|
    ensures dir.Keys <= r.Keys && forall n :: n in dir ==> r[n] == dir[n]
    ensures forall n :: n in r && n !in dir ==> exists k :: 0 <= k < |feeds| && FeedFile(feeds[k], n, r[n], gInc, gExc, md5, fallback, now)
  {
    if |feeds| == 0 then dir
    else
      var d1 := IngestFeed(dir, feeds[0], gInc, gExc, md5, fallback, now);
      var r := IngestAll(d1, feeds[1..], gInc, gExc, md5, fallback, now);
      LaterFeedsFiles(dir, d1, r, feeds, gInc, gExc, md5, fallback, now);
      r
  }

  /** A file new after all feeds is new after the first feed or comes from a later one. */
  lemma LaterFeedsFiles(dir: Dir, d1: Dir, r: Dir, feeds: seq<Feed>, gInc: seq<string>, gExc: seq<string>,
                        md5: string -> string, fallback: string, now: int)
    requires |feeds| > 0
    requires forall n :: n in d1 ==> n in r && r[n] == d1[n]
    requires forall n :: n in d1 && n !in dir ==> FeedFile(feeds[0], n, d1[n], gInc, gExc, md5, fallback, now)
    requires forall n :: n in r && n !in d1 ==> exists k :: 0 <= k < |feeds[1..]| && FeedFile(feeds[1..][k], n, r[n], gInc, gExc, md5, fallback, now)
    ensures forall n :: n in r && n !in dir ==> exists k :: 0 <= k < |feeds| && FeedFile(feeds[k], n, r[n], gInc, gExc, md5, fallback, now)
  {
    forall n | n in r && n !in dir ensures exists k :: 0 <= k < |feeds| && FeedFile(feeds[k], n, r[n], gInc, gExc, md5, fallback, now) {
      if n in d1 {
        assert FeedFile(feeds[0], n, r[n], gInc, gExc, md5, fallback, now);
      } else {
        var k :| 0 <= k < |feeds[1..]| && FeedFile(feeds[1..][k], n, r[n], gInc, gExc, md5, fallback, now);
        assert feeds[1..][k] == feeds[k + 1];
      }
    }
  }

  /**
    One pass of the scraper loop over the pending store: expiry first, then,
    when any feeds are configured, ingestion with the global lists.
   */
  function ScrapeCycle(dir: Dir, cfg: ScraperConfig, failing: set<string>, md5: string -> string, fallback: string, now: int): (r: Dir)
    ensures forall n :: n in dir && !(Expired(n, dir[n], now, cfg.retentionDays) && n !in failing) ==> n in r && r[n] == dir[n]
    ensures forall n :: n in dir && n !in r ==> Expired(n, dir[n], now, cfg.retentionDays) && n !in failing
    ensures forall n :: n in r && n !in Sweep(dir, now, cfg.retentionDays, failing) ==>
              exists k :: 0 <= k < |cfg.feeds| && FeedFile(cfg.feeds[k], n, r[n], Terms(cfg.globalInclude), Terms(cfg.globalExclude), md5, fallback, now)
  {
    var swept := Sweep(dir, now, cfg.retentionDays, failing);
    if cfg.feeds == [] then swept
    else IngestAll(swept, cfg.feeds, Terms(cfg.globalInclude), Terms(cfg.globalExclude), md5, fallback, now)
  }

  // ---------------------------------------------------------- idempotence

  /** The walk reaches only entries whose files already exist: it will store nothing. */
  predicate Covered(dir: Dir, es: seq<Option<FeedEntry>>, named: bool, gInc: seq<string>, gExc: seq<string>,
                    lInc: seq<string>, lExc: seq<string>, md5: string -> string)
  {
    if |es| == 0 || es[0].None? then true
    else if !Admitted(es[0].value.title, gInc, gExc, lInc, lExc) then Covered(dir, es[1..], named, gInc, gExc, lInc, lExc, md5)
    else !named || (FileNameOf(md5, es[0].value.title) in dir && Covered(dir, es[1..], named, gInc, gExc, lInc, lExc, md5))
  }

  lemma {:induction false} CoveredGrows(d1: Dir, d2: Dir, es: seq<Option<FeedEntry>>, named: bool, gInc: seq<string>, gExc: seq<string>,
                                        lInc: seq<string>, lExc: seq<string>, md5: string -> string)
    requires Covered(d1, es, named, gInc, gExc, lInc, lExc, md5) && d1.Keys <= d2.Keys
    ensures Covered(d2, es, named, gInc, gExc, lInc, lExc, md5)
  {
    if |es| > 0 && es[0].Some? && (named || !Admitted(es[0].value.title, gInc, gExc, lInc, lExc)) {
      CoveredGrows(d1, d2, es[1..], named, gInc, gExc, lInc, lExc, md5);
    }
  }

  lemma {:induction false} CoveredNoop(dir: Dir, es: seq<Option<FeedEntry>>, named: bool, gInc: seq<string>, gExc: seq<string>,
                                       lInc: seq<string>, lExc: seq<string>, md5: string -> string, fallback: string, now: int)
    requires Covered(dir, es, named, gInc, gExc, lInc, lExc, md5)
    ensures Ingest(dir, es, named, gInc, gExc, lInc, lExc, md5, fallback, now) == dir
  {
    if |es| > 0 && es[0].Some? {
      var e := es[0].value;
      if !Admitted(e.title, gInc, gExc, lInc, lExc) || named {
        CoveredNoop(dir, es[1..], named, gInc, gExc, lInc, lExc, md5, fallback, now);
      }
    }
  }

  lemma {:induction false} IngestCovers(dir: Dir, es: seq<Option<FeedEntry>>, named: bool, gInc: seq<string>, gExc: seq<string>,
                                        lInc: seq<string>, lExc: seq<string>, md5: string -> string, fallback: string, now: int)
    ensures Covered(Ingest(dir, es, named, gInc, gExc, lInc, lExc, md5, fallback, now), es, named, gInc, gExc, lInc, lExc, md5)
    decreases |es|
  {
    if |es| > 0 && es[0].Some? {
      var e := es[0].value;
      if !Admitted(e.title, gInc, gExc, lInc, lExc) {
        IngestCovers(dir, es[1..], named, gInc, gExc, lInc, lExc, md5, fallback, now);
      } else if named {
        IngestCovers(SaveFile(dir, e, md5, fallback, now), es[1..], named, gInc, gExc, lInc, lExc, md5, fallback, now);
      }
    }
  }

  /** Every feed's walk is covered by `dir`. */
  predicate FeedsCovered(dir: Dir, feeds: seq<Feed>, gInc: seq<string>, gExc: seq<string>, md5: string -> string) {
    forall k :: 0 <= k < |feeds| ==> FeedCovered(dir, feeds[k], gInc, gExc, md5)
  }

  predicate FeedCovered(dir: Dir, f: Feed, gInc: seq<string>, gExc: seq<string>, md5: string -> string) {
    f.entries.Some? ==>
      var es := f.entries.value;
      Covered(dir, if |es| <= EntryLimit then es else es[..EntryLimit], f.name.Some?, gInc, gExc, Terms(f.incStr), Terms(f.excStr), md5)
  }

  lemma {:induction false} IngestAllGrows(dir: Dir, feeds: seq<Feed>, gInc: seq<string>, gExc: seq<string>, md5: string -> string, fallback: string, now: int)
    ensures dir.Keys <= IngestAll(dir, feeds, gInc, gExc, md5, fallback, now).Keys
    ensures forall n :: n in dir ==> IngestAll(dir, feeds, gInc, gExc, md5, fallback, now)[n] == dir[n]
    decreases |feeds|
  {
    if |feeds| > 0 {
      IngestAllGrows(IngestFeed(dir, feeds[0], gInc, gExc, md5, fallback, now), feeds[1..], gInc, gExc, md5, fallback, now);
    }
  }

  lemma {:induction false} IngestAllCovers(dir: Dir, feeds: seq<Feed>, gInc: seq<string>, gExc: seq<string>, md5: string -> string, fallback: string, now: int)
    ensures FeedsCovered(IngestAll(dir, feeds, gInc, gExc, md5, fallback, now), feeds, gInc, gExc, md5)
    decreases |feeds|
  {
    if |feeds| > 0 {
      var f := feeds[0];
      var d1 := IngestFeed(dir, f, gInc, gExc, md5, fallback, now);
      var r := IngestAll(d1, feeds[1..], gInc, gExc, md5, fallback, now);
      IngestAllCovers(d1, feeds[1..], gInc, gExc, md5, fallback, now);
      IngestAllGrows(d1, feeds[1..], gInc, gExc, md5, fallback, now);
      if f.entries.Some? {
        var es := f.entries.value;
        var head := if |es| <= EntryLimit then es else es[..EntryLimit];
        IngestCovers(dir, head, f.name.Some?, gInc, gExc, Terms(f.incStr), Terms(f.excStr), md5, fallback, now);
        CoveredGrows(d1, r, head, f.name.Some?, gInc, gExc, Terms(f.incStr), Terms(f.excStr), md5);
      }
      assert forall k :: 1 <= k < |feeds| ==> feeds[k] == feeds[1..][k - 1];
    }
  }

  lemma {:induction false} CoveredAllNoop(dir: Dir, feeds: seq<Feed>, gInc: seq<string>, gExc: seq<string>, md5: string -> string, fallback: string, now: int)
    requires FeedsCovered(dir, feeds, gInc, gExc, md5)
    ensures IngestAll(dir, feeds, gInc, gExc, md5, fallback, now) == dir
    decreases |feeds|
  {
    if |feeds| > 0 {
      var f := feeds[0];
      assert FeedCovered(dir, f, gInc, gExc, md5);
      if f.entries.Some? {
        var es := f.entries.value;
        var head := if |es| <= EntryLimit then es else es[..EntryLimit];
        CoveredNoop(dir, head, f.name.Some?, gInc, gExc, Terms(f.incStr), Terms(f.excStr), md5, fallback, now);
      }
      assert IngestFeed(dir, f, gInc, gExc, md5, fallback, now) == dir;
      assert forall k :: 0 <= k < |feeds[1..]| ==> feeds[1..][k] == feeds[k + 1];
      CoveredAllNoop(dir, feeds[1..], gInc, gExc, md5, fallback, now);
    }
  }

  /** Re-reading the same feeds stores nothing new: ingestion is idempotent. */
  lemma IngestAllIdempotent(dir: Dir, feeds: seq<Feed>, gInc: seq<string>, gExc: seq<string>, md5: string -> string, fallback: string, now1: int, now2: int)
    ensures IngestAll(IngestAll(dir, feeds, gInc, gExc, md5, fallback, now1), feeds, gInc, gExc, md5, fallback, now2)
            == IngestAll(dir, feeds, gInc, gExc, md5, fallback, now1)
  {
    IngestAllCovers(dir, feeds, gInc, gExc, md5, fallback, now1);
    CoveredAllNoop(IngestAll(dir, feeds, gInc, gExc, md5, fallback, now1), feeds, gInc, gExc, md5, fallback, now2);
  }

  /** With no feeds configured the cycle only expires files. */
  lemma NoFeedsOnlySweeps(dir: Dir, cfg: ScraperConfig, failing: set<string>, md5: string -> string, fallback: string, now: int)
    requires cfg.feeds == []
    ensures ScrapeCycle(dir, cfg, failing, md5, fallback, now) == Sweep(dir, now, cfg.retentionDays, failing)
  {
  }

  /**
    A stored file stays untouched by a cycle unless expiry removes it: the cycle
    never rewrites an existing file.
   */
  lemma CycleNeverRewrites(dir: Dir, cfg: ScraperConfig, failing: set<string>, md5: string -> string, fallback: string, now: int, n: string)
    requires n in dir && !(Expired(n, dir[n], now, cfg.retentionDays) && n !in failing)
    ensures n in ScrapeCycle(dir, cfg, failing, md5, fallback, now)
    ensures ScrapeCycle(dir, cfg, failing, md5, fallback, now)[n] == dir[n]
  {
    var swept := Sweep(dir, now, cfg.retentionDays, failing);
    if cfg.feeds != [] {
      IngestAllGrows(swept, cfg.feeds, Terms(cfg.globalInclude), Terms(cfg.globalExclude), md5, fallback, now);
    }
  }

  /**
    Only the first fifty entries count: an admitted entry beyond them is not
    stored unless an earlier one has the same title or the file already exists.
   */
  lemma BeyondLimitIgnored(dir: Dir, f: Feed, gInc: seq<string>, gExc: seq<string>, md5: string -> string, fallback: string, now: int, n: string)
    requires f.entries.Some?
    requires n !in dir
    requires forall i :: 0 <= i < |f.entries.value| && i < EntryLimit && f.entries.value[i].Some? ==> FileNameOf(md5, f.entries.value[i].value.title) != n
    ensures n !in IngestFeed(dir, f, gInc, gExc, md5, fallback, now)
  {
    var es := f.entries.value;
    var head := if |es| <= EntryLimit then es else es[..EntryLimit];
    forall i | 0 <= i < |head| && head[i].Some? ensures FileNameOf(md5, head[i].value.title) != n {
      assert head[i] == es[i] && i < EntryLimit;
    }
  }
}

=== FILE: settings.dfy ===
/**
  The settings loader: the defaults document, creation of the settings file
  when it is missing, and the self-healing merge that adds missing keys (and
  missing keys of the two model sub-objects) to a loaded document without
  touching what the user wrote. Python's `in`, `[]` and item assignment are
  followed exactly: where they raise on a document of the wrong shape, the
  loader falls back to the defaults.
 */
module Settings {
  import opened Options
  import opened Json

  /** One default: a plain value, or a sub-object whose keys are filled in one by one. */
  datatype Default = Plain(v: Json) | Group(subs: seq<(string, Json)>)

  /** Pairs as a map; later pairs win. */
  function PairsMap(ps: seq<(string, Json)>): map<string, Json>
    decreases |ps|
  {
    if |ps| == 0 then map[] else PairsMap(ps[..|ps| - 1])[ps[|ps| - 1].0 := ps[|ps| - 1].1]
  }

  function DefaultJson(d: Default): Json {
    match d
    case Plain(v) => v
    case Group(subs) => JObj(PairsMap(subs))
  }

  function DocOf(defs: seq<(string, Default)>): map<string, Json>
    decreases |defs|
  {
    if |defs| == 0 then map[] else DocOf(defs[..|defs| - 1])[defs[|defs| - 1].0 := DefaultJson(defs[|defs| - 1].1)]
  }

  const LocalModel: string := "openai/gpt-oss-20b"
  const LocalUrl: string := "http://192.168.1.105:11434/v1"
  const FilterPrompt: string := "투자 분석가입니다. 뉴스가 거시경제나 유동성에 중요한지 판독하여 0~5점을 매기세요."
  const AnalystPrompt: string := "당신은 전문 투자 전략가입니다. 지표와 뉴스를 분석하여 투자 전략을 제시하세요."

  function ModelDefaults(temperature: real, prompt: string): seq<(string, Json)> {
    [ ("provider", JStr("Local")),
      ("name", JStr(LocalModel)),
      ("url", JStr(LocalUrl)),
      ("key", JStr("")),
      ("temperature", JNum(temperature)),
      ("prompt", JStr(prompt)) ]
  }

  /** The defaults in the order the merge visits them. */
  const DefaultSettings: seq<(string, Default)> := [
    ("feeds", Plain(JArr([]))),
    ("update_interval", Plain(JNum(10.0))),
    ("view_range", Plain(JStr("실시간"))),
    ("retention_days", Plain(JNum(7.0))),
    ("report_news_count", Plain(JNum(100.0))),
    ("report_auto_gen", Plain(JBool(true))),
    ("report_gen_time", Plain(JStr("08:00"))),
    ("report_days", Plain(JNum(3.0))),
    ("filter_model", Group(ModelDefaults(0.1, FilterPrompt))),
    ("analyst_model", Group(ModelDefaults(0.3, AnalystPrompt)))
  ]

  /** The defaults document. */
  const Defaults: Json := JObj(DocOf(DefaultSettings))

  /** `v` is `u`, or both are objects and `v` keeps every key and value of `u`. */
  predicate Extends(u: Json, v: Json) {
    u == v || (u.JObj? && v.JObj? && u.fields.Keys <= v.fields.Keys && forall k :: k in u.fields ==> v.fields[k] == u.fields[k])
  }

  lemma ExtendsTrans(u: Json, v: Json, w: Json)
    requires Extends(u, v) && Extends(v, w)
    ensures Extends(u, w)
  {
  }

  /**
    `v` is `u`, or both are objects and `v` keeps every key of `u`, each value
    either unchanged or an object extended with more keys.
   */
  predicate Keeps(u: Json, v: Json) {
    u == v || (u.JObj? && v.JObj? && u.fields.Keys <= v.fields.Keys && forall k :: k in u.fields ==> Extends(u.fields[k], v.fields[k]))
  }

  lemma KeepsTrans(u: Json, v: Json, w: Json)
    requires Keeps(u, v) && Keeps(v, w)
    ensures Keeps(u, w)
  {
    if u != v && v != w {
      forall k | k in u.fields ensures Extends(u.fields[k], w.fields[k]) {
        ExtendsTrans(u.fields[k], v.fields[k], w.fields[k]);
      }
    }
  }

  // ------------------------------------------------------------- sub-keys

  /** The value paired with `k` by its first pair, as the loops visit the defaults. */
  function Lookup<T>(ps: seq<(string, T)>, k: string): (r: Option<T>)
    ensures r.Some? <==> exists j :: 0 <= j < |ps| && ps[j].0 == k
    ensures r.Some? ==> exists j :: 0 <= j < |ps| && ps[j].0 == k && ps[j].1 == r.value
    decreases |ps|
  {
    if |ps| == 0 then None
    else if ps[0].0 == k then Some(ps[0].1)
    else
      assert forall j :: 1 <= j < |ps| ==> ps[j] == ps[1..][j - 1];
      Lookup(ps[1..], k)
  }

  /**
    `v` is the object `u` with its missing sub-keys filled: it has exactly the
    keys of `u` and of `subs`, the user's values unchanged, and each added key
    holding its default.
   */
  ghost predicate SubsFilled(u: Json, v: Json, subs: seq<(string, Json)>) {
    && u.JObj? && v.JObj?
    && (forall k :: k in v.fields <==> k in u.fields || Lookup(subs, k).Some?)
    && (forall k :: k in u.fields ==> v.fields[k] == u.fields[k])
    && (forall k :: k in v.fields && k !in u.fields ==> v.fields[k] == Lookup(subs, k).value)
  }

  /**
    The inner loop: for each sub-default whose key is not `in` the user's value,
    assign it. Membership on a list or string does not raise but assignment
    does; membership on anything else raises.
   */
  function FillSubs(u: Json, subs: seq<(string, Json)>): (r: Option<Json>)
    decreases |subs|
    ensures u.JObj? ==> r.Some? && r.value.JObj?
    ensures r.Some? ==> Extends(u, r.value)
    ensures r.Some? && !u.JObj? ==> r.value == u
    ensures r.Some? && r.value.JObj? ==> forall j :: 0 <= j < |subs| ==> subs[j].0 in r.value.fields
    ensures u.JObj? ==> SubsFilled(u, r.value, subs)
  {
    if |subs| == 0 then Some(u)
    else
      var k := subs[0].0;
      assert forall j :: 1 <= j < |subs| ==> subs[j] == subs[1..][j - 1];
      match In(k, u)
      case None => None
      case Some(present) =>
        if present then FillSubs(u, subs[1..])
        else if u.JObj? then
          var r := FillSubs(JObj(u.fields[k := subs[0].1]), subs[1..]);
          ExtendsTrans(u, JObj(u.fields[k := subs[0].1]), r.value);
          r
        else None
  }

  /** A value that already has every sub-key is left as it is. */
  lemma {:induction false} FillSubsPresent(u: Json, subs: seq<(string, Json)>)
    requires u.JObj? && forall j :: 0 <= j < |subs| ==> subs[j].0 in u.fields
    ensures FillSubs(u, subs) == Some(u)
    decreases |subs|
  {
    if |subs| > 0 {
      assert forall j :: 0 <= j < |subs[1..]| ==> subs[1..][j] == subs[j + 1];
      FillSubsPresent(u, subs[1..]);
    }
  }

  lemma FillSubsIdempotent(u: Json, subs: seq<(string, Json)>)
    requires FillSubs(u, subs).Some?
    ensures FillSubs(FillSubs(u, subs).value, subs) == FillSubs(u, subs)
  {
    if u.JObj? {
      FillSubsPresent(FillSubs(u, subs).value, subs);
    }
  }

  // ----------------------------------------------------------------- merge

  /**
    The outer loop over the defaults: a missing key gets its default; a present
    key with a sub-object default has its sub-keys filled. None when any step
    raises.
   */
  function Merge(doc: Json, defs: seq<(string, Default)>): (r: Option<Json>)
    decreases |defs|
    ensures r.Some? && doc.JObj? ==> r.value.JObj? && Keeps(doc, r.value)
    ensures r.Some? && doc.JObj? ==> forall k :: k in r.value.fields <==> k in doc.fields || Lookup(defs, k).Some?
    ensures r.Some? && doc.JObj? ==> forall k :: k in doc.fields && !GroupKey(defs, k) ==> r.value.fields[k] == doc.fields[k]
  {
    if |defs| == 0 then Some(doc)
    else
      var (k, d) := defs[0];
      match In(k, doc)
      case None => None
      case Some(present) =>
        if !present then
          if doc.JObj? then
            var r := Merge(JObj(doc.fields[k := DefaultJson(d)]), defs[1..]);
            if r.Some? then KeepsTrans(doc, JObj(doc.fields[k := DefaultJson(d)]), r.value); r
            else r
          else None
        else if d.Plain? then Merge(doc, defs[1..])
        else if !doc.JObj? then None
        else
          match FillSubs(doc.fields[k], d.subs)
          case None => None
          case Some(u) =>
            var r := Merge(JObj(doc.fields[k := u]), defs[1..]);
            if r.Some? then KeepsTrans(doc, JObj(doc.fields[k := u]), r.value); r
            else r
  }

  /** Some default for `k` is a sub-object default, whose sub-keys the merge fills in. */
  predicate GroupKey(defs: seq<(string, Default)>, k: string) {
    exists i :: 0 <= i < |defs| && defs[i].0 == k && defs[i].1.Group?
  }

  /** After the merge `doc` holds default `(k, d)`: the key is present and, for a sub-object default, every sub-key is. */
  predicate Holds(doc: Json, k: string, d: Default) {
    && In(k, doc) == Some(true)
    && (d.Group? ==> doc.JObj? && FillSubs(doc.fields[k], d.subs) == Some(doc.fields[k]))
  }

  predicate DistinctKeys(defs: seq<(string, Default)>) {
    forall i, j :: 0 <= i < j < |defs| ==> defs[i].0 != defs[j].0
  }

  lemma {:induction false} MergeKeepsHolds(doc: Json, defs: seq<(string, Default)>, k: string, d: Default)
    requires Holds(doc, k, d) && Merge(doc, defs).Some?
    requires forall i :: 0 <= i < |defs| ==> defs[i].0 != k
    ensures Holds(Merge(doc, defs).value, k, d)
    decreases |defs|
  {
    if |defs| > 0 {
      var (k0, d0) := defs[0];
      assert forall i :: 0 <= i < |defs[1..]| ==> defs[1..][i] == defs[i + 1];
      var present := In(k0, doc).value;
      if !present {
        MergeKeepsHolds(JObj(doc.fields[k0 := DefaultJson(d0)]), defs[1..], k, d);
      } else if d0.Plain? {
        MergeKeepsHolds(doc, defs[1..], k, d);
      } else {
        var u := FillSubs(doc.fields[k0], d0.subs).value;
        MergeKeepsHolds(JObj(doc.fields[k0 := u]), defs[1..], k, d);
      }
    }
  }

  /** A completed merge holds every default. */
  lemma {:induction false} MergeHoldsAll(doc: Json, defs: seq<(string, Default)>)
    requires DistinctKeys(defs) && Merge(doc, defs).Some?
    ensures forall i :: 0 <= i < |defs| ==> Holds(Merge(doc, defs).value, defs[i].0, defs[i].1)
    decreases |defs|
  {
    if |defs| > 0 {
      var (k, d) := defs[0];
      var rest := defs[1..];
      assert forall i :: 0 <= i < |rest| ==> rest[i] == defs[i + 1];
      var r := Merge(doc, defs).value;
      var present := In(k, doc).value;
      var next: Json;
      if !present {
        next := JObj(doc.fields[k := DefaultJson(d)]);
        if d.Group? {
          GroupKeysPresent(d.subs);
          FillSubsPresent(DefaultJson(d), d.subs);
        }
      } else if d.Plain? {
        next := doc;
      } else {
        var u := FillSubs(doc.fields[k], d.subs).value;
        FillSubsIdempotent(doc.fields[k], d.subs);
        next := JObj(doc.fields[k := u]);
      }
      assert Merge(next, rest) == Some(r);
      assert Holds(next, k, d);
      MergeHoldsAll(next, rest);
      MergeKeepsHolds(next, rest, k, d);
    }
  }

  lemma {:induction false} GroupKeysPresent(subs: seq<(string, Json)>)
    ensures forall j :: 0 <= j < |subs| ==> subs[j].0 in PairsMap(subs)
    decreases |subs|
  {
    if |subs| > 0 {
      GroupKeysPresent(subs[..|subs| - 1]);
      assert forall j :: 0 <= j < |subs| - 1 ==> subs[..|subs| - 1][j] == subs[j];
    }
  }

  /** A document that already holds every default is returned unchanged. */
  lemma {:induction false} MergeOfComplete(doc: Json, defs: seq<(string, Default)>)
    requires forall i :: 0 <= i < |defs| ==> Holds(doc, defs[i].0, defs[i].1)
    ensures Merge(doc, defs) == Some(doc)
    decreases |defs|
  {
    if |defs| > 0 {
      assert forall i :: 0 <= i < |defs[1..]| ==> defs[1..][i] == defs[i + 1];
      var (k, d) := defs[0];
      assert Holds(doc, k, d);
      if d.Group? {
        assert doc.fields[k := doc.fields[k]] == doc.fields;
      }
      MergeOfComplete(doc, defs[1..]);
    }
  }

  /** Merging a merged document changes nothing. */
  lemma MergeIdempotent(doc: Json, defs: seq<(string, Default)>)
    requires DistinctKeys(defs) && Merge(doc, defs).Some?
    ensures Merge(Merge(doc, defs).value, defs) == Merge(doc, defs)
  {
    MergeHoldsAll(doc, defs);
    MergeOfComplete(Merge(doc, defs).value, defs);
  }

  /** Membership in a number, boolean or null raises. */
  lemma ScalarDocumentFails(doc: Json, defs: seq<(string, Default)>)
    requires doc.JNull? || doc.JBool? || doc.JNum?
    requires |defs| > 0
    ensures Merge(doc, defs) == None
  {
  }

  /**
    A list or string document fails as soon as a sub-object default is reached:
    either the assignment or the `[]` lookup raises.
   */
  lemma {:induction false} NonObjectFails(doc: Json, defs: seq<(string, Default)>, g: int)
    requires !doc.JObj?
    requires 0 <= g < |defs| && defs[g].1.Group?
    ensures Merge(doc, defs) == None
    decreases |defs|
  {
    if g > 0 && In(defs[0].0, doc) == Some(true) && defs[0].1.Plain? {
      assert defs[1..][g - 1] == defs[g];
      NonObjectFails(doc, defs[1..], g - 1);
    }
  }

  /** An object whose sub-object keys hold objects (or are absent) never makes the merge raise. */
  lemma {:induction false} ObjectMergeSucceeds(doc: Json, defs: seq<(string, Default)>)
    requires doc.JObj?
    requires forall i :: 0 <= i < |defs| && defs[i].1.Group? && defs[i].0 in doc.fields ==> doc.fields[defs[i].0].JObj?
    requires DistinctKeys(defs)
    ensures Merge(doc, defs).Some?
    decreases |defs|
  {
    if |defs| > 0 {
      var (k, d) := defs[0];
      var rest := defs[1..];
      assert forall i :: 0 <= i < |rest| ==> rest[i] == defs[i + 1];
      if k !in doc.fields {
        ObjectMergeSucceeds(JObj(doc.fields[k := DefaultJson(d)]), rest);
      } else if d.Plain? {
        ObjectMergeSucceeds(doc, rest);
      } else {
        var u := FillSubs(doc.fields[k], d.subs).value;
        ObjectMergeSucceeds(JObj(doc.fields[k := u]), rest);
      }
    }
  }

  /**
    Every missing top-level key gets its default, and a user object under a
    sub-object key gains every missing sub-key, its own values kept.
   */
  lemma MergeFillsObject(m: map<string, Json>, defs: seq<(string, Default)>, i: int)
    requires DistinctKeys(defs) && Merge(JObj(m), defs).Some?
    requires 0 <= i < |defs|
    ensures var r := Merge(JObj(m), defs).value;
            && r.JObj? && defs[i].0 in r.fields
            && (defs[i].1.Group? ==> forall j :: 0 <= j < |defs[i].1.subs| ==>
                  (r.fields[defs[i].0].JObj? ==> defs[i].1.subs[j].0 in r.fields[defs[i].0].fields))
  {
    MergeHoldsAll(JObj(m), defs);
  }

  /** The merge never changes a key that no default names. */
  lemma {:induction false} MergeFramesKey(doc: Json, defs: seq<(string, Default)>, k: string)
    requires doc.JObj? && k in doc.fields && Merge(doc, defs).Some?
    requires forall i :: 0 <= i < |defs| ==> defs[i].0 != k
    ensures Merge(doc, defs).value.JObj? && k in Merge(doc, defs).value.fields
    ensures Merge(doc, defs).value.fields[k] == doc.fields[k]
    decreases |defs|
  {
    if |defs| > 0 {
      var (k0, d0) := defs[0];
      assert forall i :: 0 <= i < |defs[1..]| ==> defs[1..][i] == defs[i + 1];
      if k0 !in doc.fields {
        MergeFramesKey(JObj(doc.fields[k0 := DefaultJson(d0)]), defs[1..], k);
      } else if d0.Plain? {
        MergeFramesKey(doc, defs[1..], k);
      } else {
        var u := FillSubs(doc.fields[k0], d0.subs).value;
        MergeFramesKey(JObj(doc.fields[k0 := u]), defs[1..], k);
      }
    }
  }

  /** A key the user's object lacks ends up holding exactly its default value. */
  lemma {:induction false} MissingGetsDefault(doc: Json, defs: seq<(string, Default)>, i: int)
    requires doc.JObj? && DistinctKeys(defs) && Merge(doc, defs).Some?
    requires 0 <= i < |defs| && defs[i].0 !in doc.fields
    ensures Merge(doc, defs).value.JObj? && defs[i].0 in Merge(doc, defs).value.fields
    ensures Merge(doc, defs).value.fields[defs[i].0] == DefaultJson(defs[i].1)
    decreases |defs|
  {
    var (k0, d0) := defs[0];
    var rest := defs[1..];
    assert forall j :: 0 <= j < |rest| ==> rest[j] == defs[j + 1];
    if i == 0 {
      MergeFramesKey(JObj(doc.fields[k0 := DefaultJson(d0)]), rest, k0);
    } else {
      var next := MergeNext(doc, defs);
      MissingGetsDefault(next, rest, i - 1);
    }
  }

  /** A user's object under a sub-object key becomes that object with its missing sub-keys filled. */
  lemma {:induction false} MergeFillsGroup(doc: Json, defs: seq<(string, Default)>, i: int)
    requires doc.JObj? && DistinctKeys(defs) && Merge(doc, defs).Some?
    requires 0 <= i < |defs| && defs[i].1.Group? && defs[i].0 in doc.fields && doc.fields[defs[i].0].JObj?
    ensures Merge(doc, defs).value.JObj? && defs[i].0 in Merge(doc, defs).value.fields
    ensures SubsFilled(doc.fields[defs[i].0], Merge(doc, defs).value.fields[defs[i].0], defs[i].1.subs)
    decreases |defs|
  {
    var (k0, d0) := defs[0];
    var rest := defs[1..];
    assert forall j :: 0 <= j < |rest| ==> rest[j] == defs[j + 1];
    if i == 0 {
      var u := FillSubs(doc.fields[k0], d0.subs).value;
      MergeFramesKey(JObj(doc.fields[k0 := u]), rest, k0);
    } else {
      var next := MergeNext(doc, defs);
      MergeFillsGroup(next, rest, i - 1);
    }
  }

  /**
    The object the merge of a user's object moves on to after the first
    default, when that step does not raise; keys other than the first
    default's keep their values.
   */
  function MergeNext(doc: Json, defs: seq<(string, Default)>): (r: Json)
    requires doc.JObj? && |defs| > 0 && Merge(doc, defs).Some?
    ensures r.JObj? && Merge(r, defs[1..]) == Merge(doc, defs)
    ensures r.fields.Keys == doc.fields.Keys + {defs[0].0}
    ensures forall k :: k in doc.fields && k != defs[0].0 ==> r.fields[k] == doc.fields[k]
    ensures defs[0].0 !in doc.fields ==> r.fields[defs[0].0] == DefaultJson(defs[0].1)
    ensures defs[0].0 in doc.fields && defs[0].1.Group? ==>
              FillSubs(doc.fields[defs[0].0], defs[0].1.subs).Some?
              && r.fields[defs[0].0] == FillSubs(doc.fields[defs[0].0], defs[0].1.subs).value
  {
    var (k0, d0) := defs[0];
    if k0 !in doc.fields then JObj(doc.fields[k0 := DefaultJson(d0)])
    else if d0.Plain? then doc
    else JObj(doc.fields[k0 := FillSubs(doc.fields[k0], d0.subs).value])
  }

  /** The model entries of a user's object are objects, or absent. */
  predicate ModelEntriesAreObjects(m: map<string, Json>) {
    && ("filter_model" in m ==> m["filter_model"].JObj?)
    && ("analyst_model" in m ==> m["analyst_model"].JObj?)
  }

  /**
    The settings `c` in effect for the user's object `doc`: every user value
    outside the model entries is kept exactly, the keys are exactly the user's
    and the defaults', a key the user left out holds its default value, a
    user's model object gains exactly its missing sub-keys with their default
    values, and loading `c` again changes nothing.
   */
  ghost predicate Healed(doc: Json, c: Json) {
    && doc.JObj? && c.JObj? && Keeps(doc, c)
    && (forall i :: 0 <= i < |DefaultSettings| ==> DefaultSettings[i].0 in c.fields)
    && (forall k :: k in c.fields <==> k in doc.fields || Lookup(DefaultSettings, k).Some?)
    && (forall k :: k in doc.fields && !GroupKey(DefaultSettings, k) ==> c.fields[k] == doc.fields[k])
    && (forall i :: 0 <= i < |DefaultSettings| && DefaultSettings[i].1.Group? && DefaultSettings[i].0 in doc.fields
                    && doc.fields[DefaultSettings[i].0].JObj? ==>
          SubsFilled(doc.fields[DefaultSettings[i].0], c.fields[DefaultSettings[i].0], DefaultSettings[i].1.subs))
    && (forall i :: 0 <= i < |DefaultSettings| && DefaultSettings[i].0 !in doc.fields ==>
          c.fields[DefaultSettings[i].0] == DefaultJson(DefaultSettings[i].1))
    && Merge(c, DefaultSettings) == Some(c)
  }

  lemma MergedHealed(doc: Json)
    requires doc.JObj? && Merge(doc, DefaultSettings).Some?
    ensures Healed(doc, Merge(doc, DefaultSettings).value)
  {
    DefaultKeysDistinct();
    var c := Merge(doc, DefaultSettings).value;
    MergeHoldsAll(doc, DefaultSettings);
    MergeIdempotent(doc, DefaultSettings);
    forall i | 0 <= i < |DefaultSettings| && DefaultSettings[i].0 !in doc.fields
      ensures c.fields[DefaultSettings[i].0] == DefaultJson(DefaultSettings[i].1)
    {
      MissingGetsDefault(doc, DefaultSettings, i);
    }
    forall i | 0 <= i < |DefaultSettings| && DefaultSettings[i].1.Group? && DefaultSettings[i].0 in doc.fields
                && doc.fields[DefaultSettings[i].0].JObj?
      ensures SubsFilled(doc.fields[DefaultSettings[i].0], c.fields[DefaultSettings[i].0], DefaultSettings[i].1.subs)
    {
      MergeFillsGroup(doc, DefaultSettings, i);
    }
  }

  // ------------------------------------------------------------ the loader

  /** The settings file as found: absent, present but unreadable or not JSON, or a decoded document. */
  datatype ConfigFile = Missing | Unreadable | Present(doc: Json)

  /** The settings in effect and the settings file afterwards. */
  datatype Loaded = Loaded(config: Json, file: ConfigFile)

  /** A document that is not an object always makes the merge raise; a user object with object model entries never does. */
  lemma MergeOutcome(doc: Json)
    ensures !doc.JObj? ==> Merge(doc, DefaultSettings) == None
    ensures doc.JObj? && ModelEntriesAreObjects(doc.fields) ==> Merge(doc, DefaultSettings).Some?
    ensures doc.JObj? && Merge(doc, DefaultSettings).Some? ==> Healed(doc, Merge(doc, DefaultSettings).value)
  {
    DefaultKeysDistinct();
    if !doc.JObj? {
      assert DefaultSettings[8].1.Group?;
      NonObjectFails(doc, DefaultSettings, 8);
    } else {
      if ModelEntriesAreObjects(doc.fields) {
        assert forall i :: 0 <= i < |DefaultSettings| && DefaultSettings[i].1.Group? ==>
                 DefaultSettings[i].0 == "filter_model" || DefaultSettings[i].0 == "analyst_model";
        ObjectMergeSucceeds(doc, DefaultSettings);
      }
      if Merge(doc, DefaultSettings).Some? {
        MergedHealed(doc);
      }
    }
  }

  /**
    Loads the settings. A missing file is created holding the defaults (when the
    write succeeds, `writeOk`); an unreadable file, or a merge that raises,
    yields the defaults. A merged document is not written back.
   */
  function LoadData(f: ConfigFile, writeOk: bool): (r: Loaded)
    ensures f.Missing? ==> r.config == Defaults && r.file == (if writeOk then Present(Defaults) else Missing)
    ensures !f.Missing? ==> r.file == f
    ensures f.Unreadable? ==> r.config == Defaults
    ensures f.Present? && !f.doc.JObj? ==> r.config == Defaults
    ensures f.Present? && Merge(f.doc, DefaultSettings).None? ==> r.config == Defaults
    ensures f.Present? && f.doc.JObj? && ModelEntriesAreObjects(f.doc.fields) ==> Healed(f.doc, r.config)
    ensures f.Present? && f.doc.JObj? && Merge(f.doc, DefaultSettings).Some? ==> Healed(f.doc, r.config)
  {
    match f
    case Missing => Loaded(Defaults, if writeOk then Present(Defaults) else Missing)
    case Unreadable => Loaded(Defaults, f)
    case Present(doc) =>
      MergeOutcome(doc);
      match Merge(doc, DefaultSettings)
      case None => Loaded(Defaults, f)
      case Some(merged) => Loaded(merged, f)
  }

  lemma DefaultKeysDistinct()
    ensures DistinctKeys(DefaultSettings)
  {
  }

  /** Each key of the defaults document holds its default value. */
  lemma {:induction false} DocOfHolds(defs: seq<(string, Default)>, i: int)
    requires DistinctKeys(defs) && 0 <= i < |defs|
    ensures defs[i].0 in DocOf(defs) && DocOf(defs)[defs[i].0] == DefaultJson(defs[i].1)
    decreases |defs|
  {
    var init := defs[..|defs| - 1];
    if i < |defs| - 1 {
      assert forall k :: 0 <= k < |init| ==> init[k] == defs[k];
      DocOfHolds(init, i);
    }
  }

  /** Automatic reports are on in the defaults. */
  lemma DefaultsAutoGenOn()
    ensures "report_auto_gen" in Defaults.fields && Defaults.fields["report_auto_gen"] == JBool(true)
  {
    DefaultKeysDistinct();
    DocOfHolds(DefaultSettings, 5);
  }

  /** A document that is not an object yields the defaults. */
  lemma NonObjectGivesDefaults(doc: Json)
    requires !doc.JObj?
    ensures LoadData(Present(doc), true).config == Defaults
  {
    assert DefaultSettings[8].1.Group?;
    NonObjectFails(doc, DefaultSettings, 8);
  }

  /**
    A loaded object whose model entries, if present, are objects never falls
    back to the defaults: it keeps every user value (sub-objects may only gain
    keys), holds every default key, and loading the result again gives the same
    settings.
   */
  lemma LoadedObjectHealed(m: map<string, Json>)
    requires "filter_model" in m ==> m["filter_model"].JObj?
    requires "analyst_model" in m ==> m["analyst_model"].JObj?
    ensures var c := LoadData(Present(JObj(m)), true).config;
            && Keeps(JObj(m), c)
            && (forall i :: 0 <= i < |DefaultSettings| ==> DefaultSettings[i].0 in c.fields)
            && LoadData(Present(c), true).config == c
  {
    DefaultKeysDistinct();
    assert forall i :: 0 <= i < |DefaultSettings| && DefaultSettings[i].1.Group? ==>
             DefaultSettings[i].0 == "filter_model" || DefaultSettings[i].0 == "analyst_model";
    ObjectMergeSucceeds(JObj(m), DefaultSettings);
    MergeHoldsAll(JObj(m), DefaultSettings);
    MergeIdempotent(JObj(m), DefaultSettings);
  }
}

=== FILE: strings.dfy ===
/** An optional value: `None` plays the part of Python's `None` or of a call that raised. */
module Options {
  datatype Option<+T> = None | Some(value: T)
}

/**
  Python string operations used by the ingestion and report code, written over
  `seq<char>`: substring membership (`in`), `strip`, `lower`, `split`, `join`,
  `splitlines` and `replace(old, "")`.
 */
module Strings {

  // ---------------------------------------------------------------- prefixes

  predicate StartsWith(s: string, prefix: string) {
    |prefix| <= |s| && s[..|prefix|] == prefix
  }

  predicate EndsWith(s: string, suffix: string) {
    |suffix| <= |s| && s[|s| - |suffix|..] == suffix
  }

  // ------------------------------------------------------- substring search

  /** `needle` occurs in `hay` starting at index `i`. */
  predicate OccursAt(hay: string, needle: string, i: int) {
    0 <= i && i + |needle| <= |hay| && hay[i..i + |needle|] == needle
  }

  /** Python's `needle in hay`, scanning start positions left to right. */
  predicate Contains(hay: string, needle: string)
    decreases |hay|
  {
    StartsWith(hay, needle) || (|hay| > 0 && Contains(hay[1..], needle))
  }

  /** A found occurrence is one at a start index. */
  lemma {:induction false} ContainsWitness(hay: string, needle: string) returns (i: nat)
    requires Contains(hay, needle)
    ensures OccursAt(hay, needle, i)
    decreases |hay|
  {
    if StartsWith(hay, needle) {
      i := 0;
    } else {
      var j := ContainsWitness(hay[1..], needle);
      assert hay[1..][j..j + |needle|] == hay[j + 1..j + 1 + |needle|];
      i := j + 1;
    }
  }

  /** An occurrence at any start index is found by the scan. */
  lemma {:induction false} OccursContains(hay: string, needle: string, i: int)
    requires OccursAt(hay, needle, i)
    ensures Contains(hay, needle)
    decreases i
  {
    if i > 0 {
      assert hay[1..][i - 1..i - 1 + |needle|] == hay[i..i + |needle|];
      OccursContains(hay[1..], needle, i - 1);
    }
  }

  /** The scan finds an occurrence exactly when some start index holds one. */
  lemma ContainsIff(hay: string, needle: string)
    ensures Contains(hay, needle) <==> exists i :: OccursAt(hay, needle, i)
  {
    if Contains(hay, needle) {
      var i := ContainsWitness(hay, needle);
    }
    forall i | OccursAt(hay, needle, i) ensures Contains(hay, needle) {
      OccursContains(hay, needle, i);
    }
  }

  /** An occurrence inside the slice `s[a..b]` is an occurrence in `s`. */
  lemma SliceContains(s: string, a: int, b: int, needle: string)
    requires 0 <= a <= b <= |s|
    requires Contains(s[a..b], needle)
    ensures Contains(s, needle)
  {
    var t := s[a..b];
    var j := ContainsWitness(t, needle);
    assert forall k :: 0 <= k < |t| ==> t[k] == s[a + k];
    assert t[j..j + |needle|] == s[a + j..a + j + |needle|];
    OccursContains(s, needle, a + j);
  }

  /** An occurrence in `s` that lies within `[a, b)` is an occurrence in the slice `s[a..b]`. */
  lemma ContainsSlice(s: string, a: int, b: int, needle: string, i: int)
    requires 0 <= a <= i && i + |needle| <= b <= |s|
    requires OccursAt(s, needle, i)
    ensures Contains(s[a..b], needle)
  {
    OccursInSlice(s, a, b, needle, i);
    OccursContains(s[a..b], needle, i - a);
  }

  lemma OccursInSlice(s: string, a: int, b: int, needle: string, i: int)
    requires 0 <= a <= i && i + |needle| <= b <= |s|
    requires OccursAt(s, needle, i)
    ensures OccursAt(s[a..b], needle, i - a)
  {
    var u, v := s[a..b][i - a..i - a + |needle|], s[i..i + |needle|];
    forall k | 0 <= k < |u| ensures u[k] == v[k] {
      assert u[k] == s[a..b][i - a + k];
    }
    assert u == v;
  }

  // -------------------------------------------------------------- whitespace

  /** The characters for which Python's `str.isspace()` holds. */
  predicate IsSpace(c: char) {
    || c == ' '
    || ('\t' <= c <= '\r')
    || ('\U{1c}' <= c <= '\U{1f}')
    || c == '\U{85}' || c == '\U{a0}' || c == '\U{1680}'
    || ('\U{2000}' <= c <= '\U{200a}')
    || c == '\U{2028}' || c == '\U{2029}' || c == '\U{202f}' || c == '\U{205f}'
    || c == '\U{3000}'
  }

  predicate AllSpace(s: string) {
    forall k :: 0 <= k < |s| ==> IsSpace(s[k])
  }

  /** Python's `s.lstrip()`. */
  function TrimLeft(s: string): string {
    if |s| > 0 && IsSpace(s[0]) then TrimLeft(s[1..]) else s
  }

  /** Python's `s.rstrip()`. */
  function TrimRight(s: string): string {
    if |s| > 0 && IsSpace(s[|s| - 1]) then TrimRight(s[..|s| - 1]) else s
  }

  /** `lstrip` leaves the suffix after the maximal run of leading whitespace. */
  lemma {:induction false} TrimLeftFacts(s: string)
    ensures |TrimLeft(s)| <= |s| && TrimLeft(s) == s[|s| - |TrimLeft(s)|..]
    ensures AllSpace(s[..|s| - |TrimLeft(s)|])
    ensures TrimLeft(s) != [] ==> !IsSpace(TrimLeft(s)[0])
    decreases |s|
  {
    if |s| > 0 && IsSpace(s[0]) {
      TrimLeftFacts(s[1..]);
      var n := |s| - |TrimLeft(s)|;
      assert s[1..][n - 1..] == s[n..];
      forall k | 0 <= k < n ensures s[..n][k] == s[k] && IsSpace(s[k]) {
        if k > 0 {
          assert s[1..][..n - 1][k - 1] == s[k];
        }
      }
    }
  }

  /** `rstrip` leaves the prefix before the maximal run of trailing whitespace. */
  lemma {:induction false} TrimRightFacts(s: string)
    ensures |TrimRight(s)| <= |s| && TrimRight(s) == s[..|TrimRight(s)|]
    ensures AllSpace(s[|TrimRight(s)|..])
    ensures TrimRight(s) != [] ==> !IsSpace(TrimRight(s)[|TrimRight(s)| - 1])
    decreases |s|
  {
    if |s| > 0 && IsSpace(s[|s| - 1]) {
      var t := s[..|s| - 1];
      TrimRightFacts(t);
      var n := |TrimRight(s)|;
      assert t[..n] == s[..n];
      forall k | n <= k < |s| ensures s[n..][k - n] == s[k] && IsSpace(s[k]) {
        if k < |s| - 1 {
          assert t[n..][k - n] == s[k];
        }
      }
    }
  }

  /** Python's `s.strip()`. */
  function Strip(s: string): string {
    TrimRight(TrimLeft(s))
  }

  /** `Strip(s)` is the slice `s[a..b]` with only whitespace outside it and no whitespace at its ends. */
  lemma StripBounds(s: string) returns (a: nat, b: nat)
    ensures a <= b <= |s| && Strip(s) == s[a..b]
    ensures forall k :: 0 <= k < a ==> IsSpace(s[k])
    ensures forall k :: b <= k < |s| ==> IsSpace(s[k])
    ensures a < b ==> !IsSpace(s[a]) && !IsSpace(s[b - 1])
  {
    TrimLeftFacts(s);
    TrimRightFacts(TrimLeft(s));
    var l := TrimLeft(s);
    a := |s| - |l|;
    b := a + |Strip(s)|;
    assert l == s[a..];
    assert Strip(s) == l[..|Strip(s)|];
    assert l[|Strip(s)|..] == s[b..];
    forall k | 0 <= k < a ensures IsSpace(s[k]) {
      assert s[..a][k] == s[k];
    }
    forall k | b <= k < |s| ensures IsSpace(s[k]) {
      assert s[b..][k - b] == s[k];
    }
  }

  /** A string strips to nothing exactly when it is all whitespace. */
  /** A stripped text neither starts nor ends with whitespace. */
  lemma StripEnds(s: string)
    ensures |Strip(s)| > 0 ==> !IsSpace(Strip(s)[0]) && !IsSpace(Strip(s)[|Strip(s)| - 1])
  {
    var a, b := StripBounds(s);
  }

  lemma StripEmptyIff(s: string)
    ensures Strip(s) == [] <==> AllSpace(s)
  {
    var a, b := StripBounds(s);
    if Strip(s) == [] {
      forall k | 0 <= k < |s| ensures IsSpace(s[k]) {
        if k >= a {
          assert k >= b;
        }
      }
    }
  }

  // --------------------------------------------------------------- lowering

  /** Case folding of one character; only ASCII letters have a case here. */
  function LowerChar(c: char): char {
    if 'A' <= c <= 'Z' then (c as int + 32) as char else c
  }

  /** Python's `s.lower()`, character by character. */
  function Lower(s: string): (r: string)
    ensures |r| == |s|
  {
    seq(|s|, i requires 0 <= i < |s| => LowerChar(s[i]))
  }

  /** No character of `s` changes under lowering. */
  predicate IsLower(s: string) {
    forall k :: 0 <= k < |s| ==> LowerChar(s[k]) == s[k]
  }

  /** Lowering twice is lowering once. */
  lemma LowerIdempotent(s: string)
    ensures IsLower(Lower(s))
  {
  }

  /** Lowering keeps whitespace as whitespace and everything else as non-whitespace. */
  lemma LowerKeepsSpace(c: char)
    ensures IsSpace(LowerChar(c)) <==> IsSpace(c)
  {
  }

  lemma LowerSlice(s: string, a: int, b: int)
    requires 0 <= a <= b <= |s|
    ensures Lower(s[a..b]) == Lower(s)[a..b]
  {
  }

  lemma LowerConcat(s: string, t: string)
    ensures Lower(s + t) == Lower(s) + Lower(t)
  {
  }

  // -------------------------------------------------------- split and join

  /** `parts` joined with `sep` between consecutive items; `""` for no parts. */
  function Join(parts: seq<string>, sep: char): string {
    if |parts| == 0 then ""
    else if |parts| == 1 then parts[0]
    else parts[0] + [sep] + Join(parts[1..], sep)
  }

  /** Python's `s.split(sep)` for a one-character separator. */
  function Split(s: string, sep: char): (parts: seq<string>)
    ensures |parts| >= 1
    ensures forall i :: 0 <= i < |parts| ==> sep !in parts[i]
    ensures Join(parts, sep) == s
  {
    if |s| == 0 then [""]
    else if s[0] == sep then [""] + Split(s[1..], sep)
    else
      var rest := Split(s[1..], sep);
      [[s[0]] + rest[0]] + rest[1..]
  }

  /** The first character of a non-empty first part leads the join. */
  lemma JoinHead(parts: seq<string>, sep: char)
    requires |parts| >= 1 && |parts[0]| > 0
    ensures Join(parts, sep) == [parts[0][0]] + Join([parts[0][1..]] + parts[1..], sep)
  {
    var p := parts[0];
    var shorter := [p[1..]] + parts[1..];
    assert shorter[1..] == parts[1..];
    assert p == [p[0]] + p[1..];
    if |parts| > 1 {
      assert Join(parts, sep) == p + [sep] + Join(parts[1..], sep);
      assert Join(shorter, sep) == p[1..] + [sep] + Join(parts[1..], sep);
    }
  }

  /** Splitting a join of separator-free parts gives back the parts. */
  lemma {:induction false} SplitJoin(parts: seq<string>, sep: char)
    requires |parts| >= 1
    requires forall i :: 0 <= i < |parts| ==> sep !in parts[i]
    ensures Split(Join(parts, sep), sep) == parts
    decreases |parts|, |parts[0]|
  {
    var p := parts[0];
    if |p| == 0 {
      if |parts| == 1 {
      } else {
        var tail := parts[1..];
        SplitJoin(tail, sep);
        assert Join(parts, sep) == [sep] + Join(tail, sep);
        assert [sep] + Join(tail, sep) == [sep] + Join(tail, sep);
        assert ([sep] + Join(tail, sep))[1..] == Join(tail, sep);
        assert parts == [""] + tail;
      }
    } else {
      var shorter := [p[1..]] + parts[1..];
      assert sep !in p[1..] by {
        forall k | 0 <= k < |p[1..]| ensures p[1..][k] != sep {
          assert p[1..][k] == p[k + 1];
        }
      }
      assert forall i :: 0 <= i < |shorter| ==> sep !in shorter[i];
      SplitJoin(shorter, sep);
      assert shorter[1..] == parts[1..];
      var j := Join(parts, sep);
      JoinHead(parts, sep);
      assert j[0] == p[0] && p[0] != sep;
      assert j[1..] == Join(shorter, sep);
      assert [p[0]] + p[1..] == p;
    }
  }

  lemma {:induction false} JoinAppend(a: seq<string>, b: seq<string>, sep: char)
    requires |a| >= 1 && |b| >= 1
    ensures Join(a + b, sep) == Join(a, sep) + [sep] + Join(b, sep)
    decreases |a|
  {
    if |a| == 1 {
      assert (a + b)[1..] == b;
    } else {
      JoinAppend(a[1..], b, sep);
      assert (a + b)[1..] == a[1..] + b;
    }
  }

  /** Splitting `a + sep + b` splits `a` and `b` separately and concatenates the pieces. */
  lemma SplitConcat(a: string, b: string, sep: char)
    ensures Split(a + [sep] + b, sep) == Split(a, sep) + Split(b, sep)
  {
    var pa, pb := Split(a, sep), Split(b, sep);
    JoinAppend(pa, pb, sep);
    SplitJoin(pa + pb, sep);
  }

  // ------------------------------------------------------------ splitlines

  /** The line boundaries of Python's `str.splitlines()`. */
  predicate IsLineBreak(c: char) {
    || c == '\n' || c == '\r' || c == '\U{0b}' || c == '\U{0c}'
    || ('\U{1c}' <= c <= '\U{1e}')
    || c == '\U{85}' || c == '\U{2028}' || c == '\U{2029}'
  }

  predicate NoLineBreak(s: string) {
    forall k :: 0 <= k < |s| ==> !IsLineBreak(s[k])
  }

  /** Index of the first line boundary in `s`, or `|s|` when there is none. */
  function FirstBreak(s: string): (i: nat)
    ensures i <= |s|
    ensures forall k :: 0 <= k < i ==> !IsLineBreak(s[k])
    ensures i < |s| ==> IsLineBreak(s[i])
  {
    if |s| == 0 || IsLineBreak(s[0]) then 0 else 1 + FirstBreak(s[1..])
  }

  /** Python's `s.splitlines()`: `\r\n` is one boundary and a final boundary adds no empty line. */
  function SplitLines(s: string): seq<string>
    decreases |s|
  {
    if |s| == 0 then []
    else
      var i := FirstBreak(s);
      if i == |s| then [s]
      else if s[i] == '\r' && i + 1 < |s| && s[i + 1] == '\n' then [s[..i]] + SplitLines(s[i + 2..])
      else [s[..i]] + SplitLines(s[i + 1..])
  }

  lemma {:induction false} FirstBreakNone(s: string)
    requires NoLineBreak(s)
    ensures FirstBreak(s) == |s|
    decreases |s|
  {
    if |s| > 0 {
      FirstBreakNone(s[1..]);
    }
  }

  lemma {:induction false} FirstBreakOfLine(line: string, rest: string)
    requires NoLineBreak(line)
    ensures FirstBreak(line + "\n" + rest) == |line|
    decreases |line|
  {
    if |line| > 0 {
      assert (line + "\n" + rest)[1..] == line[1..] + "\n" + rest;
      FirstBreakOfLine(line[1..], rest);
    }
  }

  /** A break-free line followed by `\n` is split off as the first line. */
  lemma SplitLinesCons(line: string, rest: string)
    requires NoLineBreak(line)
    ensures SplitLines(line + "\n" + rest) == [line] + SplitLines(rest)
  {
    var s := line + "\n" + rest;
    FirstBreakOfLine(line, rest);
    assert s[..|line|] == line;
    assert s[|line| + 1..] == rest;
  }

  /** A non-empty break-free text is a single line. */
  lemma SplitLinesSingle(line: string)
    requires |line| > 0 && NoLineBreak(line)
    ensures SplitLines(line) == [line]
  {
    FirstBreakNone(line);
  }

  // ------------------------------------------------------------ replacement

  /** Python's `s.replace(pat, "")`: leftmost non-overlapping occurrences of `pat` removed. */
  function RemoveAll(s: string, pat: string): string
    decreases |s|
  {
    if |pat| == 0 || |s| == 0 then s
    else if StartsWith(s, pat) then RemoveAll(s[|pat|..], pat)
    else [s[0]] + RemoveAll(s[1..], pat)
  }

  /** Removing a pattern that never occurs changes nothing. */
  lemma {:induction false} RemoveAbsent(s: string, pat: string)
    requires !Contains(s, pat)
    ensures RemoveAll(s, pat) == s
    decreases |s|
  {
    if |pat| == 0 || |s| == 0 {
    } else {
      assert !StartsWith(s, pat);
      RemoveAbsent(s[1..], pat);
      assert s == [s[0]] + s[1..];
    }
  }

  /** Removing a leading prefix from text that does not contain it again gives back the text. */
  lemma RemovePrefix(pat: string, body: string)
    requires |pat| > 0 && !Contains(body, pat)
    ensures RemoveAll(pat + body, pat) == body
  {
    var s := pat + body;
    assert StartsWith(s, pat);
    assert s[|pat|..] == body;
    RemoveAbsent(body, pat);
  }

  /** Python's `s.replace(target, replacement)` for single characters. */
  function ReplaceChar(s: string, target: char, replacement: char): (r: string)
    ensures |r| == |s|
    ensures forall k :: 0 <= k < |s| ==> r[k] == (if s[k] == target then replacement else s[k])
  {
    seq(|s|, i requires 0 <= i < |s| => if s[i] == target then replacement else s[i])
  }
}

/** A directory listing: file name to contents, modification time (seconds) and kind. */
module Files {
  import opened Strings

  /** `isFile` is false for a sub-directory, which has no content. */
  datatype Entry = Entry(content: string, mtime: int, isFile: bool)

  type Dir = map<string, Entry>

  /** A regular file written at time `now`. */
  function Written(content: string, now: int): Entry {
    Entry(content, now, true)
  }

  const SecondsPerDay: int := 86400
}
